=== FILE: README.md ===
# KuratorV1 decision logic in Dafny

KuratorV1 is a Discord bot for a role-played empire game. Members book
developments (`/ausbau`, `/develop`), negotiate trade agreements
(`/handelsvertrag`, `/create_trade`) and treaties (`/vertrag`,
`/create_treaty`). Accepted results are written to a Google spreadsheet.
Moderators kick, ban and clear messages.

This project models the decisions inside those command handlers as pure
Dafny functions over immutable data:

- **Development costs.** `Ausbau` covers the static cost table of
  `attached_assets/ausbau.py` and the rules that accept or refuse a
  request. `Development` covers the variant in `cogs/development.py`,
  where members state the costs themselves.
- **Negotiation lifecycle.** Each variant has its own state machine over
  maps from id to record:
  - `TradeCog` and `TreatiesCog` model the `cogs/` commands. There is a
    single answer from the partner, and a pending map plus an active map
    for treaties.
  - `TradeLegacy` and `TreatiesLegacy` model the `attached_assets/`
    commands. There are two successive answers, modelled in `Handshake`,
    and one map for all treaties.

  Replies, timeouts and delivery failures are plain inputs:
  - a `wait_for` is the first message in a finite sequence that the
    check accepts, and the end of the sequence is the timeout;
  - a direct message is `Delivered`, `Forbidden` or `Failed`;
  - time is an integer number of seconds.
- **Trade terms.** The legacy trade command writes its terms as
  "`{mention} liefert {n}x {res}`" into embed fields and parses them back
  with `split`. `TradeLegacy` proves this serialiser/parser pair is a
  round trip.
- **Sheet rows.** `SheetsUtil` (`utils/sheets.py`) and `SheetsLegacy`
  (`attached_assets/sheets.py`) build the spreadsheet rows. Each row
  builder has a reader, and the loggers' contracts or lemmas state that
  the rows they append read back as what was logged. For the legacy development and ledger rows, the
  reader covers the six cost columns.
- **Moderation guards.** `Moderation` (`cogs/moderation.py`) models the
  permission, self-target and role-hierarchy checks of `kick` and `ban`,
  and the clamping of the `clear` amount.

The shared modules are:

- `Wrappers`: `Option` and `Result`.
- `Text`: the Python `str` operations used, such as `lower`, `strip`,
  `split`, `replace`, `join`, `str(int)` and `int(str)`.
- `Chat`: members, messages, `wait_for`, mentions and country roles.
- `Dicts` and `Cells`: insertion-ordered dicts and sheet cells.

Where the source and its description disagree, the model follows the
source:

- The outer `try` of `trade_agreement` in `attached_assets/trade.py`
  (line 68) has no `except` or `finally` clause, so the file does not
  compile as given. `TradeLegacy.Create` models the evident intent: the
  code runs as if that outer `try` were absent.
- The legacy treaty limit counts proposed treaties as well as concluded
  ones, because there is only one map. The `cogs/` limit counts active
  treaties only.

## Model

| member | source | states |
|---|---|---|
| Chat.CountryOf | kuratorV1/attached_assets/trade.py:70-71 | The country is the first role other than @everyone. There is none iff every role is @everyone. |
| Chat.FirstMatch | kuratorV1/cogs/trade.py:185-192 | `wait_for` yields the first message that the check accepts. It times out iff no message is accepted. |
| Chat.FirstMatchSkipsRejected | kuratorV1/cogs/trade.py:185-192 | Messages that the check rejects, placed before the others, do not change which message `wait_for` yields. |
| Ausbau.Place | kuratorV1/attached_assets/ausbau.py:165-234 | A request is accepted iff the member has a country role and either it is a military unit with level 1, zone 0 and a positive count, or it is infrastructure with a listed level and count 1. Each refusal comes in source order: no country, a military level other than 1, a military zone other than 0, an unlisted infrastructure level, an infrastructure count other than 1, and last a military count below 1. Military costs are the table entry times the count, over the same keys. Infrastructure costs are the table entry unchanged. The order keeps the requested type, level and zone. The logged count is the unit count for military units and 1 otherwise. |
| Ausbau.TableLevels | kuratorV1/attached_assets/ausbau.py:31-120 | The levels of each type form the contiguous range `LevelRange`. A military type has level 1 only, so the table lookup is defined whenever validation passes. |
| Ausbau.LevelRangeIsMinMax | kuratorV1/attached_assets/ausbau.py:202-211 | The range reported for an unavailable level is the minimum and the maximum key of that type's table. |
| Ausbau.AsDict | kuratorV1/attached_assets/ausbau.py:32-114 | Every table entry has the six resource keys holz, stein, eisen, stoff, nahrung and gold, in that order, all non-negative. |
| Ausbau.MilitaryIffUnit | kuratorV1/attached_assets/ausbau.py:117-120 | A type is military iff it is one of the six unit types. |
| Ausbau.LoggedRowOfOrder | kuratorV1/attached_assets/ausbau.py:259-267 | The sheet row of an accepted order reads back as its type, level and zone. The count reads back as the unit count for military units and 1 for infrastructure. |
| Development.Develop | kuratorV1/cogs/development.py:87-139 | A level outside 1..7 is refused first, then a zone below 1, then a military count below 1. The count of non-military types is not checked. Otherwise the booking goes to the country named in the invoker's first message in the channel. When no such message arrives, the result is the timeout. The booking's cost dict has exactly the keys holz, stein, eisen, stoff, nahrung, gold, each holding the type's stated amount, and its resource text is the type's. |
| Development.MilitaryIffUnit | kuratorV1/cogs/development.py:96-104 | A choice is military iff it is one of the six unit choices; the generic "Militär" choice is not military. |
| Development.ResourcePartsFollowKosten | kuratorV1/cogs/development.py:132-156 | The summary lists exactly the positive entries of the cost dict, in the order Holz, Stein, Eisen, Stoff, Nahrung, Dukaten, each as "{n} {Key}". |
| Development.NoResourcesIff | kuratorV1/cogs/development.py:142-156 | The summary is "Keine Ressourcen" iff no amount is positive. |
| Development.BookingRowReadsBack | kuratorV1/cogs/development.py:175-184 | The logged row of a booking reads back as its choice, level and zone. It reads back the count when the count is above 1, and 1 otherwise. |
| SheetsUtil.LogTrade | kuratorV1/utils/sheets.py:31-66 | The logger returns True iff a service exists and the append succeeds. In that case exactly one 5-cell row is appended: the date, the two countries, then the offer and the request as term cells. Each term cell reads back as its resource and amount when the resource has no blank. Otherwise nothing is appended. |
| SheetsUtil.TradeRowReadsBack | kuratorV1/utils/sheets.py:45-52 | Both term cells "{resource} ({amount})" read back as resource and amount. |
| SheetsUtil.TermCellRoundTrip | kuratorV1/utils/sheets.py:50-51 | A term cell parses back to the resource and the amount it was built from. |
| SheetsUtil.PositiveEntriesExactly | kuratorV1/utils/sheets.py:94 | The cost summary keeps exactly the entries with a positive amount. |
| SheetsUtil.PositiveEntriesConcat | kuratorV1/utils/sheets.py:94 | The kept entries of a joined dict are those of the first part followed by those of the second, so the dict's order is kept. |
| SheetsUtil.CostSummaryEmptyIff | kuratorV1/utils/sheets.py:94 | The cost summary is empty iff no amount is positive. |
| SheetsUtil.LogDevelopment | kuratorV1/utils/sheets.py:68-118 | The logger returns True iff a service exists and the append succeeds. In that case exactly one 6-cell row is appended. It holds the date, the country and the cost summary of the dict. For a type without a blank, it reads back as that type, level and zone, with the count when it is above one and 1 otherwise. Otherwise nothing is appended. |
| SheetsUtil.DevelopmentRowReadsBack | kuratorV1/utils/sheets.py:97-104 | The "{art} (Stufe {level})" and "Gebiet {gebiet}" cells read back as type, level and zone. The count cell holds the count when it is above 1 and is empty otherwise. |
| SheetsUtil.TypeCellRoundTrip | kuratorV1/utils/sheets.py:100 | The type cell parses back to the development type and level. |
| SheetsUtil.ZoneCellRoundTrip | kuratorV1/utils/sheets.py:102 | The zone cell parses back to the zone number. |
| SheetsLegacy.Unquote | kuratorV1/attached_assets/sheets.py:25 | After stripping, the credential text neither starts nor ends with a quote, and it is no longer than the input. |
| SheetsLegacy.NormalisedHasNoCarriageReturn | kuratorV1/attached_assets/sheets.py:24-28 | No carriage return survives the line-end normalisation. |
| SheetsLegacy.CleanCredentialsUnchanged | kuratorV1/attached_assets/sheets.py:24-28 | Credential text without carriage returns and without surrounding blanks or quotes passes through unchanged. |
| SheetsLegacy.MissingFields | kuratorV1/attached_assets/sheets.py:37-38 | A field is reported missing iff it is required and absent from the parsed keys. |
| SheetsLegacy.GetService | kuratorV1/attached_assets/sheets.py:11-51 | A service is built iff the variable is set and non-empty, the normalised text parses, no required field is missing and the client library accepts the credentials. It is built from the normalised text. A missing-field result names at least one required field. |
| SheetsLegacy.TradeRow | kuratorV1/attached_assets/sheets.py:60-92 | A ledger row has 9 cells: timestamp, exporter, importer, then the amount in the resource's column and 0 in the other five. The columns run Stein, Eisen, Holz, Nahrung, Stoff, Dukaten. |
| SheetsLegacy.UnknownResourceIsZero | kuratorV1/attached_assets/sheets.py:73-78 | A resource outside the six columns gives six zeros. |
| SheetsLegacy.TradeRowReadsBack | kuratorV1/attached_assets/sheets.py:66-78 | A row with a listed resource and a non-zero amount reads back as exactly that movement. |
| SheetsLegacy.LogTrade | kuratorV1/attached_assets/sheets.py:53-119 | Nothing is appended without a service or when the first append fails. Only the first row is appended when the second append fails. The initiator exports the offer in row 1, and the partner exports the request in row 2. |
| SheetsLegacy.LoggedTradeReadsBack | kuratorV1/attached_assets/sheets.py:64-92 | The two rows read back as the offer moving from initiator to partner and the request moving back. |
| SheetsLegacy.DevelopmentLabel | kuratorV1/attached_assets/sheets.py:159-162 | The label is "{art} (x{anzahl})" for the six military units and the plain type otherwise. |
| SheetsLegacy.CostsOf | kuratorV1/attached_assets/sheets.py:146-152 | For each of the six keys, a missing key reads as 0 and a present key reads as its value. |
| SheetsLegacy.RowsAgreeOnCosts | kuratorV1/attached_assets/sheets.py:164-247 | The ledger row, in the order stein, eisen, holz, nahrung, stoff, gold, carries the same amounts as the development row, in the order holz, stein, eisen, stoff, nahrung, gold. |
| SheetsLegacy.LogDevelopment | kuratorV1/attached_assets/sheets.py:121-269 | The logger returns None without a service and True otherwise. It writes by append, or else at row count + 1 after reading column A. The row it writes holds the date, the country, the labelled type with the unit count, the level, the zone and the dict's costs. The 12-cell ledger row with importer "Ausbau" is added only after one of those writes succeeded. |
| SheetsLegacy.DevelopmentRowReadsBack | kuratorV1/attached_assets/sheets.py:165-177 | The development row reads back as its date, country, label, zone and costs. |
| SheetsLegacy.LedgerRowReadsBack | kuratorV1/attached_assets/sheets.py:234-247 | The ledger row reads back as the country exporting the costs to "Ausbau" for the given type. |
| SheetsLegacy.LoggedDevelopmentReadsBack | kuratorV1/attached_assets/sheets.py:146-247 | Both written rows read back, key by key, as the cost dict's amounts, with 0 for a missing key. |
| SheetsLegacy.SuccessWithoutWrite | kuratorV1/attached_assets/sheets.py:226-266 | The logger returns True even when neither write reached the sheet. |
| TradeCog.Create | kuratorV1/cogs/trade.py:73-138 | A bot partner is refused, then a self-partner (as `PartnerIsSelf`), and nothing is stored. Otherwise only the new id is added, carrying both countries and both terms exactly as given. Creation keeps the store free of self-trades. |
| TradeCog.Confirm | kuratorV1/cogs/trade.py:161-219 | Afterwards the id is never pending, and other records are untouched. The sheet logger is called once iff the DM was delivered and the partner's first counted answer starts with "ja". A timeout rejects with "Zeitüberschreitung". A "nein" rejects with `content[5:].strip()`. A refused or failed DM only drops the record. |
| TradeCog.Finalize | kuratorV1/cogs/trade.py:221-287 | A missing id is a no-op. Otherwise the id is removed. An accepted trade is logged exactly once with the stored countries and terms, and a rejected one is never logged. |
| TradeCog.ReasonAfterNein | kuratorV1/cogs/trade.py:199 | "nein {reason}" yields the reason, and a bare "nein" yields none. |
| TradeCog.ConfirmKeepsValid | kuratorV1/cogs/trade.py:207-219 | Confirmation keeps the store free of self-trades. |
| TradeCog.ConfirmIgnoresOtherMessages | kuratorV1/cogs/trade.py:185-192 | Messages that are not the partner's DM answer ("ja"/"nein" prefix) do not change the outcome. |
| TradeCog.AcceptedTradeIsLoggedOnce | kuratorV1/cogs/trade.py:241-254 | A created trade that the partner accepts is logged once with the proposed countries and terms, and the store returns to what it was. |
| Handshake.Run | kuratorV1/attached_assets/trade.py:207-224 | The first wait times out iff no message is accepted. The outcome is FirstNo iff the first accepted answer is not "ja". |
| Handshake.SecondAnswerWitness | kuratorV1/attached_assets/trade.py:209-224 | A deciding second answer is the first message accepted after a first "ja", and the verdict is that answer. |
| Handshake.RunSkipsIgnored | kuratorV1/attached_assets/trade.py:198-204 | Messages that the first check rejects do not change the verdict. |
| Handshake.InitiatorAloneConcludes | kuratorV1/attached_assets/trade.py:198-224 | With the checks as written, two "ja" from the initiator alone accept the agreement. |
| Handshake.IntendedNeedsBothParties | kuratorV1/attached_assets/trade.py:206-224 | With per-party checks, acceptance needs a "ja" from the initiator followed by a "ja" from the partner. |
| TradeLegacy.Fields | kuratorV1/attached_assets/trade.py:104-143 | There are 7 embed fields, 8 with remarks. The export fields read "{mention} liefert {n}x {res}" under "{country} (Export)". The clause field shows the standard clause when none is given. |
| TradeLegacy.Create | kuratorV1/attached_assets/trade.py:68-154 | A proposal is refused iff either member lacks a country role. The id is "{user}-{partner}-{timestamp}". Only that id is added. Its record has the invoker as initiator, the chosen member as partner and the command's channel. It holds the embed fields built from both countries, both mentions and the proposal, both acceptance flags false, and the raw clause and remarks. |
| TradeLegacy.FindField | kuratorV1/attached_assets/trade.py:274-275 | The lookup finds the first field of that name, and finds none iff no field has that name. |
| TradeLegacy.ExportRoundTrip | kuratorV1/attached_assets/trade.py:316-321 | Parsing an export value gives back amount and resource when the mention has no 'l' or 'x' and the resource has no 'x' and no surrounding blanks. |
| TradeLegacy.MentionExportRoundTrip | kuratorV1/attached_assets/trade.py:105-109 | Every member mention meets the round-trip condition. |
| TradeLegacy.FieldsParseBack | kuratorV1/attached_assets/trade.py:308-321 | For distinct countries, the two export fields of a proposal parse back to exactly its terms. |
| TradeLegacy.CountryOrUnknown | kuratorV1/attached_assets/trade.py:260-261 | A member without a role other than @everyone counts as "Unbekannt". |
| TradeLegacy.Finalize | kuratorV1/attached_assets/trade.py:244-449 | Nothing changes for a missing id or a missing announcement channel. A rejection deletes the record and sends the reason, or the default text. An acceptance deletes the record iff the export fields parse. It logs once iff they parse and a sheet id is set. |
| TradeLegacy.Conclude | kuratorV1/attached_assets/trade.py:207-231 | A timeout deletes the record. A first "nein" finalizes as declined by the offering party. A second answer decides. Only a second "ja" can log. |
| TradeLegacy.Respond | kuratorV1/attached_assets/trade.py:182-242 | Unless both proposal DMs are delivered, nothing is logged and the store is unchanged: a refusal's handler raises before its `del`. Two delivered DMs lead to the two waits. |
| TradeLegacy.RefusedProposalStaysPending | kuratorV1/attached_assets/trade.py:233-242 | A refused proposal DM leaves the record pending, unchanged. |
| TradeLegacy.RespondIntended | kuratorV1/attached_assets/trade.py:233-242 | With the handler's notice sent as a plain message, a refused DM deletes the record and nothing else; otherwise the step is the as-written one. |
| TradeLegacy.RespondKeepsFlags | kuratorV1/attached_assets/trade.py:211-221 | A partner flag is never set without the initiator flag. |
| TradeLegacy.Negotiate | kuratorV1/attached_assets/trade.py:198-224 | A log call happens only when the as-written handshake ends with a second "ja". |
| TradeLegacy.NegotiateIntended | kuratorV1/attached_assets/trade.py:198-242 | With the corrected per-party checks and refusal handler, a trade is logged only after a "ja" from the initiator followed by a "ja" from the partner, and a refused DM removes the record. |
| TradeLegacy.CreatedRecordParses | kuratorV1/attached_assets/trade.py:104-127 | A created record's fields parse back to its terms under the members' countries. |
| TradeLegacy.AcceptedTradeIsLogged | kuratorV1/attached_assets/trade.py:263-298 | When both accept, the logger is called once with the proposed countries and terms, and the record is gone. |
| TreatiesLegacy.Limit | kuratorV1/attached_assets/treaties.py:189-197 | The limits are 3/3/3/1/1 for the five kinds and 0 for any other kind. |
| TreatiesLegacy.Create | kuratorV1/attached_assets/treaties.py:57-135 | An unknown kind is refused first, then a missing country, then a reached limit, each with its own refusal. A new record has both flags false, no proposal sent, the standard clause when none is given, the given remarks, and expiry now + days × 86400. |
| TreatiesLegacy.HoldingGrows | kuratorV1/attached_assets/treaties.py:186-187 | Storing a new treaty adds exactly its id to each party's holding of that kind. |
| TreatiesLegacy.CreateRespectsLimit | kuratorV1/attached_assets/treaties.py:185-197 | Creation never takes the initiator past the limit of the kind. |
| TreatiesLegacy.Finalize | kuratorV1/attached_assets/treaties.py:252-420 | Nothing changes for a missing id or a missing channel. An accepted record stays. A rejected record is deleted and announced with its reason or the default text. |
| TreatiesLegacy.Conclude | kuratorV1/attached_assets/treaties.py:223-245 | A timeout deletes the record. A first "nein" or a second "nein" rejects it. A second "ja" keeps it with both flags set. |
| TreatiesLegacy.Respond | kuratorV1/attached_assets/treaties.py:199-250 | The proposal DMs go out only while `messages_sent` is unset. A refused DM deletes the record, and another failure leaves it. |
| TreatiesLegacy.SurvivorIsAccepted | kuratorV1/attached_assets/treaties.py:223-239 | A record that survives an announced confirmation was accepted by both parties and had its proposal sent. |
| TreatiesLegacy.ProposalSentOnce | kuratorV1/attached_assets/treaties.py:205-214 | Once the proposal is sent, the delivery outcomes no longer matter. |
| TreatiesLegacy.Negotiate | kuratorV1/attached_assets/treaties.py:216-239 | A treaty is announced as concluded only when the either-party handshake ends with a second "ja". It is then kept with both acceptance flags set. |
| TreatiesLegacy.NegotiateIntended | kuratorV1/attached_assets/treaties.py:216-239 | With the corrected per-party checks, a treaty is announced as concluded only after a "ja" from the initiator followed by a "ja" from the partner. |
| TreatiesLegacy.InitiatorAloneConcludesTreaty | kuratorV1/attached_assets/treaties.py:216-239 | With both proposal DMs delivered, two "ja" from the initiator alone conclude and announce the treaty with both flags set. |
| TreatiesLegacy.Unexpired | kuratorV1/attached_assets/treaties.py:427-490 | A record survives iff its expiry lies after now, and it survives unchanged. |
| TreatiesLegacy.Sweep | kuratorV1/attached_assets/treaties.py:422-492 | The sweep halts iff an expired record's notice fails with something other than Forbidden, and then nothing is deleted. Otherwise exactly the expired records, pending ones included, are deleted. |
| TreatiesLegacy.SweepIdempotent | kuratorV1/attached_assets/treaties.py:427-490 | A second sweep at the same time removes nothing more, and unexpired records are kept. |
| TreatiesLegacy.PartnerNoticeLosesPartnerCountry | kuratorV1/attached_assets/treaties.py:368 | As written, a one-letter partner country never appears in the partner's notice. |
| TreatiesLegacy.PartnerNotice | kuratorV1/attached_assets/treaties.py:368 | The corrected partner notice names the partner's country where the initiator's notice names the initiator's, and the other way round. |
| TreatiesCog.Limit | kuratorV1/config.py:18-24 | The limits are 5/3/2/1/1 for the five kinds and 999 for any other kind. |
| TreatiesCog.Create | kuratorV1/cogs/treaties.py:66-180 | A bot partner is refused, then a self-partner, then a reached limit over active treaties. A proposal that passes the guards is stored iff two messages from the invoker arrive in the channel, and times out otherwise. The stored record takes its countries from the first and the next such message. It carries the given kind, duration, clause and remarks, with expiry now + days × 86400. Active treaties and the other pending records are untouched. |
| TreatiesCog.Finalize | kuratorV1/cogs/treaties.py:316-370 | A missing id is a no-op. Afterwards the id is never pending. An accepted record is copied to the active map under the same id, and a rejected one never touches the active map. |
| TreatiesCog.Confirm | kuratorV1/cogs/treaties.py:257-314 | The partner's first DM answer starting with "ja" accepts. Another answer rejects with `content[5:].strip()`. A timeout rejects with "Zeitüberschreitung". An undelivered DM only drops the proposal. |
| TreatiesCog.OnlyAcceptedBecomeActive | kuratorV1/cogs/treaties.py:285-300 | Confirmation adds at most its own id to the active map, and only after a delivered proposal whose first counted answer starts with "ja". |
| TreatiesCog.ConfirmKeepsDisjoint | kuratorV1/cogs/treaties.py:336-370 | No id is both pending and active after a confirmation. |
| TreatiesCog.Unexpired | kuratorV1/cogs/treaties.py:378-406 | An active treaty survives iff its expiry lies after now, and it survives unchanged. |
| TreatiesCog.Sweep | kuratorV1/cogs/treaties.py:373-406 | The sweep removes exactly the expired active treaties and leaves the pending map unchanged. |
| TreatiesCog.SweepKeepsDisjoint | kuratorV1/cogs/treaties.py:403-406 | No id is both pending and active after a sweep. |
| TreatiesCog.AddEntry | kuratorV1/cogs/treaties.py:203-213 | An entry joins its kind's group, or opens a new group at the end, and the groups stay keyed by distinct kinds. |
| TreatiesCog.AddEntryHasKind | kuratorV1/cogs/treaties.py:203-205 | Adding an entry gives its kind a group and no other kind one. |
| TreatiesCog.GroupCovers | kuratorV1/cogs/treaties.py:201-205 | A kind has a group iff one of the user's treaties has that kind. |
| TreatiesCog.GroupContents | kuratorV1/cogs/treaties.py:201-213 | Each group holds exactly the user's treaties of its kind, in order. |
| TreatiesCog.ListedExactly | kuratorV1/cogs/treaties.py:201-213 | The flat listing holds one line per treaty of the user in the iteration order, showing the other party, its country and the expiry, and nothing else. |
| TreatiesCog.ListTreaties | kuratorV1/cogs/treaties.py:196-213 | Over an iteration order that lists every active treaty once, the listing groups the user's active treaties by kind, with one group per kind present. Every active treaty of the user appears in its kind's group, and every line of a group comes from one of the user's treaties of that kind. |
| Moderation.IsModerator | kuratorV1/cogs/moderation.py:10-12 | A member is a moderator iff some role name is in MOD_ROLES. |
| Moderation.TopPosition | kuratorV1/cogs/moderation.py:33 | The top role is the highest position among the member's roles. |
| Moderation.Guard | kuratorV1/cogs/moderation.py:18-89 | A kick, or a ban, proceeds iff all of these hold: the invoker has the kick (or ban) permission or is a moderator; the bot has that permission; the target is not the invoker; and the invoker is the owner or outranks the target. The refusals come in that order, the last being that the invoker does not outrank the target. |
| Moderation.NoMutualAction | kuratorV1/cogs/moderation.py:33-35 | Of two non-owners, at most one can kick or ban the other. |
| Moderation.ModeratorMayModerate | kuratorV1/cogs/moderation.py:18-20 | A moderator role passes the permission check whatever the permissions. |
| Moderation.Clear | kuratorV1/cogs/moderation.py:126-141 | A purge happens iff the permission checks pass and the amount is positive. The limit lies in 1..100 and equals the amount unless the amount exceeds 100. |

## Left out

- Discord I/O is not modelled: embeds, images, interaction responses, message deletion, and the kick, ban and purge calls themselves. Only the decisions and the store transitions are.
- Google Sheets calls and `json.loads` become parameters: whether a service exists, whether each call succeeds, and the parsed top-level keys.
- Wall-clock time and `strftime` are left out. Times are integer seconds and dates are opaque strings.
- The German message templates are not modelled, except the rejection reasons and defaults that the decisions pass around.
- Image generation, `main.py`, `bot.py`, `keep_alive.py`, the `general.py` cogs and `attached_assets/moderation.py` are not part of this model.
- Text: case mapping covers ASCII letters only. `int()` accepts a sign, digits and surrounding whitespace, but not underscores or non-ASCII digits. Whitespace is the ASCII set (blank, tab, line feed, vertical tab, form feed, carriage return); Python's `strip()` and `int()` also drop \x1c-\x1f, \x85, \xa0, \u2000-\u200a, \u3000 and a few others. Text that starts or ends with one of those strips differently in the model. This affects rejection reasons, the export-field parser and the credential unquoting.
- Notifications sent during a finalize or after it are assumed to be delivered. The exceptions they could raise, and the handlers that would then catch them, are not modelled. The one exception is the proposal DM, whose delivery is an input.
- TradeCog.Confirm and TreatiesCog.Confirm: the DM to the partner before the timeout finalize is assumed to be delivered. If it failed, the record would be dropped without a finalize.
- TreatiesLegacy.Create: the kind check is membership in the five kinds. `vars(TreatyTypes)` also lists the class's own name and module name, which the command's choice list never offers.
- TradeLegacy.Respond: the outer `discord.Forbidden` handler also catches refusals raised inside finalize. The model covers only the proposal DMs. The handler's `channel.send(..., ephemeral=True)` is taken to raise `TypeError` under the pinned discord.py 2.5.2, whose `Messageable.send` has no `ephemeral` parameter. The exception itself, which ends the command task, is not modelled.
- TradeLegacy.Negotiate: the model assumes Python 3.11 or later, where the builtin `TimeoutError` caught at `attached_assets/trade.py:226` is `asyncio.TimeoutError`. On Python 3.10 that handler would not catch the wait's timeout: the task would end with the exception and the record would stay pending.
- Every command, response and sweep is modelled as one atomic transition, and concurrent tasks are not interleaved. During an await inside `for … in self.active_treaties.items()` (`cogs/treaties.py:378-401`, `attached_assets/treaties.py:427-485`), another task could add or remove a treaty. The next iteration would then raise `RuntimeError` and end the sweep. For the legacy loop, that ends the hourly task for good. The unguarded `del` at `attached_assets/treaties.py:490` could raise `KeyError` if the record was removed meanwhile. TreatiesCog.Sweep and TreatiesLegacy.Sweep state the outcome of an uninterrupted run only.
- TradeLegacy.ExportRoundTrip: the round trip is proved only for mentions without 'l' or 'x' and for resources without 'x' or surrounding blanks. Every member mention and all six offered resources (Stein, Eisen, Holz, Nahrung, Stoff, Dukaten) qualify. For other text the split-based parser misreads the value.
- TradeLegacy.FieldsParseBack: the parse-back is proved only for two different countries. With equal countries, both lookups find the first export field, so the request reads as the offer.
- Moderation.TopPosition: roles are compared by position only. The library's tie-break between roles of equal position is not part of this model.
- Moderation: kick, ban and purge failures (`Forbidden`, `HTTPException`) only produce messages, so they are left out.
- Development.Develop: the count is not validated for non-military choices, as in the source. The booking carries the count as given.

## Findings

| source | as written | input that shows it | evidently intended | confidence | as-written member | corrected member |
|---|---|---|---|---|---|---|
| kuratorV1/attached_assets/trade.py:198-224 | Both waits use one check that accepts "ja"/"nein" from either party. The same check appears in `attached_assets/treaties.py:216-239`. | The initiator sends "ja" twice by DM; the partner stays silent; the agreement is concluded. | The first wait reads the initiator's answer and the second the partner's. | high, not executed | Handshake.InitiatorAloneConcludes, TreatiesLegacy.InitiatorAloneConcludesTreaty | Handshake.IntendedNeedsBothParties, TradeLegacy.NegotiateIntended, TreatiesLegacy.NegotiateIntended |
| kuratorV1/attached_assets/treaties.py:368 | The partner's notice is the initiator's with `.replace(c1, c2).replace(c2, c1)`, so the second replace undoes the first. The expiry notice at line 484 does the same. | Initiator country "Ost" and partner country "W": the partner's notice never contains "W". | The partner's notice is addressed to the partner's country and names the initiator's. | high, not executed | TreatiesLegacy.PartnerNoticeLosesPartnerCountry | TreatiesLegacy.PartnerNotice |
| kuratorV1/attached_assets/trade.py:233-242 | The `discord.Forbidden` handler sends its notice with `channel.send(..., ephemeral=True)` before `del self.pending_trades[trade_id]`. A text channel's `send` has no `ephemeral` parameter in discord.py 2.5.2, so the call raises before the `del`. | The initiator has direct messages closed: the proposal DM is refused, and the record stays pending with no one able to answer it. | The refusal is reported and the pending record is removed. | medium, not executed | TradeLegacy.RefusedProposalStaysPending | TradeLegacy.RespondIntended, TradeLegacy.NegotiateIntended |

=== FILE: ausbau.dfy ===
/** The `/ausbau` command (`attached_assets/ausbau.py`): a static table of
    development costs keyed by development type and level, the rules that
    accept or refuse a request, and the cost that is charged and logged. */
module Ausbau {
  import opened Wrappers
  import Chat
  import Dicts
  import SheetsUtil

  /** The fifteen choices of the command. */
  datatype DevType =
    | Wirtschaft | Bevoelkerung | Bergbau | Agrabau | Nebenstadt | Handelsposten
    | Hauptstadt | Handelszentrum | Festung
    | Infanterie | Kavallerie | Artillerie | Korvette | Fregatte | Linienschiff

  /** The choice value, which is also the key of the cost table. */
  function Name(t: DevType): string {
    match t
    case Wirtschaft => "Wirtschaft"
    case Bevoelkerung => "Bevölkerung"
    case Bergbau => "Bergbau"
    case Agrabau => "Agrabau"
    case Nebenstadt => "Nebenstadt"
    case Handelsposten => "Handelsposten"
    case Hauptstadt => "Hauptstadt"
    case Handelszentrum => "Handelszentrum"
    case Festung => "Festung"
    case Infanterie => "Infanterie"
    case Kavallerie => "Kavallerie"
    case Artillerie => "Artillerie"
    case Korvette => "Korvette"
    case Fregatte => "Fregatte"
    case Linienschiff => "Linienschiff"
  }

  /** `militaerische_einheiten` */
  const MilitaryUnits: seq<string> :=
    ["Infanterie", "Kavallerie", "Artillerie", "Korvette", "Fregatte", "Linienschiff"]

  /** `ausbau_art.value in militaerische_einheiten` */
  predicate IsMilitary(t: DevType) {
    Name(t) in MilitaryUnits
  }

  /** The six resource keys of every table entry, in the table's order. */
  const ResourceKeys: seq<string> := ["holz", "stein", "eisen", "stoff", "nahrung", "gold"]

  /** One table entry. */
  datatype Costs = Costs(holz: nat, stein: nat, eisen: nat, stoff: nat, nahrung: nat, gold: nat)

  /** A table entry as the dict the handler works with. */
  function AsDict(c: Costs): (d: Dicts.Dict)
    ensures Dicts.Keys(d) == ResourceKeys
    ensures forall i :: 0 <= i < |d| ==> d[i].1 >= 0
  {
    [("holz", c.holz), ("stein", c.stein), ("eisen", c.eisen), ("stoff", c.stoff),
     ("nahrung", c.nahrung), ("gold", c.gold)]
  }

  /** `ausbau_kosten[t]`: level -> cost entry. */
  function Table(t: DevType): map<int, Costs> {
    match t
    case Wirtschaft => map[
      2 := Costs(60, 60, 10, 0, 0, 1500000),
      3 := Costs(150, 150, 20, 0, 0, 3000000),
      4 := Costs(200, 200, 50, 10, 0, 5000000),
      5 := Costs(350, 350, 100, 20, 0, 7500000),
      6 := Costs(450, 450, 150, 50, 0, 10000000),
      7 := Costs(500, 500, 200, 100, 0, 15000000)]
    case Bevoelkerung => map[
      2 := Costs(80, 30, 0, 0, 20, 750000),
      3 := Costs(200, 100, 0, 0, 50, 1000000),
      4 := Costs(250, 150, 10, 10, 75, 2000000),
      5 := Costs(400, 300, 25, 20, 100, 3000000),
      6 := Costs(500, 400, 50, 50, 200, 5000000),
      7 := Costs(600, 450, 100, 100, 300, 7000000)]
    case Bergbau => map[
      2 := Costs(50, 50, 20, 0, 0, 2000000),
      3 := Costs(100, 100, 30, 0, 0, 4000000),
      4 := Costs(150, 150, 75, 10, 0, 6000000),
      5 := Costs(300, 300, 125, 20, 0, 8000000),
      6 := Costs(400, 400, 175, 50, 0, 10000000),
      7 := Costs(450, 450, 250, 100, 0, 12500000)]
    case Agrabau => map[
      2 := Costs(50, 50, 10, 0, 0, 2000000),
      3 := Costs(125, 125, 20, 0, 0, 4000000),
      4 := Costs(175, 175, 50, 10, 0, 6000000),
      5 := Costs(325, 325, 100, 20, 0, 8000000),
      6 := Costs(425, 425, 150, 50, 0, 10000000),
      7 := Costs(475, 475, 200, 100, 0, 12500000)]
    case Nebenstadt => map[
      2 := Costs(150, 150, 50, 50, 0, 5000000),
      3 := Costs(250, 250, 50, 150, 0, 7000000)]
    case Handelsposten => map[
      2 := Costs(200, 200, 50, 100, 0, 5000000),
      3 := Costs(300, 300, 75, 200, 0, 7000000),
      4 := Costs(500, 500, 100, 300, 0, 10000000),
      5 := Costs(750, 750, 150, 500, 0, 15000000)]
    case Hauptstadt => map[
      2 := Costs(200, 200, 50, 100, 0, 5000000),
      3 := Costs(300, 300, 75, 200, 0, 7000000),
      4 := Costs(500, 500, 100, 300, 0, 10000000),
      5 := Costs(750, 750, 150, 500, 0, 12500000),
      6 := Costs(850, 850, 200, 750, 0, 17500000),
      7 := Costs(1000, 1000, 250, 1000, 0, 20000000)]
    case Handelszentrum => map[
      2 := Costs(200, 200, 50, 200, 0, 7000000),
      3 := Costs(300, 300, 75, 300, 0, 10000000),
      4 := Costs(500, 500, 100, 500, 0, 12500000),
      5 := Costs(750, 750, 150, 750, 0, 17500000),
      6 := Costs(850, 850, 200, 1000, 0, 20000000),
      7 := Costs(1000, 1000, 250, 1250, 0, 25000000)]
    case Festung => map[
      1 := Costs(100, 200, 100, 0, 75, 3000000),
      2 := Costs(150, 300, 150, 0, 100, 5500000),
      3 := Costs(200, 400, 200, 0, 150, 8000000),
      4 := Costs(250, 500, 250, 50, 200, 11500000),
      5 := Costs(300, 750, 300, 75, 250, 16000000)]
    case Infanterie => map[1 := Costs(0, 0, 20, 20, 30, 250000)]
    case Kavallerie => map[1 := Costs(0, 0, 20, 10, 40, 325000)]
    case Artillerie => map[1 := Costs(0, 0, 40, 20, 10, 500000)]
    case Korvette => map[1 := Costs(40, 0, 20, 25, 20, 275000)]
    case Fregatte => map[1 := Costs(60, 0, 30, 40, 30, 400000)]
    case Linienschiff => map[1 := Costs(80, 0, 45, 60, 40, 550000)]
  }

  /** The levels listed for a type run without gaps from the first to the
      last; the pair is the smallest and the largest listed level. */
  function LevelRange(t: DevType): (int, int) {
    match t
    case Wirtschaft => (2, 7)
    case Bevoelkerung => (2, 7)
    case Bergbau => (2, 7)
    case Agrabau => (2, 7)
    case Nebenstadt => (2, 3)
    case Handelsposten => (2, 5)
    case Hauptstadt => (2, 7)
    case Handelszentrum => (2, 7)
    case Festung => (1, 5)
    case _ => (1, 1)
  }

  /** The military types are exactly the six unit types. */
  lemma MilitaryIffUnit(t: DevType)
    ensures IsMilitary(t) <==> t in {Infanterie, Kavallerie, Artillerie, Korvette, Fregatte, Linienschiff}
  {
  }

  /** The levels of a type are exactly the range whose ends are reported
      when a level is unavailable; a military type is priced at level 1
      only. */
  lemma TableLevels(t: DevType, level: int)
    ensures level in Table(t) <==> LevelRange(t).0 <= level <= LevelRange(t).1
    ensures IsMilitary(t) ==> (level in Table(t) <==> level == 1)
  {
    match t
    case Wirtschaft =>
    case Bevoelkerung =>
    case Bergbau =>
    case Agrabau =>
    case Nebenstadt =>
    case Handelsposten =>
    case Hauptstadt =>
    case Handelszentrum =>
    case Festung =>
    case _ =>
  }

  /** The reported range consists of the smallest and the largest level. */
  lemma LevelRangeIsMinMax(t: DevType)
    ensures LevelRange(t).0 in Table(t) && LevelRange(t).1 in Table(t)
    ensures forall l :: l in Table(t) ==> LevelRange(t).0 <= l <= LevelRange(t).1
  {
    forall l | l in Table(t)
      ensures LevelRange(t).0 <= l <= LevelRange(t).1
    {
      TableLevels(t, l);
    }
    TableLevels(t, LevelRange(t).0);
    TableLevels(t, LevelRange(t).1);
  }

  datatype Request = Request(art: DevType, level: int, gebiet: int, anzahl: int)

  /** Why the command refused a request (each is an ephemeral reply). */
  datatype Refusal =
    | NoCountry
    | MilitaryLevelNotOne
    | MilitaryZoneNotZero
    | LevelUnavailable(minLevel: int, maxLevel: int)
    | InfrastructureCountNotOne
    | CountNotPositive

  /** An accepted request: the country it is booked for, the costs charged
      and the count passed on to the sheet logger. */
  datatype Order = Order(country: string, art: DevType, level: int, gebiet: int,
                         kosten: Dicts.Dict, loggedCount: int)

  /** Every cost of the dict multiplied by the unit count, keys and order kept. */
  function Scale(d: Dicts.Dict, n: int): Dicts.Dict {
    seq(|d|, i requires 0 <= i < |d| => (d[i].0, d[i].1 * n))
  }

  /** All the requirements a request has to meet, stated independently of
      the order in which the command checks them. */
  predicate Acceptable(roles: seq<string>, req: Request) {
    && Chat.CountryOf(roles).Some?
    && (IsMilitary(req.art) ==> req.level == 1 && req.gebiet == 0 && req.anzahl > 0)
    && (!IsMilitary(req.art) ==> req.level in Table(req.art) && req.anzahl == 1)
  }

  /** The decision of `Ausbau.ausbau` for a member with the given roles. */
  function Place(roles: seq<string>, req: Request): (r: Result<Order, Refusal>)
    ensures r.Ok? <==> Acceptable(roles, req)
    ensures r == Err(NoCountry) <==> Chat.CountryOf(roles).None?
    ensures Chat.CountryOf(roles).Some? && IsMilitary(req.art) && req.level != 1
            ==> r == Err(MilitaryLevelNotOne)
    ensures Chat.CountryOf(roles).Some? && IsMilitary(req.art) && req.level == 1 && req.gebiet != 0
            ==> r == Err(MilitaryZoneNotZero)
    ensures Chat.CountryOf(roles).Some? && !IsMilitary(req.art) && req.level !in Table(req.art)
            ==> r == Err(LevelUnavailable(LevelRange(req.art).0, LevelRange(req.art).1))
    ensures (Chat.CountryOf(roles).Some? && !IsMilitary(req.art) && req.level in Table(req.art)
             && req.anzahl != 1) ==> r == Err(InfrastructureCountNotOne)
    ensures r == Err(CountNotPositive) ==> IsMilitary(req.art) && req.anzahl <= 0
    ensures Chat.CountryOf(roles).Some? && IsMilitary(req.art) && req.level == 1 && req.gebiet == 0 && req.anzahl <= 0
            ==> r == Err(CountNotPositive)
    ensures r.Ok? ==> req.level in Table(req.art)
    ensures r.Ok? ==> r.value.country == Chat.CountryOf(roles).value
    ensures r.Ok? ==> r.value.art == req.art && r.value.level == req.level && r.value.gebiet == req.gebiet
    ensures r.Ok? && IsMilitary(req.art) ==>
              && Dicts.Keys(r.value.kosten) == ResourceKeys
              && forall i :: 0 <= i < |r.value.kosten| ==>
                   r.value.kosten[i].1 == AsDict(Table(req.art)[req.level])[i].1 * req.anzahl
    ensures r.Ok? && !IsMilitary(req.art) ==> r.value.kosten == AsDict(Table(req.art)[req.level])
    ensures r.Ok? ==> r.value.loggedCount == if IsMilitary(req.art) then req.anzahl else 1
  {
    var country := Chat.CountryOf(roles);
    if country.None? then Err(NoCountry)
    else if IsMilitary(req.art) && req.level != 1 then Err(MilitaryLevelNotOne)
    else if IsMilitary(req.art) && req.gebiet != 0 then Err(MilitaryZoneNotZero)
    else if !IsMilitary(req.art) && req.level !in Table(req.art) then
      LevelRangeIsMinMax(req.art);
      Err(LevelUnavailable(LevelRange(req.art).0, LevelRange(req.art).1))
    else if !IsMilitary(req.art) && req.anzahl != 1 then Err(InfrastructureCountNotOne)
    else
      TableLevels(req.art, req.level);
      var base := AsDict(Table(req.art)[req.level]);
      if IsMilitary(req.art) then
        if req.anzahl <= 0 then Err(CountNotPositive)
        else Ok(Order(country.value, req.art, req.level, req.gebiet, Scale(base, req.anzahl), req.anzahl))
      else Ok(Order(country.value, req.art, req.level, req.gebiet, base, 1))
  }

  /** The sheet row an accepted order is logged with (the command logs
      through `utils/sheets.py`). */
  function OrderRow(o: Order, date: string): SheetsUtil.Cells.Row {
    SheetsUtil.DevelopmentRow(date, o.country, Name(o.art), o.level, o.kosten, o.gebiet, o.loggedCount)
  }

  lemma NameHasNoSpace(t: DevType)
    ensures ' ' !in Name(t)
  {
  }

  /** Reading back the logged row of an accepted order gives its type,
      level and zone, and as count the number of units for a military
      order and 1 for an infrastructure order. */
  lemma LoggedRowOfOrder(roles: seq<string>, req: Request, date: string)
    requires Place(roles, req).Ok?
    ensures SheetsUtil.ReadDevelopmentRow(OrderRow(Place(roles, req).value, date))
            == Some(SheetsUtil.DevelopmentEntry(Name(req.art), req.level, req.gebiet,
                                                if IsMilitary(req.art) then req.anzahl else 1))
  {
    var o := Place(roles, req).value;
    NameHasNoSpace(o.art);
    SheetsUtil.DevelopmentRowReadsBack(date, o.country, Name(o.art), o.level, o.kosten, o.gebiet, o.loggedCount);
  }
}

=== FILE: chat.dfy ===
/** What the command handlers see of the chat platform: members with their
    role names, messages arriving in a channel, the `wait_for` primitive
    and the outcome of sending a direct message. */
module Chat {
  import opened Wrappers
  import Text

  /** A guild member: its snowflake id, whether it is a bot account and the
      names of its roles in the order the platform lists them (the default
      role "@everyone" included). */
  datatype User = User(id: nat, isBot: bool, roles: seq<string>)

  /** A private one-to-one channel, or a guild text channel by id. */
  datatype Channel = Direct | Guild(id: nat)

  datatype Msg = Msg(author: nat, channel: Channel, content: string)

  /** What `member.send(...)` did: delivered, refused by the platform
      (`discord.Forbidden`, e.g. private messages disabled), or failed with
      some other exception. */
  datatype Delivery = Delivered | Forbidden | Failed

  const EveryoneRole: string := "@everyone"

  /** The member's country: its first role other than "@everyone". */
  function CountryOf(roles: seq<string>): (r: Option<string>)
    ensures r.None? <==> forall i :: 0 <= i < |roles| ==> roles[i] == EveryoneRole
    ensures r.Some? ==> r.value != EveryoneRole
    ensures r.Some? ==> exists i :: 0 <= i < |roles| && roles[i] == r.value
                                    && forall j :: 0 <= j < i ==> roles[j] == EveryoneRole
  {
    if |roles| == 0 then None
    else if roles[0] != EveryoneRole then Some(roles[0])
    else
      var rest := CountryOf(roles[1..]);
      if rest.Some? then
        ghost var i :| 0 <= i < |roles[1..]| && roles[1..][i] == rest.value
                       && forall j :: 0 <= j < i ==> roles[1..][j] == EveryoneRole;
        assert roles[i + 1] == rest.value;
        rest
      else rest
  }

  /** `member.mention` */
  function Mention(id: nat): string {
    "<@" + Text.NatToString(id) + ">"
  }

  /** Waiting for a message with a check and a timeout: the messages
      that arrive before the timeout are `msgs`; the wait returns the first
      one the check accepts, or times out (`None`) when none does. */
  function FirstMatch(msgs: seq<Msg>, accept: Msg -> bool): (r: Option<nat>)
    ensures r.Some? ==> r.value < |msgs| && accept(msgs[r.value])
    ensures r.Some? ==> forall j :: 0 <= j < r.value ==> !accept(msgs[j])
    ensures r.None? <==> forall j :: 0 <= j < |msgs| ==> !accept(msgs[j])
  {
    if |msgs| == 0 then None
    else if accept(msgs[0]) then Some(0)
    else match FirstMatch(msgs[1..], accept)
      case None => None
      case Some(i) => Some(i + 1)
  }

  /** Messages the check rejects do not influence the wait: the accepted
      message is found behind them at a correspondingly later position. */
  lemma {:induction false} FirstMatchSkipsRejected(noise: seq<Msg>, msgs: seq<Msg>, accept: Msg -> bool)
    requires forall j :: 0 <= j < |noise| ==> !accept(noise[j])
    ensures FirstMatch(noise + msgs, accept) == (match FirstMatch(msgs, accept)
                                                 case None => None
                                                 case Some(i) => Some(i + |noise|))
    decreases |noise|
  {
    if |noise| == 0 {
      assert noise + msgs == msgs;
    } else {
      assert (noise + msgs)[0] == noise[0];
      assert (noise + msgs)[1..] == noise[1..] + msgs;
      FirstMatchSkipsRejected(noise[1..], msgs, accept);
    }
  }

  /** A wait that is satisfied resumes after the accepted message: the next
      wait sees only what arrives afterwards. */
  function After(msgs: seq<Msg>, i: nat): seq<Msg>
    requires i < |msgs|
  {
    msgs[i + 1..]
  }

  /** A mention is `<@` digits `>`: it contains no letter at all, in
      particular neither 'l' nor 'x'. */
  lemma MentionHasNoLetters(id: nat)
    ensures 'l' !in Mention(id) && 'x' !in Mention(id)
  {
    var d := Text.NatToString(id);
    assert forall i :: 0 <= i < |d| ==> Text.IsDigit(d[i]);
    assert 'l' !in d && 'x' !in d;
  }
}

=== FILE: development.dfy ===
/** The `/develop` command (`cogs/development.py`): the member states the
    costs themselves, the command validates level, zone and count, asks for
    the country name in the channel and books the development. */
module Development {
  import opened Wrappers
  import opened Text
  import Chat
  import Dicts
  import SheetsUtil

  /** The twelve choices of the command. */
  datatype DevKind =
    | Infrastruktur | Wirtschaft | Militaer | Landwirtschaft | Bildung | Kultur
    | Infanterie | Kavallerie | Artillerie | Korvette | Fregatte | Linienschiff

  /** `DevelopmentOptions`: the value of each choice. */
  function Value(k: DevKind): string {
    match k
    case Infrastruktur => "Infrastruktur"
    case Wirtschaft => "Wirtschaft"
    case Militaer => "Militär"
    case Landwirtschaft => "Landwirtschaft"
    case Bildung => "Bildung"
    case Kultur => "Kultur"
    case Infanterie => "Infanterie"
    case Kavallerie => "Kavallerie"
    case Artillerie => "Artillerie"
    case Korvette => "Korvette"
    case Fregatte => "Fregatte"
    case Linienschiff => "Linienschiff"
  }

  const MilitaryValues: seq<string> :=
    ["Infanterie", "Kavallerie", "Artillerie", "Korvette", "Fregatte", "Linienschiff"]

  /** `ausbau_art.value in [INFANTERIE, ..., LINIENSCHIFF]` (the generic
      choice "Militär" is not one of them). */
  predicate IsMilitary(k: DevKind) {
    Value(k) in MilitaryValues
  }

  lemma MilitaryIffUnit(k: DevKind)
    ensures IsMilitary(k) <==> k in {Infanterie, Kavallerie, Artillerie, Korvette, Fregatte, Linienschiff}
  {
  }

  /** The command's arguments; the six amounts default to 0 and the count
      to 1 in the command signature. */
  datatype Args = Args(art: DevKind, stufe: int, gebiet: int,
                       holz: int, stein: int, eisen: int, stoff: int, nahrung: int, dukaten: int,
                       anzahl: int)

  datatype Refusal = LevelOutOfRange | ZoneNotPositive | CountBelowOne | Timeout

  /** A booked development: what is shown and what is handed to the sheet
      logger. */
  datatype Booking = Booking(land: string, art: DevKind, stufe: int, gebiet: int,
                             kosten: Dicts.Dict, anzahl: int, resourcesText: string)

  /** The keys of the cost dict, in insertion order. */
  const CostKeys: seq<string> := ["holz", "stein", "eisen", "stoff", "nahrung", "dukaten"]

  /** The `kosten` dict built from the stated amounts. */
  function Kosten(a: Args): Dicts.Dict {
    [("holz", a.holz), ("stein", a.stein), ("eisen", a.eisen), ("stoff", a.stoff),
     ("nahrung", a.nahrung), ("dukaten", a.dukaten)]
  }

  /** Each key of the cost dict looks up its stated amount. */
  lemma KostenLookups(a: Args)
    ensures Dicts.Keys(Kosten(a)) == CostKeys
    ensures && Dicts.Get(Kosten(a), "holz") == Some(a.holz)
            && Dicts.Get(Kosten(a), "stein") == Some(a.stein)
            && Dicts.Get(Kosten(a), "eisen") == Some(a.eisen)
            && Dicts.Get(Kosten(a), "stoff") == Some(a.stoff)
            && Dicts.Get(Kosten(a), "nahrung") == Some(a.nahrung)
            && Dicts.Get(Kosten(a), "dukaten") == Some(a.dukaten)
  {
    var d := Kosten(a);
    assert Dicts.Keys(d) == CostKeys;
    assert Dicts.UniqueKeys(d);
    Dicts.GetListed(d, 0);
    Dicts.GetListed(d, 1);
    Dicts.GetListed(d, 2);
    Dicts.GetListed(d, 3);
    Dicts.GetListed(d, 4);
    Dicts.GetListed(d, 5);
  }

  /** The six amounts as listed in the cost summary. */
  function ResourceParts(a: Args): seq<string> {
    (if a.holz > 0 then [IntToString(a.holz) + " Holz"] else [])
    + ((if a.stein > 0 then [IntToString(a.stein) + " Stein"] else [])
    + ((if a.eisen > 0 then [IntToString(a.eisen) + " Eisen"] else [])
    + ((if a.stoff > 0 then [IntToString(a.stoff) + " Stoff"] else [])
    + ((if a.nahrung > 0 then [IntToString(a.nahrung) + " Nahrung"] else [])
    + (if a.dukaten > 0 then [IntToString(a.dukaten) + " Dukaten"] else [])))))
  }

  /** `resources_text` */
  function ResourcesText(a: Args): string {
    var p := ResourceParts(a);
    if |p| == 0 then "Keine Ressourcen" else Join(", ", p)
  }

  /** The summary entry of one dict entry: "{amount} {Key}". */
  function Part(e: (string, int)): string {
    IntToString(e.1) + " " + Capitalize(e.0)
  }

  /** A summary driven by the dict: one part per positive entry, in dict
      order. */
  function Parts(d: Dicts.Dict): seq<string> {
    if |d| == 0 then [] else (if d[0].1 > 0 then [Part(d[0])] else []) + Parts(d[1..])
  }

  /** A lower-case key capitalises to the label that differs from it only
      in its first letter. */
  lemma KeyLabel(key: string, text: string)
    requires |key| == |text| > 0 && text[0] == UpperChar(key[0])
    requires forall i :: 1 <= i < |key| ==> 'a' <= key[i] <= 'z' && text[i] == key[i]
    ensures " " + Capitalize(key) == " " + text
  {
    assert Capitalize(key) == text;
  }

  lemma CostKeyLabels()
    ensures " " + Capitalize("holz") == " Holz" && " " + Capitalize("stein") == " Stein"
    ensures " " + Capitalize("eisen") == " Eisen" && " " + Capitalize("stoff") == " Stoff"
    ensures " " + Capitalize("nahrung") == " Nahrung" && " " + Capitalize("dukaten") == " Dukaten"
  {
    KeyLabel("holz", "Holz");
    KeyLabel("stein", "Stein");
    KeyLabel("eisen", "Eisen");
    KeyLabel("stoff", "Stoff");
    KeyLabel("nahrung", "Nahrung");
    KeyLabel("dukaten", "Dukaten");
  }

  lemma PartsCons(e: (string, int), d: Dicts.Dict)
    ensures Parts([e] + d) == (if e.1 > 0 then [Part(e)] else []) + Parts(d)
  {
    assert ([e] + d)[1..] == d;
  }

  lemma PartLabel(key: string, text: string, n: int)
    requires " " + Capitalize(key) == text
    ensures Part((key, n)) == IntToString(n) + text
  {
  }

  /** The part of one entry when its amount is positive. */
  function PartIfPositive(key: string, n: int): seq<string> {
    if n > 0 then [Part((key, n))] else []
  }

  lemma KostenParts(a: Args)
    ensures Parts(Kosten(a)) == PartIfPositive("holz", a.holz) + (PartIfPositive("stein", a.stein)
                                + (PartIfPositive("eisen", a.eisen) + (PartIfPositive("stoff", a.stoff)
                                + (PartIfPositive("nahrung", a.nahrung) + PartIfPositive("dukaten", a.dukaten)))))
  {
    var t5: Dicts.Dict := [("dukaten", a.dukaten)];
    var t4 := [("nahrung", a.nahrung)] + t5;
    var t3 := [("stoff", a.stoff)] + t4;
    var t2 := [("eisen", a.eisen)] + t3;
    var t1 := [("stein", a.stein)] + t2;
    var t0 := [("holz", a.holz)] + t1;
    assert Kosten(a) == t0;
    PartsCons(("dukaten", a.dukaten), []);
    assert [("dukaten", a.dukaten)] + [] == t5;
    var q5 := PartIfPositive("dukaten", a.dukaten);
    assert Parts(t5) == q5;
    PartsCons(("nahrung", a.nahrung), t5);
    var q4 := PartIfPositive("nahrung", a.nahrung) + q5;
    assert Parts(t4) == q4;
    PartsCons(("stoff", a.stoff), t4);
    var q3 := PartIfPositive("stoff", a.stoff) + q4;
    assert Parts(t3) == q3;
    PartsCons(("eisen", a.eisen), t3);
    var q2 := PartIfPositive("eisen", a.eisen) + q3;
    assert Parts(t2) == q2;
    PartsCons(("stein", a.stein), t2);
    var q1 := PartIfPositive("stein", a.stein) + q2;
    assert Parts(t1) == q1;
    PartsCons(("holz", a.holz), t1);
    assert Parts(t0) == PartIfPositive("holz", a.holz) + q1;
  }

  /** The hand-written summary lists exactly the positive entries of the
      cost dict, in dict order, each under its capitalised key. */
  lemma ResourcePartsFollowKosten(a: Args)
    ensures ResourceParts(a) == Parts(Kosten(a))
  {
    KostenParts(a);
    CostKeyLabels();
    PartLabel("holz", " Holz", a.holz);
    PartLabel("stein", " Stein", a.stein);
    PartLabel("eisen", " Eisen", a.eisen);
    PartLabel("stoff", " Stoff", a.stoff);
    PartLabel("nahrung", " Nahrung", a.nahrung);
    PartLabel("dukaten", " Dukaten", a.dukaten);
  }

  /** "Keine Ressourcen" is shown exactly when no amount is positive. */
  lemma NoResourcesIff(a: Args)
    ensures ResourcesText(a) == "Keine Ressourcen"
            <==> a.holz <= 0 && a.stein <= 0 && a.eisen <= 0 && a.stoff <= 0 && a.nahrung <= 0 && a.dukaten <= 0
  {
    var p := ResourceParts(a);
    if |p| > 0 {
      SheetsUtil.JoinStartsWithFirst(", ", p);
      var n: int := if a.holz > 0 then a.holz else if a.stein > 0 then a.stein
                    else if a.eisen > 0 then a.eisen else if a.stoff > 0 then a.stoff
                    else if a.nahrung > 0 then a.nahrung else a.dukaten;
      assert StartsWith(p[0], IntToString(n));
      assert IsDigit(Join(", ", p)[0]);
    }
  }

  /** `check_country`: a message from the invoking member in the channel
      the command was used in. */
  predicate FromInvoker(user: nat, channelId: nat, m: Chat.Msg) {
    m.author == user && m.channel == Chat.Guild(channelId)
  }

  /** The 60-second wait for the country name. */
  function CountryReply(user: nat, channelId: nat, msgs: seq<Chat.Msg>): Option<nat> {
    Chat.FirstMatch(msgs, m => FromInvoker(user, channelId, m))
  }

  predicate ValidArgs(a: Args) {
    1 <= a.stufe <= 7 && a.gebiet >= 1 && (IsMilitary(a.art) ==> a.anzahl >= 1)
  }

  /** `Development.develop` for member `user` in channel `channelId`, where
      `msgs` is what arrives in the channel within the timeout. */
  function Develop(user: nat, channelId: nat, a: Args, msgs: seq<Chat.Msg>): (r: Result<Booking, Refusal>)
    ensures r.Ok? <==> ValidArgs(a) && exists i :: 0 <= i < |msgs| && FromInvoker(user, channelId, msgs[i])
    ensures !(1 <= a.stufe <= 7) ==> r == Err(LevelOutOfRange)
    ensures 1 <= a.stufe <= 7 && a.gebiet < 1 ==> r == Err(ZoneNotPositive)
    ensures (1 <= a.stufe <= 7 && a.gebiet >= 1 && IsMilitary(a.art) && a.anzahl < 1)
            ==> r == Err(CountBelowOne)
    ensures ValidArgs(a) && !(exists i :: 0 <= i < |msgs| && FromInvoker(user, channelId, msgs[i]))
            ==> r == Err(Timeout)
    ensures r.Ok? ==> exists i :: 0 <= i < |msgs| && FromInvoker(user, channelId, msgs[i])
                                  && r.value.land == msgs[i].content
                                  && forall j :: 0 <= j < i ==> !FromInvoker(user, channelId, msgs[j])
    ensures r.Ok? ==> Dicts.Keys(r.value.kosten) == CostKeys
    ensures r.Ok? ==> && Dicts.Get(r.value.kosten, "holz") == Some(a.holz)
                      && Dicts.Get(r.value.kosten, "stein") == Some(a.stein)
                      && Dicts.Get(r.value.kosten, "eisen") == Some(a.eisen)
                      && Dicts.Get(r.value.kosten, "stoff") == Some(a.stoff)
                      && Dicts.Get(r.value.kosten, "nahrung") == Some(a.nahrung)
                      && Dicts.Get(r.value.kosten, "dukaten") == Some(a.dukaten)
    ensures r.Ok? ==> r.value.kosten == Kosten(a) && r.value.resourcesText == ResourcesText(a)
    ensures r.Ok? ==> r.value.art == a.art && r.value.anzahl == a.anzahl && r.value.stufe == a.stufe && r.value.gebiet == a.gebiet
  {
    if a.stufe < 1 || a.stufe > 7 then Err(LevelOutOfRange)
    else if a.gebiet < 1 then Err(ZoneNotPositive)
    else if IsMilitary(a.art) && a.anzahl < 1 then Err(CountBelowOne)
    else match CountryReply(user, channelId, msgs)
      case None => Err(Timeout)
      case Some(i) =>
        assert FromInvoker(user, channelId, msgs[i]);
        Ok(Book(msgs[i].content, a))
  }

  /** The booking of the arguments for a country. */
  function Book(land: string, a: Args): (b: Booking)
    ensures b.land == land && b.art == a.art && b.anzahl == a.anzahl && b.stufe == a.stufe && b.gebiet == a.gebiet
    ensures b.kosten == Kosten(a) && b.resourcesText == ResourcesText(a)
    ensures Dicts.Keys(b.kosten) == CostKeys
    ensures && Dicts.Get(b.kosten, "holz") == Some(a.holz)
            && Dicts.Get(b.kosten, "stein") == Some(a.stein)
            && Dicts.Get(b.kosten, "eisen") == Some(a.eisen)
            && Dicts.Get(b.kosten, "stoff") == Some(a.stoff)
            && Dicts.Get(b.kosten, "nahrung") == Some(a.nahrung)
            && Dicts.Get(b.kosten, "dukaten") == Some(a.dukaten)
  {
    KostenLookups(a);
    Booking(land, a.art, a.stufe, a.gebiet, Kosten(a), a.anzahl, ResourcesText(a))
  }

  /** The row handed to `utils/sheets.py` for a booking. */
  function BookingRow(b: Booking, date: string): SheetsUtil.Cells.Row {
    SheetsUtil.DevelopmentRow(date, b.land, Value(b.art), b.stufe, b.kosten, b.gebiet, b.anzahl)
  }

  lemma ValueHasNoSpace(k: DevKind)
    ensures ' ' !in Value(k)
  {
  }

  /** The logged row of a booking reads back as its choice, level and zone,
      with the count as given when it is above one. */
  lemma BookingRowReadsBack(user: nat, channelId: nat, a: Args, msgs: seq<Chat.Msg>, date: string)
    requires Develop(user, channelId, a, msgs).Ok?
    ensures SheetsUtil.ReadDevelopmentRow(BookingRow(Develop(user, channelId, a, msgs).value, date))
            == Some(SheetsUtil.DevelopmentEntry(Value(a.art), a.stufe, a.gebiet,
                                                if a.anzahl > 1 then a.anzahl else 1))
  {
    var b := Develop(user, channelId, a, msgs).value;
    ValueHasNoSpace(b.art);
    SheetsUtil.DevelopmentRowReadsBack(date, b.land, Value(b.art), b.stufe, b.kosten, b.gebiet, b.anzahl);
  }
}

=== FILE: dicts.dfy ===
/** Python dicts from resource name to amount, kept in insertion order
    (the order in which `dict.items()` walks them), and the cells of a
    spreadsheet row. */
module Dicts {
  import opened Wrappers

  type Dict = seq<(string, int)>

  function Keys(d: Dict): (ks: seq<string>)
    ensures |ks| == |d|
  {
    seq(|d|, i requires 0 <= i < |d| => d[i].0)
  }

  predicate UniqueKeys(d: Dict) {
    forall i, j :: 0 <= i < j < |d| ==> d[i].0 != d[j].0
  }

  /** `d[k]` when present */
  function Get(d: Dict, k: string): (r: Option<int>)
    ensures r.None? <==> k !in Keys(d)
    ensures r.Some? ==> exists i :: 0 <= i < |d| && d[i] == (k, r.value)
  {
    if |d| == 0 then None
    else if d[0].0 == k then
      assert Keys(d)[0] == k;
      Some(d[0].1)
    else
      var r := Get(d[1..], k);
      assert Keys(d) == [d[0].0] + Keys(d[1..]);
      if r.Some? then
        ghost var i :| 0 <= i < |d[1..]| && d[1..][i] == (k, r.value);
        assert d[i + 1] == (k, r.value);
        r
      else r
  }

  /** `d.get(k, default)` */
  function GetOr(d: Dict, k: string, default: int): int {
    Get(d, k).GetOr(default)
  }

  /** In a dict with unique keys, the lookup of a listed key finds its entry. */
  lemma GetListed(d: Dict, i: nat)
    requires UniqueKeys(d) && i < |d|
    ensures Get(d, d[i].0) == Some(d[i].1)
  {
    var r := Get(d, d[i].0);
    assert d[i].0 in Keys(d) by { assert Keys(d)[i] == d[i].0; }
    var j :| 0 <= j < |d| && d[j] == (d[i].0, r.value);
    if j != i {
      assert (j < i && d[j].0 != d[i].0) || (i < j && d[i].0 != d[j].0);
    }
  }
}

module Cells {
  /** One spreadsheet cell as the row lists hold it: text or a number. */
  datatype Cell = Str(s: string) | Num(n: int)

  type Row = seq<Cell>
}

=== FILE: handshake.dfy ===
/** The two-reply confirmation of the older trade and treaty commands
    (`attached_assets/trade.py`, `attached_assets/treaties.py`): both
    parties get the proposal by direct message, then two successive waits
    of five minutes each read a "ja" or "nein". The first answer is booked
    as the initiator's, the second as the partner's. */
module Handshake {
  import opened Wrappers
  import opened Text
  import Chat

  /** A direct message whose lower-cased text is exactly "ja" or "nein". */
  predicate IsAnswer(m: Chat.Msg) {
    m.channel == Chat.Direct && (Lower(m.content) == "ja" || Lower(m.content) == "nein")
  }

  predicate SaysJa(m: Chat.Msg) {
    Lower(m.content) == "ja"
  }

  /** `check_response` as written: an answer from either party. */
  predicate FromEitherParty(initiator: nat, partner: nat, m: Chat.Msg) {
    IsAnswer(m) && (m.author == initiator || m.author == partner)
  }

  /** An answer from one given member. */
  predicate FromMember(who: nat, m: Chat.Msg) {
    IsAnswer(m) && m.author == who
  }

  /** How the two waits end. */
  datatype Verdict =
    | FirstTimeout            // no answer within the first wait
    | FirstNo                 // the first answer is "nein": finalize as rejected, no second wait
    | SecondTimeout           // the first answer is "ja", no answer within the second wait
    | SecondAnswer(ja: bool)  // the first answer is "ja", the second decides

  /** The two waits, the first with check `first`, the second (on what
      arrives after the first answer) with check `second`. */
  function Run(msgs: seq<Chat.Msg>, first: Chat.Msg -> bool, second: Chat.Msg -> bool): (v: Verdict)
    ensures v == FirstTimeout <==> Chat.FirstMatch(msgs, first).None?
    ensures v == FirstNo <==> Chat.FirstMatch(msgs, first).Some? && !SaysJa(msgs[Chat.FirstMatch(msgs, first).value])
  {
    match Chat.FirstMatch(msgs, first)
    case None => FirstTimeout
    case Some(i) =>
      if !SaysJa(msgs[i]) then FirstNo
      else
        var rest := Chat.After(msgs, i);
        match Chat.FirstMatch(rest, second)
        case None => SecondTimeout
        case Some(j) => SecondAnswer(SaysJa(rest[j]))
  }

  /** A second answer decides only after a "ja" accepted by the first
      wait, and it is the first message after that one the second wait
      accepts. */
  lemma SecondAnswerWitness(msgs: seq<Chat.Msg>, first: Chat.Msg -> bool, second: Chat.Msg -> bool)
    requires Run(msgs, first, second).SecondAnswer?
    ensures exists i, j :: 0 <= i < j < |msgs| && first(msgs[i]) && SaysJa(msgs[i])
                           && second(msgs[j]) && Run(msgs, first, second).ja == SaysJa(msgs[j])
                           && (forall k :: 0 <= k < i ==> !first(msgs[k]))
                           && (forall k :: i < k < j ==> !second(msgs[k]))
  {
    var i := Chat.FirstMatch(msgs, first).value;
    var rest := Chat.After(msgs, i);
    var j := Chat.FirstMatch(rest, second).value;
    assert msgs[i + 1 + j] == rest[j];
    forall k | i < k < i + 1 + j
      ensures !second(msgs[k])
    {
      assert msgs[k] == rest[k - i - 1];
    }
  }

  /** The confirmation as the commands implement it: both waits accept an
      answer from either party. */
  function AsWritten(initiator: nat, partner: nat, msgs: seq<Chat.Msg>): Verdict {
    Run(msgs, m => FromEitherParty(initiator, partner, m), m => FromEitherParty(initiator, partner, m))
  }

  /** The confirmation the code describes: the first wait reads the
      initiator's answer, the second the partner's. */
  function Intended(initiator: nat, partner: nat, msgs: seq<Chat.Msg>): Verdict {
    Run(msgs, m => FromMember(initiator, m), m => FromMember(partner, m))
  }

  /** Answers that count for neither wait do not change the verdict. */
  lemma RunSkipsIgnored(noise: seq<Chat.Msg>, msgs: seq<Chat.Msg>, first: Chat.Msg -> bool, second: Chat.Msg -> bool)
    requires forall k :: 0 <= k < |noise| ==> !first(noise[k])
    ensures Run(noise + msgs, first, second) == Run(msgs, first, second)
  {
    Chat.FirstMatchSkipsRejected(noise, msgs, first);
    var all := noise + msgs;
    match Chat.FirstMatch(msgs, first)
    case None =>
    case Some(i) =>
      assert all[i + |noise|] == msgs[i];
      assert all[i + |noise| + 1..] == msgs[i + 1..];
      RunsAgree(all, msgs, first, second, i + |noise|, i);
  }

  /** Two runs whose first waits stop at the same message, followed by the
      same messages, reach the same verdict. */
  lemma RunsAgree(a: seq<Chat.Msg>, b: seq<Chat.Msg>, first: Chat.Msg -> bool, second: Chat.Msg -> bool,
                  i: nat, j: nat)
    requires Chat.FirstMatch(a, first) == Some(i) && Chat.FirstMatch(b, first) == Some(j)
    requires i < |a| && j < |b| && a[i] == b[j] && a[i + 1..] == b[j + 1..]
    ensures Run(a, first, second) == Run(b, first, second)
  {
    var rest := Chat.After(a, i);
    assert rest == Chat.After(b, j);
    match Chat.FirstMatch(rest, second)
    case None =>
    case Some(k) =>
  }

  /** With the checks as written, the initiator alone can conclude the
      agreement: two "ja" from the initiator and nothing from the partner
      give an accepting verdict. */
  lemma InitiatorAloneConcludes(initiator: nat, partner: nat)
    ensures AsWritten(initiator, partner, [Chat.Msg(initiator, Chat.Direct, "ja"), Chat.Msg(initiator, Chat.Direct, "ja")])
            == SecondAnswer(true)
  {
    var m := Chat.Msg(initiator, Chat.Direct, "ja");
    assert Lower("ja") == "ja";
    assert FromEitherParty(initiator, partner, m);
    assert Chat.FirstMatch([m, m], x => FromEitherParty(initiator, partner, x)) == Some(0);
    assert Chat.After([m, m], 0) == [m];
  }

  /** With the intended checks, an accepting verdict needs a "ja" from the
      initiator followed by a "ja" from the partner. */
  lemma IntendedNeedsBothParties(initiator: nat, partner: nat, msgs: seq<Chat.Msg>)
    requires Intended(initiator, partner, msgs) == SecondAnswer(true)
    ensures exists i, j :: 0 <= i < j < |msgs| && msgs[i].author == initiator && SaysJa(msgs[i])
                           && msgs[j].author == partner && SaysJa(msgs[j])
  {
    var v := Intended(initiator, partner, msgs);
    SecondAnswerWitness(msgs, m => FromMember(initiator, m), m => FromMember(partner, m));
    var i, j :| 0 <= i < j < |msgs| && FromMember(initiator, msgs[i]) && SaysJa(msgs[i])
                && FromMember(partner, msgs[j]) && v.ja == SaysJa(msgs[j]);
  }
}

=== FILE: moderation.dfy ===
/** The guards of the moderation commands (`cogs/moderation.py`): who may
    kick or ban whom, and how many messages `clear` removes. The actions
    themselves (kick, ban, purge, the messages sent) are effects and not
    part of the model. */
module Moderation {
  import opened Wrappers

  /** `config.MOD_ROLES` */
  const ModRoles: seq<string> := ["Admin", "Moderator", "Game Master"]

  /** The purge limit of the platform. */
  const MaxClear: int := 100

  datatype Permission = KickMembers | BanMembers | ManageMessages

  /** A role: its name and its position in the guild's hierarchy. */
  datatype Role = Role(name: string, position: nat)

  /** A member: id, roles and the guild permissions it holds. */
  datatype Member = Member(id: nat, roles: seq<Role>, permissions: set<Permission>)

  /** `is_moderator`: some role is named in `MOD_ROLES`. */
  function IsModerator(roles: seq<Role>): (r: bool)
    ensures r <==> exists i :: 0 <= i < |roles| && roles[i].name in ModRoles
  {
    if |roles| == 0 then false
    else if roles[0].name in ModRoles then true
    else
      var rest := IsModerator(roles[1..]);
      assert rest <==> exists i :: 0 <= i < |roles| - 1 && roles[1..][i].name in ModRoles;
      if rest then
        assert exists i :: 0 <= i < |roles| && roles[i].name in ModRoles by {
          var i :| 0 <= i < |roles| - 1 && roles[1..][i].name in ModRoles;
          assert roles[i + 1] == roles[1..][i];
        }
        true
      else
        assert forall i :: 1 <= i < |roles| ==> roles[i] == roles[1..][i - 1];
        false
  }

  /** The position of `top_role`: the highest position among the roles
      (every member holds the default role at position 0). */
  function TopPosition(roles: seq<Role>): (p: nat)
    ensures forall i :: 0 <= i < |roles| ==> roles[i].position <= p
    ensures |roles| > 0 ==> exists i :: 0 <= i < |roles| && roles[i].position == p
    ensures |roles| == 0 ==> p == 0
  {
    if |roles| == 0 then 0
    else
      var rest := TopPosition(roles[1..]);
      assert forall i :: 1 <= i < |roles| ==> roles[i] == roles[1..][i - 1];
      if roles[0].position >= rest then roles[0].position
      else
        var i :| 0 <= i < |roles| - 1 && roles[1..][i].position == rest;
        assert roles[i + 1].position == rest;
        rest
  }

  datatype Refusal = NoPermission | BotLacksPermission | SelfTarget | NotAbove | NotPositive

  /** A kick needs `KickMembers`, a ban `BanMembers`. */
  datatype Action = Kick | Ban

  function Needed(a: Action): Permission {
    match a
    case Kick => KickMembers
    case Ban => BanMembers
  }

  /** May the invoker use the command at all? */
  predicate MayModerate(invoker: Member, p: Permission) {
    p in invoker.permissions || IsModerator(invoker.roles)
  }

  /** The hierarchy check: the owner passes, everyone else needs a top
      role strictly above the target's. */
  predicate Outranks(invoker: Member, target: Member, ownerId: nat) {
    invoker.id == ownerId || TopPosition(invoker.roles) > TopPosition(target.roles)
  }

  /** The guards of `kick` and `ban`, in source order. `botPermissions` are
      the bot's own guild permissions. */
  function Guard(a: Action, invoker: Member, target: Member, botPermissions: set<Permission>,
                 ownerId: nat): (r: Result<(), Refusal>)
    ensures r.Ok? <==> && MayModerate(invoker, Needed(a))
                       && Needed(a) in botPermissions
                       && target.id != invoker.id
                       && Outranks(invoker, target, ownerId)
    ensures !MayModerate(invoker, Needed(a)) ==> r == Err(NoPermission)
    ensures MayModerate(invoker, Needed(a)) && Needed(a) !in botPermissions ==> r == Err(BotLacksPermission)
    ensures MayModerate(invoker, Needed(a)) && Needed(a) in botPermissions && target.id == invoker.id
            ==> r == Err(SelfTarget)
    ensures (MayModerate(invoker, Needed(a)) && Needed(a) in botPermissions && target.id != invoker.id
             && !Outranks(invoker, target, ownerId))
            ==> r == Err(NotAbove)
  {
    if !(Needed(a) in invoker.permissions) && !IsModerator(invoker.roles) then Err(NoPermission)
    else if Needed(a) !in botPermissions then Err(BotLacksPermission)
    else if target.id == invoker.id then Err(SelfTarget)
    else if TopPosition(invoker.roles) <= TopPosition(target.roles) && ownerId != invoker.id then Err(NotAbove)
    else Ok(())
  }

  /** Between two members who are not the owner, at most one can act on
      the other. */
  lemma NoMutualAction(a: Action, b: Action, x: Member, y: Member, botPermissions: set<Permission>, ownerId: nat)
    requires x.id != ownerId && y.id != ownerId
    requires Guard(a, x, y, botPermissions, ownerId).Ok?
    ensures Guard(b, y, x, botPermissions, ownerId).Err?
  {
  }

  /** A member with a moderator role passes the permission check for both
      actions, whatever its permissions. */
  lemma ModeratorMayModerate(invoker: Member, i: nat, a: Action)
    requires i < |invoker.roles| && invoker.roles[i].name in ModRoles
    ensures MayModerate(invoker, Needed(a))
  {
  }

  /** `clear` up to the purge: the permission checks, then a positive
      amount, clamped to the purge limit. */
  function Clear(invoker: Member, botPermissions: set<Permission>, amount: int): (r: Result<nat, Refusal>)
    ensures r.Ok? <==> MayModerate(invoker, ManageMessages) && ManageMessages in botPermissions && amount > 0
    ensures r.Ok? ==> 1 <= r.value <= MaxClear
    ensures r.Ok? ==> r.value == amount || (amount > MaxClear && r.value == MaxClear)
    ensures MayModerate(invoker, ManageMessages) && ManageMessages in botPermissions && amount <= 0
            ==> r == Err(NotPositive)
  {
    if !(ManageMessages in invoker.permissions) && !IsModerator(invoker.roles) then Err(NoPermission)
    else if ManageMessages !in botPermissions then Err(BotLacksPermission)
    else if amount <= 0 then Err(NotPositive)
    else if amount > MaxClear then Ok(MaxClear)
    else Ok(amount)
  }
}

=== FILE: sheets_legacy.dfy ===
/** The older spreadsheet logger (`attached_assets/sheets.py`): the
    credential text is normalised and checked for the service-account
    fields, a trade becomes two one-hot rows of the trade ledger, and a
    development becomes a row of the development sheet plus, once that
    write succeeded, a row of the trade ledger with "Ausbau" as importer. */
module SheetsLegacy {
  import opened Wrappers
  import opened Text
  import opened Cells
  import Dicts

  // ---------------------------------------------------------------------
  // Credentials
  // ---------------------------------------------------------------------

  const Quotes: set<char> := {'"', '\''}

  /** The credential text with surrounding whitespace removed, then surrounding quotes of either kind. */
  function Unquote(s: string): (r: string)
    ensures |r| > 0 ==> r[0] !in Quotes && r[|r| - 1] !in Quotes
    ensures |r| <= |s|
  {
    StripChars(Strip(s), Quotes)
  }

  /** Windows and old Mac line ends both become a single line feed. */
  function UnifyLineEnds(s: string): string {
    Replace(Replace(s, "\r\n", "\n"), "\r", "\n")
  }

  /** The text handed to `json.loads`. */
  function NormaliseCredentials(s: string): string {
    UnifyLineEnds(Unquote(s))
  }

  /** No carriage return survives the normalisation. */
  lemma NormalisedHasNoCarriageReturn(s: string)
    ensures '\r' !in NormaliseCredentials(s)
  {
    ReplaceRemovesChar(Replace(Unquote(s), "\r\n", "\n"), '\r', "\n");
  }

  /** Text without carriage returns, surrounding blanks or quotes is
      passed on unchanged. */
  lemma CleanCredentialsUnchanged(s: string)
    requires '\r' !in s
    requires |s| == 0 || (s[0] !in Whitespace + Quotes && s[|s| - 1] !in Whitespace + Quotes)
    ensures NormaliseCredentials(s) == s
  {
    assert |s| == 0 || (s[0] !in Whitespace && s[|s| - 1] !in Whitespace);
    StripCharsNoop(s, Whitespace);
    assert Strip(s) == s;
    assert |s| == 0 || (s[0] !in Quotes && s[|s| - 1] !in Quotes);
    StripCharsNoop(s, Quotes);
    assert Unquote(s) == s;
    ReplaceAbsentChar(s, "\r\n", "\n");
    ReplaceAbsentChar(s, "\r", "\n");
  }

  /** Replacing a pattern whose first character does not occur changes
      nothing. */
  lemma {:induction false} ReplaceAbsentChar(s: string, pat: string, rep: string)
    requires |pat| > 0 && pat[0] !in s
    ensures Replace(s, pat, rep) == s
    decreases |s|
  {
    if |s| > 0 {
      assert !StartsWith(s, pat) by { assert s[0] != pat[0]; }
      ReplaceAbsentChar(s[1..], pat, rep);
      assert [s[0]] + s[1..] == s;
    }
  }

  const RequiredFields: seq<string> := ["type", "project_id", "private_key_id", "private_key", "client_email"]

  /** `[field for field in required_fields if field not in creds_dict]` */
  function MissingFields(keys: set<string>): (r: seq<string>)
    ensures forall f :: f in r <==> f in RequiredFields && f !in keys
  {
    Missing(RequiredFields, keys)
  }

  function Missing(fields: seq<string>, keys: set<string>): (r: seq<string>)
    ensures forall f :: f in r <==> f in fields && f !in keys
    ensures |r| <= |fields|
  {
    if |fields| == 0 then []
    else (if fields[0] !in keys then [fields[0]] else []) + Missing(fields[1..], keys)
  }

  /** How `get_sheets_service` ends. */
  datatype Service =
    | NoCredentials                    // the variable is unset or empty
    | InvalidJson                      // `json.JSONDecodeError`
    | MissingRequired(fields: seq<string>)
    | BuildFailed                      // the client library raised
    | Connected(credentials: string)   // the normalised text the service was built from

  /** `get_sheets_service`: `env` is the variable's value, `parse` stands
      for `json.loads` (the top-level keys, or `None` on a decode error)
      and `buildOk` for whether the client library accepted the
      credentials. */
  function GetService(env: Option<string>, parse: string -> Option<set<string>>, buildOk: bool): (r: Service)
    ensures env.None? || env == Some("") <==> r == NoCredentials
    ensures r.Connected? <==> && env.Some? && env.value != ""
                              && parse(NormaliseCredentials(env.value)).Some?
                              && MissingFields(parse(NormaliseCredentials(env.value)).value) == []
                              && buildOk
    ensures r.Connected? ==> r.credentials == NormaliseCredentials(env.value) && '\r' !in r.credentials
    ensures r.MissingRequired? ==> |r.fields| > 0
                                   && forall f :: f in r.fields ==> f in RequiredFields
  {
    if env.None? || env.value == "" then NoCredentials
    else
      var text := NormaliseCredentials(env.value);
      NormalisedHasNoCarriageReturn(env.value);
      match parse(text)
      case None => InvalidJson
      case Some(keys) =>
        var missing := MissingFields(keys);
        if missing != [] then MissingRequired(missing)
        else if !buildOk then BuildFailed
        else Connected(text)
  }

  // ---------------------------------------------------------------------
  // Trades
  // ---------------------------------------------------------------------

  /** The resource columns of the trade ledger, in sheet order. */
  const Resources: seq<string> := ["Stein", "Eisen", "Holz", "Nahrung", "Stoff", "Dukaten"]

  /** One trade direction: timestamp, exporter, importer, then the amount in
      its resource's column and 0 in the others. */
  function TradeRow(timestamp: string, exporter: string, importer: string, resource: string, amount: int): (row: Row)
    ensures |row| == 9
    ensures row[..3] == [Str(timestamp), Str(exporter), Str(importer)]
    ensures forall i :: 0 <= i < 6 ==> row[3 + i] == Num(if Resources[i] == resource then amount else 0)
  {
    [Str(timestamp), Str(exporter), Str(importer)]
    + seq(6, i requires 0 <= i < 6 => Num(if Resources[i] == resource then amount else 0))
  }

  /** An unknown resource gives a row of zeros. */
  lemma UnknownResourceIsZero(timestamp: string, exporter: string, importer: string, resource: string, amount: int)
    requires resource !in Resources
    ensures forall i :: 3 <= i < 9 ==> TradeRow(timestamp, exporter, importer, resource, amount)[i] == Num(0)
  {
    var row := TradeRow(timestamp, exporter, importer, resource, amount);
    forall i | 3 <= i < 9
      ensures row[i] == Num(0)
    {
      assert Resources[i - 3] != resource;
    }
  }

  /** What a ledger row says: exporter, importer and, for the first
      column holding a non-zero amount, its resource and amount. */
  datatype Movement = Movement(exporter: string, importer: string, resource: string, amount: int)

  /** The first column from `i` on whose cell is not the number 0. */
  function FirstNonZero(row: Row, i: nat): (r: Option<nat>)
    requires |row| == 9 && 3 <= i <= 9
    ensures r.Some? ==> i <= r.value < 9 && row[r.value] != Num(0)
    ensures forall j :: i <= j < 9 && (r.None? || j < r.value) ==> row[j] == Num(0)
    decreases 9 - i
  {
    if i == 9 then None
    else if row[i] != Num(0) then Some(i)
    else FirstNonZero(row, i + 1)
  }

  /** Read a ledger row back. */
  function ReadTradeRow(row: Row): Option<Movement>
    requires |row| == 9
  {
    match (row[1], row[2], FirstNonZero(row, 3))
    case (Str(e), Str(m), Some(i)) =>
      (match row[i]
       case Num(n) => Some(Movement(e, m, Resources[i - 3], n))
       case Str(_) => None)
    case _ => None
  }

  /** Only the column of the resource can hold a non-zero amount. */
  lemma {:induction false} FirstNonZeroIsResource(row: Row, i: nat, k: nat, amount: int)
    requires |row| == 9 && 3 <= i <= 3 + k && k < 6 && amount != 0
    requires forall j :: 3 <= j < 9 ==> row[j] == Num(if j == 3 + k then amount else 0)
    ensures FirstNonZero(row, i) == Some(3 + k)
    decreases 9 - i
  {
    if i < 3 + k {
      FirstNonZeroIsResource(row, i + 1, k, amount);
    }
  }

  /** A trade direction with a listed resource and a non-zero amount reads
      back as exactly that movement. */
  lemma TradeRowReadsBack(timestamp: string, exporter: string, importer: string, resource: string, amount: int)
    requires resource in Resources && amount != 0
    ensures ReadTradeRow(TradeRow(timestamp, exporter, importer, resource, amount))
            == Some(Movement(exporter, importer, resource, amount))
  {
    var row := TradeRow(timestamp, exporter, importer, resource, amount);
    var k :| 0 <= k < 6 && Resources[k] == resource;
    assert row[1] == Str(exporter) && row[2] == Str(importer) by {
      assert row[1] == row[..3][1] && row[2] == row[..3][2];
    }
    forall j | 3 <= j < 9
      ensures row[j] == Num(if j == 3 + k then amount else 0)
    {
      assert row[j] == Num(if Resources[j - 3] == resource then amount else 0);
      assert Resources[j - 3] == resource <==> j == 3 + k;
    }
    ReadOneHot(row, exporter, importer, k, amount);
  }

  /** A row with a single non-zero amount, in column `3 + k`, reads back
      as that amount of the `k`-th resource. */
  lemma ReadOneHot(row: Row, exporter: string, importer: string, k: nat, amount: int)
    requires |row| == 9 && k < 6 && amount != 0
    requires row[1] == Str(exporter) && row[2] == Str(importer)
    requires forall j :: 3 <= j < 9 ==> row[j] == Num(if j == 3 + k then amount else 0)
    ensures ReadTradeRow(row) == Some(Movement(exporter, importer, Resources[k], amount))
  {
    FirstNonZeroIsResource(row, 3, k, amount);
  }

  /** `log_trade_to_sheet`: the first row has the initiator exporting the
      offer, the second the partner exporting the request; both go through
      one `try`, so a failed first append skips the second. The function
      returns nothing. */
  function LogTrade(serviceAvailable: bool, firstOk: bool, secondOk: bool, timestamp: string,
                    initiatorCountry: string, partnerCountry: string,
                    offerResource: string, offerAmount: int,
                    requestResource: string, requestAmount: int): (appended: seq<Row>)
    ensures |appended| == (if !serviceAvailable || !firstOk then 0 else if !secondOk then 1 else 2)
    ensures |appended| >= 1 ==> appended[0] == TradeRow(timestamp, initiatorCountry, partnerCountry, offerResource, offerAmount)
    ensures |appended| == 2 ==> appended[1] == TradeRow(timestamp, partnerCountry, initiatorCountry, requestResource, requestAmount)
  {
    if !serviceAvailable || !firstOk then []
    else
      var row1 := TradeRow(timestamp, initiatorCountry, partnerCountry, offerResource, offerAmount);
      var row2 := TradeRow(timestamp, partnerCountry, initiatorCountry, requestResource, requestAmount);
      if !secondOk then [row1] else [row1, row2]
  }

  /** Both rows of a logged trade read back as the two movements of goods:
      the offer from initiator to partner and the request the other way. */
  lemma LoggedTradeReadsBack(timestamp: string, initiatorCountry: string, partnerCountry: string,
                             offerResource: string, offerAmount: int,
                             requestResource: string, requestAmount: int)
    requires offerResource in Resources && requestResource in Resources
    requires offerAmount != 0 && requestAmount != 0
    ensures var rows := LogTrade(true, true, true, timestamp, initiatorCountry, partnerCountry,
                                 offerResource, offerAmount, requestResource, requestAmount);
            && ReadTradeRow(rows[0]) == Some(Movement(initiatorCountry, partnerCountry, offerResource, offerAmount))
            && ReadTradeRow(rows[1]) == Some(Movement(partnerCountry, initiatorCountry, requestResource, requestAmount))
  {
    TradeRowReadsBack(timestamp, initiatorCountry, partnerCountry, offerResource, offerAmount);
    TradeRowReadsBack(timestamp, partnerCountry, initiatorCountry, requestResource, requestAmount);
  }

  // ---------------------------------------------------------------------
  // Developments
  // ---------------------------------------------------------------------

  const MilitaryUnits: seq<string> := ["Infanterie", "Kavallerie", "Artillerie", "Korvette", "Fregatte", "Linienschiff"]

  /** The type, followed by " (x{count})" for the six military units. */
  function DevelopmentLabel(art: string, anzahl: int): (text: string)
    ensures art !in MilitaryUnits ==> text == art
    ensures art in MilitaryUnits ==> |text| == |art| + 4 + |IntToString(anzahl)|
    ensures art in MilitaryUnits ==> text[..|art|] == art && text[|text| - 1] == ')'
                                     && text[|art|..|art| + 3] == " (x"
                                     && text[|art| + 3..|text| - 1] == IntToString(anzahl)
  {
    if art in MilitaryUnits then art + " (x" + IntToString(anzahl) + ")" else art
  }

  /** The six cost values read from the `kosten` dict. */
  datatype Costs = Costs(holz: int, stein: int, eisen: int, stoff: int, nahrung: int, gold: int)

  /** The cost keys the sheet reads. */
  const CostKeys: seq<string> := ["holz", "stein", "eisen", "stoff", "nahrung", "gold"]

  /** The value `c` holds for a cost key. */
  function Amount(c: Costs, k: string): int {
    if k == "holz" then c.holz else if k == "stein" then c.stein
    else if k == "eisen" then c.eisen else if k == "stoff" then c.stoff
    else if k == "nahrung" then c.nahrung else c.gold
  }

  /** Each of the six values is the dict's value for its key, or 0 when
      the key is missing. */
  function CostsOf(kosten: Dicts.Dict): (c: Costs)
    ensures forall k :: k in CostKeys && k !in Dicts.Keys(kosten) ==> Amount(c, k) == 0
    ensures forall k :: k in CostKeys && Dicts.Get(kosten, k).Some? ==> Amount(c, k) == Dicts.Get(kosten, k).value
  {
    Costs(Dicts.GetOr(kosten, "holz", 0), Dicts.GetOr(kosten, "stein", 0), Dicts.GetOr(kosten, "eisen", 0),
          Dicts.GetOr(kosten, "stoff", 0), Dicts.GetOr(kosten, "nahrung", 0), Dicts.GetOr(kosten, "gold", 0))
  }

  /** The row of the development sheet: date, country, label, level,
      zone, then holz, stein, eisen, stoff, nahrung, gold. */
  function DevelopmentRow(date: string, land: string, art: string, level: int, gebiet: int,
                          c: Costs, anzahl: int): (row: Row)
    ensures |row| == 11
  {
    [Str(date), Str(land), Str(DevelopmentLabel(art, anzahl)), Str("Stufe " + IntToString(level)), Num(gebiet),
     Num(c.holz), Num(c.stein), Num(c.eisen), Num(c.stoff), Num(c.nahrung), Num(c.gold)]
  }

  /** The ledger row of a development: the country exports the costs to
      "Ausbau", in the ledger's order stein, eisen, holz, nahrung, stoff,
      gold, followed by type, level and zone as text. */
  function LedgerRow(timestamp: string, land: string, art: string, level: int, gebiet: int, c: Costs): (row: Row)
    ensures |row| == 12
  {
    [Str(timestamp), Str(land), Str("Ausbau"),
     Num(c.stein), Num(c.eisen), Num(c.holz), Num(c.nahrung), Num(c.stoff), Num(c.gold),
     Str(art), Str("Stufe " + IntToString(level)), Str(IntToString(gebiet))]
  }

  /** Column of each resource in the development sheet. */
  function DevelopmentColumn(resource: nat): (i: nat)
    requires resource < 6
    ensures 5 <= i < 11
  {
    [6, 7, 5, 9, 8, 10][resource]
  }

  /** Both rows of a development carry the same costs: the amount in
      ledger column `3 + r` (resource `r` of the ledger's order) is the
      amount in that resource's development column. */
  lemma RowsAgreeOnCosts(date: string, timestamp: string, land: string, art: string, level: int,
                         gebiet: int, c: Costs, anzahl: int)
    ensures var dev := DevelopmentRow(date, land, art, level, gebiet, c, anzahl);
            var ledger := LedgerRow(timestamp, land, art, level, gebiet, c);
            forall r :: 0 <= r < 6 ==> ledger[3 + r] == dev[DevelopmentColumn(r)]
  {
    var dev := DevelopmentRow(date, land, art, level, gebiet, c, anzahl);
    var ledger := LedgerRow(timestamp, land, art, level, gebiet, c);
    DevelopmentRowReadsBack(date, land, art, level, gebiet, c, anzahl);
    LedgerRowReadsBack(timestamp, land, art, level, gebiet, c);
    CostColumnsAgree(dev, ledger, c);
  }

  /** Two rows whose cost columns read as the same costs agree column by
      column under `DevelopmentColumn`. */
  lemma CostColumnsAgree(dev: Row, ledger: Row, c: Costs)
    requires |dev| == 11 && |ledger| == 12
    requires ReadDevelopmentCosts(dev) == Some(c) && ReadLedgerCosts(ledger) == Some(c)
    ensures forall r :: 0 <= r < 6 ==> ledger[3 + r] == dev[DevelopmentColumn(r)]
  {
    assert dev[5..11][0] == dev[5];
    forall r | 0 <= r < 6
      ensures ledger[3 + r] == dev[DevelopmentColumn(r)]
    {
      if r == 0 { assert DevelopmentColumn(0) == 6 && dev[5..11][1] == dev[6]; }
      else if r == 1 { assert DevelopmentColumn(1) == 7 && dev[5..11][2] == dev[7]; }
      else if r == 2 { assert DevelopmentColumn(2) == 5; }
      else if r == 3 { assert DevelopmentColumn(3) == 9 && dev[5..11][4] == dev[9]; }
      else if r == 4 { assert DevelopmentColumn(4) == 8 && dev[5..11][3] == dev[8]; }
      else { assert DevelopmentColumn(5) == 10 && dev[5..11][5] == dev[10]; }
    }
  }

  /** Six number cells in the order holz, stein, eisen, stoff, nahrung,
      gold read as costs; a text cell among them reads as nothing. */
  function ReadCostCells(cells: seq<Cell>): Option<Costs>
    requires |cells| == 6
  {
    if forall i :: 0 <= i < 6 ==> cells[i].Num? then
      Some(Costs(cells[0].n, cells[1].n, cells[2].n, cells[3].n, cells[4].n, cells[5].n))
    else None
  }

  /** The costs a development-sheet row holds (columns F to K). */
  function ReadDevelopmentCosts(row: Row): Option<Costs>
    requires |row| == 11
  {
    ReadCostCells(row[5..11])
  }

  /** The costs a ledger row holds, taken from its stein, eisen, holz,
      nahrung, stoff, gold columns. */
  function ReadLedgerCosts(row: Row): Option<Costs>
    requires |row| == 12
  {
    ReadCostCells([row[5], row[3], row[4], row[7], row[6], row[8]])
  }

  /** The development row reads back as date, country, label and the
      costs it was built from. */
  lemma DevelopmentRowReadsBack(date: string, land: string, art: string, level: int, gebiet: int,
                                c: Costs, anzahl: int)
    ensures var row := DevelopmentRow(date, land, art, level, gebiet, c, anzahl);
            && row[..3] == [Str(date), Str(land), Str(DevelopmentLabel(art, anzahl))]
            && row[4] == Num(gebiet)
            && ReadDevelopmentCosts(row) == Some(c)
  {
    var row := DevelopmentRow(date, land, art, level, gebiet, c, anzahl);
    assert row[5..11] == [Num(c.holz), Num(c.stein), Num(c.eisen), Num(c.stoff), Num(c.nahrung), Num(c.gold)];
  }

  /** The ledger row reads back as the country exporting the costs to
      "Ausbau". */
  lemma LedgerRowReadsBack(timestamp: string, land: string, art: string, level: int, gebiet: int, c: Costs)
    ensures var row := LedgerRow(timestamp, land, art, level, gebiet, c);
            && row[..3] == [Str(timestamp), Str(land), Str("Ausbau")]
            && row[9] == Str(art)
            && ReadLedgerCosts(row) == Some(c)
  {
  }

  /** Where the development row went. */
  datatype Write = Appended | UpdatedAt(row: nat)

  /** What the sheet API does for one development; `existingRows` is the
      result of reading column A in the fallback (`None` when that read
      fails). */
  datatype DevelopmentApi = DevelopmentApi(serviceAvailable: bool, appendOk: bool,
                                           existingRows: Option<nat>, updateOk: bool, ledgerOk: bool)

  /** What the logger returned, where and which development row it wrote,
      and the ledger row it added. */
  datatype DevelopmentLog = DevelopmentLog(returned: Option<bool>, written: Option<Write>, developmentRow: Option<Row>,
                                           ledgerRow: Option<Row>)

  /** `log_ausbau_to_sheet`. Without a service it returns `None`;
      otherwise it appends, falls back to writing the row after the last
      used one, adds the ledger row only when one of those succeeded, and
      returns `True` in every case. */
  function LogDevelopment(api: DevelopmentApi, date: string, timestamp: string, land: string, art: string,
                          level: int, kosten: Dicts.Dict, gebiet: int, anzahl: int): (r: DevelopmentLog)
    ensures r.returned.None? <==> !api.serviceAvailable
    ensures api.serviceAvailable ==> r.returned == Some(true)
    ensures r.written == Some(Appended) <==> api.serviceAvailable && api.appendOk
    ensures r.written.Some? && r.written.value.UpdatedAt?
            <==> api.serviceAvailable && !api.appendOk && api.existingRows.Some? && api.updateOk
    ensures r.written.Some? && r.written.value.UpdatedAt? ==> r.written.value.row == api.existingRows.value + 1
    ensures r.developmentRow.Some? <==> r.written.Some?
    ensures r.developmentRow.Some? ==> r.developmentRow.value == DevelopmentRow(date, land, art, level, gebiet,
                                                                                CostsOf(kosten), anzahl)
    ensures r.ledgerRow.Some? <==> r.written.Some? && api.ledgerOk
    ensures r.ledgerRow.Some? ==> r.ledgerRow.value == LedgerRow(timestamp, land, art, level, gebiet, CostsOf(kosten))
  {
    if !api.serviceAvailable then DevelopmentLog(None, None, None, None)
    else
      var written :=
        if api.appendOk then Some(Appended)
        else if api.existingRows.Some? && api.updateOk then Some(UpdatedAt(api.existingRows.value + 1))
        else None;
      var row := if written.Some? then Some(DevelopmentRow(date, land, art, level, gebiet, CostsOf(kosten), anzahl))
                 else None;
      var ledger := if written.Some? && api.ledgerOk
                    then Some(LedgerRow(timestamp, land, art, level, gebiet, CostsOf(kosten))) else None;
      DevelopmentLog(Some(true), written, row, ledger)
  }

  /** Whatever the logger wrote reads back as the dict's costs: each of
      the six keys gives its value, and a missing key gives 0, in the
      development sheet and in the ledger alike. */
  lemma LoggedDevelopmentReadsBack(api: DevelopmentApi, date: string, timestamp: string, land: string, art: string,
                                   level: int, kosten: Dicts.Dict, gebiet: int, anzahl: int)
    ensures var r := LogDevelopment(api, date, timestamp, land, art, level, kosten, gebiet, anzahl);
            && (r.developmentRow.Some? ==>
                  && |r.developmentRow.value| == 11
                  && ReadDevelopmentCosts(r.developmentRow.value).Some?
                  && forall k :: k in CostKeys ==>
                       Amount(ReadDevelopmentCosts(r.developmentRow.value).value, k)
                       == Dicts.GetOr(kosten, k, 0))
            && (r.ledgerRow.Some? ==>
                  && |r.ledgerRow.value| == 12
                  && ReadLedgerCosts(r.ledgerRow.value).Some?
                  && forall k :: k in CostKeys ==>
                       Amount(ReadLedgerCosts(r.ledgerRow.value).value, k) == Dicts.GetOr(kosten, k, 0))
  {
    var c := CostsOf(kosten);
    DevelopmentRowReadsBack(date, land, art, level, gebiet, c, anzahl);
    LedgerRowReadsBack(timestamp, land, art, level, gebiet, c);
    forall k | k in CostKeys
      ensures Amount(c, k) == Dicts.GetOr(kosten, k, 0)
    {
    }
  }

  /** The logger reports success even when neither write reached the
      sheet. */
  lemma SuccessWithoutWrite(date: string, timestamp: string, land: string, art: string,
                            level: int, kosten: Dicts.Dict, gebiet: int, anzahl: int)
    ensures var r := LogDevelopment(DevelopmentApi(true, false, None, false, true), date, timestamp, land, art,
                                    level, kosten, gebiet, anzahl);
            r.returned == Some(true) && r.written.None? && r.developmentRow.None? && r.ledgerRow.None?
  {
  }
}

=== FILE: sheets_util.dfy ===
/** The spreadsheet logger used by the slash-command handlers
    (`utils/sheets.py`): one "Handelsverträge" row per accepted trade and
    one "Ausbau" row per development. The Sheets API is reduced to whether
    a service could be built and whether the append call went through. */
module SheetsUtil {
  import opened Wrappers
  import opened Text
  import Dicts
  import opened Cells

  /** What the Sheets API does for one logging call. */
  datatype Api = Api(serviceAvailable: bool, appendSucceeds: bool)

  /** The value a logger returns and the rows that reached the sheet. */
  datatype LogResult = LogResult(ok: bool, appended: seq<Row>)

  /** One side of a trade as written into its cell: "{resource} ({amount})". */
  function TermCell(resource: string, amount: int): string {
    resource + " (" + IntToString(amount) + ")"
  }

  /** Reads a term cell back: the resource before the first " (" and the
      integer between it and the closing parenthesis. */
  function ReadTermCell(cell: string): Option<(string, int)> {
    match Find(cell, " (")
    case None => None
    case Some(i) =>
      var rest := cell[i + 2..];
      if |rest| > 0 && rest[|rest| - 1] == ')' then
        match ParseInt(rest[..|rest| - 1])
        case None => None
        case Some(n) => Some((cell[..i], n))
      else None
  }

  /** A term cell keeps resource and amount: reading it back gives both. */
  lemma TermCellRoundTrip(resource: string, amount: int)
    requires ' ' !in resource
    ensures ReadTermCell(TermCell(resource, amount)) == Some((resource, amount))
  {
    ReadTermCellParts(resource, IntToString(amount));
    ParseIntOfIntToString(amount);
  }

  /** Reading a cell written as "{a} ({body})" finds `a` and parses `body`. */
  lemma ReadTermCellParts(a: string, body: string)
    requires ' ' !in a
    ensures ReadTermCell(a + " (" + body + ")") == (match ParseInt(body)
                                                    case None => None
                                                    case Some(n) => Some((a, n)))
  {
    var cell := a + " (" + body + ")";
    assert cell == a + " (" + (body + ")");
    FindWrittenSeparator(a, " (", body + ")");
    var rest := cell[|a| + 2..];
    assert rest == body + ")";
    assert rest[..|rest| - 1] == body;
    assert cell[..|a|] == a;
  }

  /** The "Handelsverträge" row of a trade: date, the two countries, then
      the offer and the request as term cells. */
  function TradeRow(date: string, initiatorCountry: string, partnerCountry: string,
                    offerResource: string, offerAmount: int,
                    requestResource: string, requestAmount: int): Row
  {
    [Str(date), Str(initiatorCountry), Str(partnerCountry),
     Str(TermCell(offerResource, offerAmount)), Str(TermCell(requestResource, requestAmount))]
  }

  /** `log_trade_to_sheet`: False without a service or when the append
      raises, True once the row is appended. */
  function LogTrade(api: Api, date: string, initiatorCountry: string, partnerCountry: string,
                    offerResource: string, offerAmount: int,
                    requestResource: string, requestAmount: int): (r: LogResult)
    ensures r.ok <==> api.serviceAvailable && api.appendSucceeds
    ensures !r.ok ==> r.appended == []
    ensures r.ok ==> |r.appended| == 1 && |r.appended[0]| == 5
    ensures r.ok ==> r.appended[0][0] == Str(date)
    ensures r.ok ==> r.appended[0][1] == Str(initiatorCountry) && r.appended[0][2] == Str(partnerCountry)
    ensures r.ok ==> r.appended[0][3].Str? && r.appended[0][4].Str?
    ensures r.ok && ' ' !in offerResource && ' ' !in requestResource ==>
              && ReadTermCell(r.appended[0][3].s) == Some((offerResource, offerAmount))
              && ReadTermCell(r.appended[0][4].s) == Some((requestResource, requestAmount))
  {
    if !api.serviceAvailable then LogResult(false, [])
    else if !api.appendSucceeds then LogResult(false, [])
    else
      TradeTermsReadBack(date, initiatorCountry, partnerCountry, offerResource, offerAmount,
                         requestResource, requestAmount);
      LogResult(true, [TradeRow(date, initiatorCountry, partnerCountry,
                                offerResource, offerAmount, requestResource, requestAmount)])
  }

  /** `TradeRowReadsBack` wherever its condition holds. */
  lemma TradeTermsReadBack(date: string, initiatorCountry: string, partnerCountry: string,
                           offerResource: string, offerAmount: int,
                           requestResource: string, requestAmount: int)
    ensures ' ' !in offerResource && ' ' !in requestResource ==>
              var row := TradeRow(date, initiatorCountry, partnerCountry, offerResource, offerAmount,
                                  requestResource, requestAmount);
              && ReadTermCell(row[3].s) == Some((offerResource, offerAmount))
              && ReadTermCell(row[4].s) == Some((requestResource, requestAmount))
  {
    if ' ' !in offerResource && ' ' !in requestResource {
      TradeRowReadsBack(date, initiatorCountry, partnerCountry, offerResource, offerAmount,
                        requestResource, requestAmount);
    }
  }

  /** The trade row records both terms so that they can be read back. */
  lemma TradeRowReadsBack(date: string, initiatorCountry: string, partnerCountry: string,
                          offerResource: string, offerAmount: int,
                          requestResource: string, requestAmount: int)
    requires ' ' !in offerResource && ' ' !in requestResource
    ensures ReadTermCell(TradeRow(date, initiatorCountry, partnerCountry, offerResource, offerAmount,
                                  requestResource, requestAmount)[3].s) == Some((offerResource, offerAmount))
    ensures ReadTermCell(TradeRow(date, initiatorCountry, partnerCountry, offerResource, offerAmount,
                                  requestResource, requestAmount)[4].s) == Some((requestResource, requestAmount))
  {
    TermCellRoundTrip(offerResource, offerAmount);
    TermCellRoundTrip(requestResource, requestAmount);
  }

  /** The entries of a cost dict with a positive amount, in dict order. */
  function PositiveEntries(d: Dicts.Dict): Dicts.Dict {
    if |d| == 0 then []
    else (if d[0].1 > 0 then [d[0]] else []) + PositiveEntries(d[1..])
  }

  /** "Key: v" with the key capitalised. */
  function SummaryPart(e: (string, int)): string {
    Capitalize(e.0) + ": " + IntToString(e.1)
  }

  /** The positive costs as "Key: amount" with the key capitalised, in dict order, separated by ", ". */
  function CostSummary(d: Dicts.Dict): string {
    var p := PositiveEntries(d);
    Join(", ", seq(|p|, i requires 0 <= i < |p| => SummaryPart(p[i])))
  }

  /** The summary keeps exactly the positive entries and never more
      entries than the dict has; their order is stated by
      `PositiveEntriesConcat`. */
  lemma {:induction false} PositiveEntriesExactly(d: Dicts.Dict)
    ensures forall e :: e in PositiveEntries(d) <==> e in d && e.1 > 0
    ensures |PositiveEntries(d)| <= |d|
  {
    if |d| > 0 {
      PositiveEntriesExactly(d[1..]);
      assert d == [d[0]] + d[1..];
    }
  }

  /** Filtering distributes over concatenation, so the kept entries
      appear in the dict's order: those of a prefix before those of the
      rest. */
  lemma {:induction false} PositiveEntriesConcat(a: Dicts.Dict, b: Dicts.Dict)
    ensures PositiveEntries(a + b) == PositiveEntries(a) + PositiveEntries(b)
  {
    if |a| > 0 {
      assert (a + b)[0] == a[0];
      assert (a + b)[1..] == a[1..] + b;
      PositiveEntriesConcat(a[1..], b);
    } else {
      assert a + b == b;
    }
  }

  /** The summary is empty exactly when no amount is positive. */
  lemma CostSummaryEmptyIff(d: Dicts.Dict)
    ensures CostSummary(d) == "" <==> forall i :: 0 <= i < |d| ==> d[i].1 <= 0
  {
    PositiveEntriesExactly(d);
    var p := PositiveEntries(d);
    if |p| > 0 {
      assert p[0] in d && p[0].1 > 0;
      var parts := seq(|p|, i requires 0 <= i < |p| => SummaryPart(p[i]));
      JoinStartsWithFirst(", ", parts);
      assert |parts[0]| > 0;
    } else {
      forall i | 0 <= i < |d|
        ensures d[i].1 <= 0
      {
        assert d[i] in d;
      }
    }
  }

  lemma JoinStartsWithFirst(sep: string, parts: seq<string>)
    requires |parts| > 0
    ensures StartsWith(Join(sep, parts), parts[0])
  {
  }

  /** The development cell "{art} (Stufe {level})". */
  function TypeCell(art: string, level: int): string {
    art + " (Stufe " + IntToString(level) + ")"
  }

  /** The zone cell "Gebiet {gebiet}". */
  function ZoneCell(gebiet: int): string {
    "Gebiet " + IntToString(gebiet)
  }

  /** The count cell: the count when it is above one, else empty. */
  function CountCell(anzahl: int): Cell {
    if anzahl > 1 then Num(anzahl) else Str("")
  }

  /** The "Ausbau" row of a development: date, country, type and level,
      cost summary, zone and count. */
  function DevelopmentRow(date: string, land: string, art: string, level: int,
                          kosten: Dicts.Dict, gebiet: int, anzahl: int): Row
  {
    [Str(date), Str(land), Str(TypeCell(art, level)), Str(CostSummary(kosten)),
     Str(ZoneCell(gebiet)), CountCell(anzahl)]
  }

  /** `log_ausbau_to_sheet`: False without a service or when the append
      raises, True once the row is appended. */
  function LogDevelopment(api: Api, date: string, land: string, art: string, level: int,
                          kosten: Dicts.Dict, gebiet: int, anzahl: int): (r: LogResult)
    ensures r.ok <==> api.serviceAvailable && api.appendSucceeds
    ensures !r.ok ==> r.appended == []
    ensures r.ok ==> |r.appended| == 1 && |r.appended[0]| == 6
    ensures r.ok ==> r.appended[0][0] == Str(date) && r.appended[0][1] == Str(land)
    ensures r.ok ==> r.appended[0][3] == Str(CostSummary(kosten))
    ensures r.ok && ' ' !in art ==>
              ReadDevelopmentRow(r.appended[0]) == Some(DevelopmentEntry(art, level, gebiet, if anzahl > 1 then anzahl else 1))
  {
    if !api.serviceAvailable then LogResult(false, [])
    else if !api.appendSucceeds then LogResult(false, [])
    else
      DevelopmentFieldsReadBack(date, land, art, level, kosten, gebiet, anzahl);
      LogResult(true, [DevelopmentRow(date, land, art, level, kosten, gebiet, anzahl)])
  }

  /** `DevelopmentRowReadsBack` wherever its condition holds. */
  lemma DevelopmentFieldsReadBack(date: string, land: string, art: string, level: int,
                                  kosten: Dicts.Dict, gebiet: int, anzahl: int)
    ensures ' ' !in art ==>
              ReadDevelopmentRow(DevelopmentRow(date, land, art, level, kosten, gebiet, anzahl))
              == Some(DevelopmentEntry(art, level, gebiet, if anzahl > 1 then anzahl else 1))
  {
    if ' ' !in art {
      DevelopmentRowReadsBack(date, land, art, level, kosten, gebiet, anzahl);
    }
  }

  /** What a development row says when read back: type, level, zone and
      count, the count being 1 when the cell is empty. */
  datatype DevelopmentEntry = DevelopmentEntry(art: string, level: int, gebiet: int, count: int)

  /** Reads "{art} (Stufe {level})" back into type and level. */
  function ReadTypeCell(t: string): Option<(string, int)> {
    match Find(t, " (Stufe ")
    case None => None
    case Some(i) =>
      var rest := t[i + 8..];
      if |rest| == 0 || rest[|rest| - 1] != ')' then None
      else
        match ParseInt(rest[..|rest| - 1])
        case None => None
        case Some(level) => Some((t[..i], level))
  }

  /** Reads "Gebiet {gebiet}" back into the zone number. */
  function ReadZoneCell(z: string): Option<int> {
    if StartsWith(z, "Gebiet ") then ParseInt(z[7..]) else None
  }

  function ReadDevelopmentRow(row: Row): Option<DevelopmentEntry> {
    if |row| != 6 || !row[2].Str? || !row[4].Str? then None
    else
      match (ReadTypeCell(row[2].s), ReadZoneCell(row[4].s))
      case (Some((art, level)), Some(gebiet)) =>
        Some(DevelopmentEntry(art, level, gebiet, match row[5] case Num(n) => n case Str(_) => 1))
      case _ => None
  }

  lemma TypeCellRoundTrip(art: string, level: int)
    requires ' ' !in art
    ensures ReadTypeCell(TypeCell(art, level)) == Some((art, level))
  {
    ReadTypeCellParts(art, IntToString(level));
    ParseIntOfIntToString(level);
  }

  /** Reading a cell written as "{a} (Stufe {body})" finds `a` and parses
      `body`. */
  lemma ReadTypeCellParts(a: string, body: string)
    requires ' ' !in a
    ensures ReadTypeCell(a + " (Stufe " + body + ")") == (match ParseInt(body)
                                                          case None => None
                                                          case Some(n) => Some((a, n)))
  {
    var t := a + " (Stufe " + body + ")";
    assert t == a + " (Stufe " + (body + ")");
    FindWrittenSeparator(a, " (Stufe ", body + ")");
    var rest := t[|a| + 8..];
    assert rest == body + ")";
    assert rest[..|rest| - 1] == body;
    assert t[..|a|] == a;
  }

  lemma ZoneCellRoundTrip(gebiet: int)
    ensures ReadZoneCell(ZoneCell(gebiet)) == Some(gebiet)
  {
    assert ZoneCell(gebiet)[7..] == IntToString(gebiet);
    ParseIntOfIntToString(gebiet);
  }

  /** A development row can be read back: it records type, level and zone
      as given, and the count when it is above one (an empty count cell
      reads as a single unit). */
  lemma DevelopmentRowReadsBack(date: string, land: string, art: string, level: int,
                                kosten: Dicts.Dict, gebiet: int, anzahl: int)
    requires ' ' !in art
    ensures ReadDevelopmentRow(DevelopmentRow(date, land, art, level, kosten, gebiet, anzahl))
            == Some(DevelopmentEntry(art, level, gebiet, if anzahl > 1 then anzahl else 1))
  {
    var row := DevelopmentRow(date, land, art, level, kosten, gebiet, anzahl);
    assert |row| == 6 && row[2] == Str(TypeCell(art, level)) && row[4] == Str(ZoneCell(gebiet));
    assert row[5] == CountCell(anzahl);
    TypeCellRoundTrip(art, level);
    ZoneCellRoundTrip(gebiet);
  }
}

=== FILE: text.dfy ===
/** The few Python `str` operations the bot's decision logic relies on:
    `lower`, `capitalize`, `startswith`, `strip`, `replace`, `split`,
    `join`, `str(int)` and `int(str)`. Case mapping covers ASCII letters
    only. */
module Text {
  import opened Wrappers

  function LowerChar(c: char): char {
    if 'A' <= c <= 'Z' then (c as int + 32) as char else c
  }

  function UpperChar(c: char): char {
    if 'a' <= c <= 'z' then (c as int - 32) as char else c
  }

  /** `s.lower()` */
  function Lower(s: string): (r: string)
    ensures |r| == |s|
  {
    seq(|s|, i requires 0 <= i < |s| => LowerChar(s[i]))
  }

  /** `s.capitalize()`: first character upper case, the rest lower case. */
  function Capitalize(s: string): (r: string)
    ensures |r| == |s|
  {
    if |s| == 0 then "" else [UpperChar(s[0])] + Lower(s[1..])
  }

  /** `s.startswith(p)` */
  predicate StartsWith(s: string, p: string) {
    |p| <= |s| && s[..|p|] == p
  }

  /** The characters Python's argument-less `strip()` removes (ASCII part). */
  const Whitespace: set<char> := {' ', '\t', '\n', '\r', '\U{000B}', '\U{000C}'}

  function TrimStart(s: string, cs: set<char>): (r: string)
    ensures |r| <= |s|
    ensures |r| > 0 ==> r[0] !in cs
    ensures r == s[|s| - |r|..]
  {
    if |s| > 0 && s[0] in cs then TrimStart(s[1..], cs) else s
  }

  function TrimEnd(s: string, cs: set<char>): (r: string)
    ensures |r| <= |s|
    ensures |r| > 0 ==> r[|r| - 1] !in cs
    ensures r == s[..|r|]
  {
    if |s| > 0 && s[|s| - 1] in cs then TrimEnd(s[..|s| - 1], cs) else s
  }

  /** `s.strip(chars)` */
  function StripChars(s: string, cs: set<char>): (r: string)
    ensures |r| <= |s|
    ensures |r| > 0 ==> r[0] !in cs && r[|r| - 1] !in cs
  {
    TrimEnd(TrimStart(s, cs), cs)
  }

  /** `s.strip()` */
  function Strip(s: string): string {
    StripChars(s, Whitespace)
  }

  /** Stripping leaves a string alone exactly when its ends are not strippable. */
  lemma StripCharsNoop(s: string, cs: set<char>)
    ensures StripChars(s, cs) == s <==> (|s| == 0 || (s[0] !in cs && s[|s| - 1] !in cs))
  {
  }

  /** `s.replace(old, new)`: leftmost, non-overlapping occurrences. */
  function Replace(s: string, pat: string, rep: string): string
    requires |pat| > 0
    decreases |s|
  {
    if |s| == 0 then ""
    else if StartsWith(s, pat) then rep + Replace(s[|pat|..], pat, rep)
    else [s[0]] + Replace(s[1..], pat, rep)
  }

  /** Replacing a single character by text that does not contain it removes
      every occurrence of that character. */
  lemma {:induction false} ReplaceRemovesChar(s: string, c: char, rep: string)
    requires c !in rep
    ensures c !in Replace(s, [c], rep)
    decreases |s|
  {
    if |s| == 0 {
    } else if StartsWith(s, [c]) {
      ReplaceRemovesChar(s[1..], c, rep);
    } else {
      ReplaceRemovesChar(s[1..], c, rep);
      assert s[0] != c;
    }
  }

  /** `s.find(sep)` for a non-empty separator. */
  function Find(s: string, sep: string): (r: Option<nat>)
    requires |sep| > 0
    ensures r.Some? ==> r.value + |sep| <= |s| && s[r.value..r.value + |sep|] == sep
    decreases |s|
  {
    if |s| < |sep| then None
    else if s[..|sep|] == sep then Some(0)
    else match Find(s[1..], sep)
      case None => None
      case Some(i) => Some(i + 1)
  }

  /** `s.split(sep)` for a non-empty separator. */
  function Split(s: string, sep: string): (r: seq<string>)
    requires |sep| > 0
    ensures |r| >= 1
    decreases |s|
  {
    match Find(s, sep)
    case None => [s]
    case Some(i) => [s[..i]] + Split(s[i + |sep|..], sep)
  }

  /** `sep.join(parts)` */
  function Join(sep: string, parts: seq<string>): string {
    if |parts| == 0 then ""
    else if |parts| == 1 then parts[0]
    else parts[0] + sep + Join(sep, parts[1..])
  }

  /** A separator cannot be found at a position whose character differs from
      its first one: prefixing text free of that character shifts the
      first occurrence by the length of the prefix. */
  lemma {:induction false} FindAfterPrefix(a: string, b: string, sep: string)
    requires |sep| > 0
    requires sep[0] !in a
    ensures Find(a + b, sep) == (match Find(b, sep)
                                 case None => None
                                 case Some(i) => Some(i + |a|))
    decreases |a|
  {
    if |a| == 0 {
      assert a + b == b;
    } else {
      assert (a + b)[0] == a[0];
      assert (a + b)[1..] == a[1..] + b;
      FindAfterPrefix(a[1..], b, sep);
    }
  }

  lemma FindAtStart(s: string, sep: string)
    requires |sep| > 0 && StartsWith(s, sep)
    ensures Find(s, sep) == Some(0)
  {
  }

  lemma FindAbsent(s: string, sep: string)
    requires |sep| > 0 && sep[0] !in s
    ensures Find(s, sep) == None
  {
    FindAfterPrefix(s, "", sep);
    assert s + "" == s;
  }

  /** `(a + sep + b).split(sep)` splits at the separator written between the
      two parts when `a` cannot contain the start of a separator. */
  lemma SplitAtWrittenSeparator(a: string, b: string, sep: string)
    requires |sep| > 0 && sep[0] !in a
    ensures Split(a + sep + b, sep) == [a] + Split(b, sep)
  {
    var s := a + sep + b;
    FindAtStart(sep + b, sep);
    assert a + sep + b == a + (sep + b);
    FindAfterPrefix(a, sep + b, sep);
    assert Find(s, sep) == Some(|a|);
    assert s[..|a|] == a;
    assert s[|a| + |sep|..] == b;
  }

  /** The first occurrence of a separator written right after text that
      cannot start one is the written one. */
  lemma FindWrittenSeparator(a: string, sep: string, b: string)
    requires |sep| > 0 && sep[0] !in a
    ensures Find(a + sep + b, sep) == Some(|a|)
  {
    FindAtStart(sep + b, sep);
    assert a + sep + b == a + (sep + b);
    FindAfterPrefix(a, sep + b, sep);
  }

  /** The first piece of a split is the text before the first separator. */
  lemma SplitHead(s: string, sep: string)
    requires |sep| > 0
    ensures Split(s, sep)[0] == (match Find(s, sep)
                                 case None => s
                                 case Some(i) => s[..i])
  {
  }

  predicate IsDigit(c: char) {
    '0' <= c <= '9'
  }

  predicate AllDigits(s: string) {
    forall i :: 0 <= i < |s| ==> IsDigit(s[i])
  }

  function DigitChar(d: nat): (c: char)
    requires d < 10
    ensures IsDigit(c)
  {
    ('0' as int + d) as char
  }

  /** Decimal text of a natural number, most significant digit first. */
  function NatToString(n: nat): (r: string)
    ensures |r| >= 1 && AllDigits(r)
  {
    if n < 10 then [DigitChar(n)] else NatToString(n / 10) + [DigitChar(n % 10)]
  }

  /** `str(n)` for a Python int. */
  function IntToString(n: int): (r: string)
    ensures |r| >= 1
    ensures n >= 0 ==> AllDigits(r)
    ensures n < 0 ==> r[0] == '-' && AllDigits(r[1..])
  {
    if n < 0 then "-" + NatToString(-n) else NatToString(n)
  }

  function DigitsValue(s: string): nat
    requires AllDigits(s)
  {
    if |s| == 0 then 0 else DigitsValue(s[..|s| - 1]) * 10 + (s[|s| - 1] as int - '0' as int)
  }

  /** `int(s)` for decimal text: surrounding whitespace and one sign are
      allowed; anything else (an empty body, a stray character) is the
      `ValueError` case, modelled as `None`. */
  function ParseInt(s: string): Option<int> {
    var t := Strip(s);
    if |t| > 0 && (t[0] == '-' || t[0] == '+') then
      if |t| > 1 && AllDigits(t[1..]) then
        var v: int := DigitsValue(t[1..]);
        Some(if t[0] == '-' then -v else v)
      else None
    else if |t| > 0 && AllDigits(t) then Some(DigitsValue(t))
    else None
  }

  lemma {:induction false} DigitsOfNat(n: nat)
    ensures DigitsValue(NatToString(n)) == n
  {
    if n >= 10 {
      DigitsOfNat(n / 10);
      var s := NatToString(n);
      assert s[..|s| - 1] == NatToString(n / 10);
    }
  }

  lemma IntToStringIsStripped(n: int)
    ensures Strip(IntToString(n)) == IntToString(n)
  {
    var s := IntToString(n);
    assert IsDigit(s[|s| - 1]) by {
      if n < 0 {
        assert s[|s| - 1] == s[1..][|s| - 2];
      }
    }
    assert s[0] !in Whitespace by {
      if n >= 0 {
        DigitIsNoWhitespace(s[0]);
      }
    }
    DigitIsNoWhitespace(s[|s| - 1]);
    StripCharsNoop(s, Whitespace);
  }

  lemma DigitIsNoWhitespace(c: char)
    requires IsDigit(c)
    ensures c !in Whitespace
  {
  }

  /** `int(str(n)) == n` */
  lemma ParseIntOfIntToString(n: int)
    ensures ParseInt(IntToString(n)) == Some(n)
  {
    var s := IntToString(n);
    IntToStringIsStripped(n);
    if n < 0 {
      assert s[1..] == NatToString(-n);
      DigitsOfNat(-n);
    } else {
      DigitsOfNat(n);
    }
  }
}

=== FILE: trade_cog.dfy ===
/** The `/create_trade` negotiation of `cogs/trade.py`: the initiator names
    both countries and the terms, the partner answers one direct message
    with "ja" or "nein [Grund]", and an accepted trade is handed to the
    sheet logger. Pending trades are a map from trade id to record. */
module TradeCog {
  import opened Wrappers
  import opened Text
  import Chat
  import SheetsUtil

  /** `TradeResources`: the resource choices. */
  const Resources: seq<string> := ["Stein", "Eisen", "Holz", "Nahrung", "Stoff", "Dukaten"]

  /** The stored record of a pending trade (the embed is display only). */
  datatype Trade = Trade(initiator: nat, partner: nat,
                         initiatorCountry: string, partnerCountry: string,
                         offerResource: string, offerAmount: int,
                         requestResource: string, requestAmount: int,
                         timestamp: string)

  /** `self.pending_trades` */
  type Store = map<string, Trade>

  /** No pending trade is a trade with oneself. */
  predicate Valid(store: Store) {
    forall id :: id in store ==> store[id].initiator != store[id].partner
  }

  datatype Refusal = PartnerIsBot | PartnerIsSelf

  /** The terms of a proposal as given to the command. */
  datatype Terms = Terms(land: string, partnerLand: string,
                         offerResource: string, offerAmount: int,
                         requestResource: string, requestAmount: int)

  /** `create_trade` up to the confirmation request: the guards in source
      order, then the record stored under the fresh id `id`. */
  function Create(store: Store, id: string, user: Chat.User, partner: Chat.User,
                  t: Terms, timestamp: string): (r: Result<Store, Refusal>)
    ensures r.Err? <==> partner.isBot || partner.id == user.id
    ensures partner.isBot ==> r == Err(PartnerIsBot)
    ensures !partner.isBot && partner.id == user.id ==> r == Err(PartnerIsSelf)
    ensures r.Ok? ==> id in r.value && r.value.Keys == store.Keys + {id}
    ensures r.Ok? ==> forall k :: k in store && k != id ==> r.value[k] == store[k]
    ensures r.Ok? ==> && r.value[id].initiator == user.id && r.value[id].partner == partner.id
                      && r.value[id].initiatorCountry == t.land && r.value[id].partnerCountry == t.partnerLand
                      && r.value[id].offerResource == t.offerResource && r.value[id].offerAmount == t.offerAmount
                      && r.value[id].requestResource == t.requestResource
                      && r.value[id].requestAmount == t.requestAmount
    ensures r.Ok? && Valid(store) ==> Valid(r.value)
  {
    if partner.isBot then Err(PartnerIsBot)
    else if partner.id == user.id then Err(PartnerIsSelf)
    else Ok(store[id := Trade(user.id, partner.id, t.land, t.partnerLand,
                              t.offerResource, t.offerAmount, t.requestResource, t.requestAmount,
                              timestamp)])
  }

  /** `check_response`: a direct message from the partner whose lowercased
      text starts with "ja" or "nein". */
  predicate IsReply(partner: nat, m: Chat.Msg) {
    && m.author == partner
    && m.channel == Chat.Direct
    && (StartsWith(Lower(m.content), "ja") || StartsWith(Lower(m.content), "nein"))
  }

  predicate SaysYes(content: string) {
    StartsWith(Lower(content), "ja")
  }

  /** The text after the first five characters, stripped, when the answer is longer than five characters. */
  function RejectionReason(content: string): Option<string> {
    if |content| > 5 then Some(Strip(content[5..])) else None
  }

  /** "nein" followed by a blank and a reason yields that reason; a bare
      "nein" yields none. */
  lemma ReasonAfterNein(reason: string)
    requires |reason| > 0 && reason[0] !in Whitespace && reason[|reason| - 1] !in Whitespace
    ensures RejectionReason("nein " + reason) == Some(reason)
    ensures RejectionReason("nein") == None
  {
    assert ("nein " + reason)[5..] == reason;
    StripCharsNoop(reason, Whitespace);
  }

  /** The call of `sheets.log_trade_to_sheet`. */
  datatype LogCall = LogCall(sheetId: string, initiatorCountry: string, partnerCountry: string,
                             offerResource: string, offerAmount: int,
                             requestResource: string, requestAmount: int)

  /** What the initiator is told at the end. */
  datatype Notice = AcceptedNotice | RejectedNotice(reason: Option<string>)

  /** The state after a transition and what it caused outside the store. */
  datatype Step = Step(store: Store, log: seq<LogCall>, notice: Option<Notice>)

  /** The sheet-logger call for a stored trade. */
  function LogOf(sheetId: string, t: Trade): LogCall {
    LogCall(sheetId, t.initiatorCountry, t.partnerCountry, t.offerResource, t.offerAmount,
            t.requestResource, t.requestAmount)
  }

  /** `finalize_trade`; a logger failure is swallowed, so it does not
      change the transition. */
  function Finalize(store: Store, id: string, accepted: bool, reason: Option<string>, sheetId: string): (s: Step)
    ensures id !in s.store
    ensures forall k :: k != id ==> (k in s.store <==> k in store)
    ensures forall k :: k in s.store ==> s.store[k] == store[k]
    ensures id !in store ==> s == Step(store, [], None)
    ensures |s.log| == (if accepted && id in store then 1 else 0)
    ensures |s.log| == 1 ==> s.log[0] == LogOf(sheetId, store[id])
    ensures id in store && !accepted ==> s.notice == Some(RejectedNotice(reason))
    ensures id in store && accepted ==> s.notice == Some(AcceptedNotice)
  {
    if id !in store then Step(store, [], None)
    else if accepted then Step(store - {id}, [LogOf(sheetId, store[id])], Some(AcceptedNotice))
    else Step(store - {id}, [], Some(RejectedNotice(reason)))
  }

  /** The wait for the partner's answer. */
  function FirstReply(partner: nat, msgs: seq<Chat.Msg>): Option<nat> {
    Chat.FirstMatch(msgs, m => IsReply(partner, m))
  }

  /** The trade is accepted in the handshake: the proposal reached the
      partner and the first answer that counts starts with "ja". */
  predicate AcceptedIn(store: Store, id: string, delivery: Chat.Delivery, msgs: seq<Chat.Msg>) {
    && id in store
    && delivery == Chat.Delivered
    && FirstReply(store[id].partner, msgs).Some?
    && SaysYes(msgs[FirstReply(store[id].partner, msgs).value].content)
  }

  /** `send_trade_confirmation`: `delivery` is what the direct message to
      the partner did and `msgs` what arrives within the ten minutes. A
      missing record (the lookup raises) and a refused or failed delivery
      end with the record removed, as does every finalize. */
  function Confirm(store: Store, id: string, delivery: Chat.Delivery, msgs: seq<Chat.Msg>, sheetId: string): (s: Step)
    ensures id !in s.store
    ensures forall k :: k != id ==> (k in s.store <==> k in store)
    ensures forall k :: k in s.store ==> s.store[k] == store[k]
    ensures |s.log| <= 1
    ensures |s.log| == 1 <==> AcceptedIn(store, id, delivery, msgs)
    ensures |s.log| == 1 ==> s.log[0] == LogOf(sheetId, store[id])
    ensures (id in store && delivery == Chat.Delivered && FirstReply(store[id].partner, msgs).None?)
            ==> s.notice == Some(RejectedNotice(Some("Zeitüberschreitung")))
    ensures (id in store && delivery == Chat.Delivered && FirstReply(store[id].partner, msgs).Some?
             && !SaysYes(msgs[FirstReply(store[id].partner, msgs).value].content))
            ==> s.notice == Some(RejectedNotice(RejectionReason(msgs[FirstReply(store[id].partner, msgs).value].content)))
    ensures delivery != Chat.Delivered ==> s.notice.None? && s.log == []
  {
    if id !in store then Step(store, [], None)
    else if delivery != Chat.Delivered then Step(store - {id}, [], None)
    else match FirstReply(store[id].partner, msgs)
      case None => Finalize(store, id, false, Some("Zeitüberschreitung"), sheetId)
      case Some(i) =>
        if SaysYes(msgs[i].content) then Finalize(store, id, true, None, sheetId)
        else Finalize(store, id, false, RejectionReason(msgs[i].content), sheetId)
  }

  /** Removing a trade keeps the store free of self-trades. */
  lemma ConfirmKeepsValid(store: Store, id: string, delivery: Chat.Delivery, msgs: seq<Chat.Msg>, sheetId: string)
    requires Valid(store)
    ensures Valid(Confirm(store, id, delivery, msgs, sheetId).store)
  {
    var s := Confirm(store, id, delivery, msgs, sheetId).store;
    forall k | k in s
      ensures s[k].initiator != s[k].partner
    {
      assert s[k] == store[k];
    }
  }

  /** Messages that do not count as the partner's answer (other authors,
      guild channels, other words) change nothing in the outcome. */
  lemma ConfirmIgnoresOtherMessages(store: Store, id: string, delivery: Chat.Delivery,
                                    noise: seq<Chat.Msg>, msgs: seq<Chat.Msg>, sheetId: string)
    requires id in store
    requires forall j :: 0 <= j < |noise| ==> !IsReply(store[id].partner, noise[j])
    ensures Confirm(store, id, delivery, noise + msgs, sheetId) == Confirm(store, id, delivery, msgs, sheetId)
  {
    var p := store[id].partner;
    Chat.FirstMatchSkipsRejected(noise, msgs, m => IsReply(p, m));
    match FirstReply(p, msgs)
    case None =>
    case Some(i) =>
      assert (noise + msgs)[i + |noise|] == msgs[i];
  }

  /** From proposal to acceptance: a created trade that the partner
      accepts with "ja" is logged once with exactly the proposed countries
      and terms, and the store returns to what it held before. */
  lemma AcceptedTradeIsLoggedOnce(store: Store, id: string, user: Chat.User, partner: Chat.User,
                                  t: Terms, timestamp: string, sheetId: string)
    requires id !in store
    requires !partner.isBot && partner.id != user.id
    ensures Create(store, id, user, partner, t, timestamp).Ok?
    ensures var s := Confirm(Create(store, id, user, partner, t, timestamp).value, id, Chat.Delivered,
                             [Chat.Msg(partner.id, Chat.Direct, "ja")], sheetId);
            && s.store == store
            && s.log == [LogCall(sheetId, t.land, t.partnerLand, t.offerResource, t.offerAmount,
                                 t.requestResource, t.requestAmount)]
  {
    var created := Create(store, id, user, partner, t, timestamp).value;
    var msgs := [Chat.Msg(partner.id, Chat.Direct, "ja")];
    assert Lower("ja") == "ja";
    assert IsReply(partner.id, msgs[0]);
    assert FirstReply(partner.id, msgs) == Some(0);
    var s := Confirm(created, id, Chat.Delivered, msgs, sheetId);
    assert s.store.Keys == store.Keys;
  }
}

=== FILE: trade_legacy.dfy ===
/** The older `/handelsvertrag` command (`attached_assets/trade.py`). The
    countries come from the members' roles, the terms are written into the
    proposal's embed fields as "{mention} liefert {n}x {resource}", both
    parties confirm in two successive waits, and on acceptance the terms
    are parsed back out of those fields for the sheet logger. */
module TradeLegacy {
  import opened Wrappers
  import opened Text
  import Chat
  import Handshake

  /** One embed field. */
  datatype Field = Field(name: string, value: string)

  /** The zero-width space of the alignment spacer fields. */
  const Spacer: string := "\U{200B}"

  /** The breach clause used when none is given. */
  const StandardClause: string :=
    "Der Schuldige muss das Doppelte des Wertes oder eine gleichwertige Entschädigung zahlen. "
    + "Ein Vertragsbruchkrieg (\U{00A7}2.1.1) kann erklärt werden. "
    + "Vertragsbrüche werden von der Spielleitung geprüft. "
    + "Sanktionen können wirtschaftlicher, militärischer oder territorialer Natur sein."

  const Unknown: string := "Unbekannt"

  const DefaultRejection: string := "Der vorgeschlagene Handelspakt wurde abgelehnt."

  const InitiatorDeclined: string := "Der Handelsvertrag wurde vom Anbieter abgelehnt."

  const PartnerDeclined: string := "Der Handelspartner hat den Vertrag abgelehnt."

  /** The value of an export field. */
  function ExportValue(mention: string, amount: int, resource: string): string {
    mention + " liefert " + IntToString(amount) + "x " + resource
  }

  /** The value of an import field. */
  function ImportValue(mention: string, amount: int, resource: string): string {
    mention + " erhält " + IntToString(amount) + "x " + resource
  }

  /** The proposal as given to the command. */
  datatype Proposal = Proposal(offerResource: string, offerAmount: int,
                               wantResource: string, wantAmount: int,
                               klausel: string, anmerkungen: string)

  /** The breach clause shown: the given one, or the standard clause when
      it is empty. */
  function ClauseText(klausel: string): string {
    if klausel != "" then klausel else StandardClause
  }

  /** The embed fields in the order they are added. */
  function Fields(userCountry: string, partnerCountry: string, userMention: string, partnerMention: string,
                  p: Proposal): (fs: seq<Field>)
    ensures |fs| == (if p.anmerkungen != "" then 8 else 7)
    ensures fs[0] == Field(userCountry + " (Export)", ExportValue(userMention, p.offerAmount, p.offerResource))
    ensures fs[1].name == partnerCountry + " (Import)" && fs[2] == Field(Spacer, Spacer)
    ensures fs[3] == Field(partnerCountry + " (Export)", ExportValue(partnerMention, p.wantAmount, p.wantResource))
    ensures fs[6] == Field("Vertragsbruchklausel", ClauseText(p.klausel))
  {
    [Field(userCountry + " (Export)", ExportValue(userMention, p.offerAmount, p.offerResource)),
     Field(partnerCountry + " (Import)", ImportValue(partnerMention, p.offerAmount, p.offerResource)),
     Field(Spacer, Spacer),
     Field(partnerCountry + " (Export)", ExportValue(partnerMention, p.wantAmount, p.wantResource)),
     Field(userCountry + " (Import)", ImportValue(userMention, p.wantAmount, p.wantResource)),
     Field(Spacer, Spacer),
     Field("Vertragsbruchklausel", ClauseText(p.klausel))]
    + (if p.anmerkungen != "" then [Field("Anmerkungen", p.anmerkungen)] else [])
  }

  /** A pending trade. The raw clause is stored, not the shown one. */
  datatype Pending = Pending(initiator: nat, partner: nat, fields: seq<Field>, channel: nat,
                             acceptedInitiator: bool, acceptedPartner: bool,
                             klausel: string, anmerkungen: string)

  /** `self.pending_trades` */
  type Store = map<string, Pending>

  /** A partner flag is only ever set after the initiator's "ja". */
  predicate FlagsConsistent(store: Store) {
    forall id :: id in store ==> (store[id].acceptedPartner ==> store[id].acceptedInitiator)
  }

  /** `f"{user.id}-{partner.id}-{timestamp}"`, the timestamp as text. */
  function TradeId(userId: nat, partnerId: nat, timestamp: string): string {
    NatToString(userId) + "-" + NatToString(partnerId) + "-" + timestamp
  }

  datatype Refusal = NoCountry

  /** `trade_agreement` up to the confirmation: both members need a country
      role; the record is stored under the id built from both ids and the
      time. There is no bot or self check in this variant. */
  function Create(store: Store, user: Chat.User, partner: Chat.User, p: Proposal, channel: nat,
                  timestamp: string): (r: Result<(string, Store), Refusal>)
    ensures r.Err? <==> Chat.CountryOf(user.roles).None? || Chat.CountryOf(partner.roles).None?
    ensures r.Ok? ==> r.value.0 == TradeId(user.id, partner.id, timestamp)
    ensures r.Ok? ==> var (id, s) := r.value;
                      && id in s && s.Keys == store.Keys + {id}
                      && (forall k :: k in store && k != id ==> s[k] == store[k])
                      && s[id].initiator == user.id && s[id].partner == partner.id && s[id].channel == channel
                      && !s[id].acceptedInitiator && !s[id].acceptedPartner
                      && s[id].klausel == p.klausel && s[id].anmerkungen == p.anmerkungen
                      && s[id].fields == Fields(Chat.CountryOf(user.roles).value, Chat.CountryOf(partner.roles).value,
                                                Chat.Mention(user.id), Chat.Mention(partner.id), p)
                      && |s[id].fields| >= 7
                      && s[id].fields[6].value == (if p.klausel == "" then StandardClause else p.klausel)
    ensures r.Ok? && FlagsConsistent(store) ==> FlagsConsistent(r.value.1)
  {
    var uc := Chat.CountryOf(user.roles);
    var pc := Chat.CountryOf(partner.roles);
    if uc.None? || pc.None? then Err(NoCountry)
    else
      var id := TradeId(user.id, partner.id, timestamp);
      var fs := Fields(uc.value, pc.value, Chat.Mention(user.id), Chat.Mention(partner.id), p);
      Ok((id, store[id := Pending(user.id, partner.id, fs, channel, false, false, p.klausel, p.anmerkungen)]))
  }

  /** The value of the first embed field with that name; the source
      raises when there is none. */
  function FindField(fields: seq<Field>, name: string): (r: Option<string>)
    ensures r.None? <==> forall i :: 0 <= i < |fields| ==> fields[i].name != name
    ensures r.Some? ==> exists i :: 0 <= i < |fields| && fields[i] == Field(name, r.value)
                                    && forall j :: 0 <= j < i ==> fields[j].name != name
  {
    if |fields| == 0 then None
    else if fields[0].name == name then Some(fields[0].value)
    else
      var r := FindField(fields[1..], name);
      if r.Some? then
        ghost var i :| 0 <= i < |fields[1..]| && fields[1..][i] == Field(name, r.value)
                       && forall j :: 0 <= j < i ==> fields[1..][j].name != name;
        assert fields[i + 1] == Field(name, r.value);
        r
      else r
  }

  /** Reads an export value back: the amount is the integer between
      "liefert " and the next 'x', the resource is the stripped text after
      the first "x ". A missing piece or a non-integer amount is `None`. */
  function ParseExport(v: string): Option<(int, string)> {
    var a := Split(v, "liefert ");
    if |a| < 2 then None
    else match ParseInt(Split(a[1], "x")[0])
      case None => None
      case Some(n) =>
        var b := Split(v, "x ");
        if |b| < 2 then None else Some((n, Strip(b[1])))
  }

  /** The terms handed to the logger. */
  datatype LoggedTerms = LoggedTerms(offerAmount: int, offerResource: string,
                                     requestAmount: int, requestResource: string)

  /** Both export fields looked up by country and parsed. */
  function ParseTerms(fields: seq<Field>, initiatorCountry: string, partnerCountry: string): Option<LoggedTerms> {
    match (FindField(fields, initiatorCountry + " (Export)"), FindField(fields, partnerCountry + " (Export)"))
    case (Some(iv), Some(pv)) =>
      (match (ParseExport(iv), ParseExport(pv))
       case (Some((oa, or)), Some((ra, rr))) => Some(LoggedTerms(oa, or, ra, rr))
       case _ => None)
    case _ => None
  }

  /** A field whose name occurs at no earlier position is the one found. */
  lemma FindFieldAt(fields: seq<Field>, k: nat, name: string)
    requires k < |fields| && fields[k].name == name
    requires forall j :: 0 <= j < k ==> fields[j].name != name
    ensures FindField(fields, name) == Some(fields[k].value)
  {
    var r := FindField(fields, name);
    var i :| 0 <= i < |fields| && fields[i] == Field(name, r.value)
             && forall j :: 0 <= j < i ==> fields[j].name != name;
    assert !(i < k) && !(k < i);
  }

  /** The text of a whole number has no letter in it. */
  lemma IntToStringHasNoLetters(n: int)
    ensures 'l' !in IntToString(n) && 'x' !in IntToString(n)
  {
    var d := IntToString(n);
    forall k | 0 <= k < |d|
      ensures d[k] != 'l' && d[k] != 'x'
    {
      if n < 0 && k > 0 {
        assert d[k] == d[1..][k - 1];
      }
    }
  }

  /** The text before the first "liefert " after the amount starts with the
      amount and an "x". */
  lemma AmountPiece(d: string, res: string)
    requires 'l' !in d && 'x' !in d
    ensures var piece := Split(d + "x " + res, "liefert ")[0];
            Split(piece, "x")[0] == d
  {
    var a := d + "x ";
    assert 'l' !in a;
    assert d + "x " + res == a + res;
    FindAfterPrefix(a, res, "liefert ");
    SplitHead(a + res, "liefert ");
    var piece := Split(a + res, "liefert ")[0];
    var rest := piece[|d| + 1..];
    assert piece == d + "x" + rest;
    FindWrittenSeparator(d, "x", rest);
    SplitHead(piece, "x");
  }

  /** The amount: the piece after "liefert " starts with the amount
      followed by 'x'. */
  lemma ExportAmount(mention: string, amount: int, res: string)
    requires 'l' !in mention
    ensures var a := Split(ExportValue(mention, amount, res), "liefert ");
            |a| >= 2 && ParseInt(Split(a[1], "x")[0]) == Some(amount)
  {
    var d := IntToString(amount);
    IntToStringHasNoLetters(amount);
    assert ExportValue(mention, amount, res) == (mention + " ") + "liefert " + (d + "x " + res);
    SplitAtWrittenSeparator(mention + " ", d + "x " + res, "liefert ");
    AmountPiece(d, res);
    ParseIntOfIntToString(amount);
  }

  /** The resource: the text after the first "x " is the resource. */
  lemma ExportResource(mention: string, amount: int, res: string)
    requires 'x' !in mention && 'x' !in res
    requires |res| == 0 || (res[0] !in Whitespace && res[|res| - 1] !in Whitespace)
    ensures var b := Split(ExportValue(mention, amount, res), "x ");
            |b| >= 2 && Strip(b[1]) == res
  {
    var d := IntToString(amount);
    IntToStringHasNoLetters(amount);
    var head := mention + " liefert " + d;
    assert 'x' !in head;
    assert ExportValue(mention, amount, res) == head + "x " + res;
    SplitAtWrittenSeparator(head, res, "x ");
    FindAbsent(res, "x ");
    StripCharsNoop(res, Whitespace);
  }

  /** Parsing an export field gives back amount and resource whenever the
      mention contains neither 'l' nor 'x' and the resource contains no 'x'
      and no surrounding whitespace. */
  lemma ExportRoundTrip(mention: string, amount: int, res: string)
    requires 'l' !in mention && 'x' !in mention && 'x' !in res
    requires |res| == 0 || (res[0] !in Whitespace && res[|res| - 1] !in Whitespace)
    ensures ParseExport(ExportValue(mention, amount, res)) == Some((amount, res))
  {
    ExportAmount(mention, amount, res);
    ExportResource(mention, amount, res);
  }

  /** A member's mention qualifies for the round trip: the terms of a
      proposal come back for every resource choice. */
  lemma MentionExportRoundTrip(id: nat, amount: int, res: string)
    requires 'x' !in res && (|res| == 0 || (res[0] !in Whitespace && res[|res| - 1] !in Whitespace))
    ensures ParseExport(ExportValue(Chat.Mention(id), amount, res)) == Some((amount, res))
  {
    Chat.MentionHasNoLetters(id);
    ExportRoundTrip(Chat.Mention(id), amount, res);
  }

  /** A resource choice is free of 'x' and of surrounding whitespace. */
  predicate PlainResource(res: string) {
    'x' !in res && (|res| == 0 || (res[0] !in Whitespace && res[|res| - 1] !in Whitespace))
  }

  lemma ExportSuffixDiffersFromImport(a: string, b: string)
    ensures a + " (Export)" != b + " (Import)"
  {
    if |a| == |b| {
      assert (a + " (Export)")[|a| + 2] == 'E';
      assert (b + " (Import)")[|b| + 2] == 'I';
    } else {
      assert |a + " (Export)"| != |b + " (Import)"|;
    }
  }

  lemma ExportNamesDiffer(a: string, b: string)
    requires a != b
    ensures a + " (Export)" != b + " (Export)"
  {
    if |a| == |b| {
      var i :| 0 <= i < |a| && a[i] != b[i];
      assert (a + " (Export)")[i] == a[i];
      assert (b + " (Export)")[i] == b[i];
    } else {
      assert |a + " (Export)"| != |b + " (Export)"|;
    }
  }

  lemma SpacerIsNoExportName(a: string)
    ensures Spacer != a + " (Export)"
  {
    assert |a + " (Export)"| >= 9;
  }

  /** The two export fields are found under the countries' export names. */
  lemma ExportFieldsFound(uc: string, pc: string, um: string, pm: string, p: Proposal)
    requires uc != pc
    ensures FindField(Fields(uc, pc, um, pm, p), uc + " (Export)") == Some(ExportValue(um, p.offerAmount, p.offerResource))
    ensures FindField(Fields(uc, pc, um, pm, p), pc + " (Export)") == Some(ExportValue(pm, p.wantAmount, p.wantResource))
  {
    var fs := Fields(uc, pc, um, pm, p);
    FindFieldAt(fs, 0, uc + " (Export)");
    ExportNamesDiffer(uc, pc);
    ExportSuffixDiffersFromImport(pc, pc);
    SpacerIsNoExportName(pc);
    FindFieldAt(fs, 3, pc + " (Export)");
  }

  /** As long as the two countries differ, the export fields of a proposal
      give back exactly its terms. */
  lemma FieldsParseBack(uc: string, pc: string, ui: nat, pi: nat, p: Proposal)
    requires uc != pc
    requires PlainResource(p.offerResource) && PlainResource(p.wantResource)
    ensures ParseTerms(Fields(uc, pc, Chat.Mention(ui), Chat.Mention(pi), p), uc, pc)
            == Some(LoggedTerms(p.offerAmount, p.offerResource, p.wantAmount, p.wantResource))
  {
    var um, pm := Chat.Mention(ui), Chat.Mention(pi);
    ExportFieldsFound(uc, pc, um, pm, p);
    PlainExportRoundTrip(ui, p.offerAmount, p.offerResource);
    PlainExportRoundTrip(pi, p.wantAmount, p.wantResource);
    ParseBackOf(Fields(uc, pc, um, pm, p), uc, pc, ExportValue(um, p.offerAmount, p.offerResource),
                ExportValue(pm, p.wantAmount, p.wantResource), p.offerAmount, p.offerResource,
                p.wantAmount, p.wantResource);
  }

  /** A member's export of an offered resource parses back. */
  lemma PlainExportRoundTrip(id: nat, amount: int, res: string)
    requires PlainResource(res)
    ensures ParseExport(ExportValue(Chat.Mention(id), amount, res)) == Some((amount, res))
  {
    MentionExportRoundTrip(id, amount, res);
  }

  /** Found export values that parse give the logged terms. */
  lemma ParseBackOf(fields: seq<Field>, uc: string, pc: string, iv: string, pv: string,
                    oa: int, or: string, ra: int, rr: string)
    requires FindField(fields, uc + " (Export)") == Some(iv)
    requires FindField(fields, pc + " (Export)") == Some(pv)
    requires ParseExport(iv) == Some((oa, or)) && ParseExport(pv) == Some((ra, rr))
    ensures ParseTerms(fields, uc, pc) == Some(LoggedTerms(oa, or, ra, rr))
  {
    ParseTermsOfFound(fields, uc, pc, iv, pv);
  }

  /** Once both export values are found, the terms are what they parse to. */
  lemma ParseTermsOfFound(fields: seq<Field>, uc: string, pc: string, iv: string, pv: string)
    requires FindField(fields, uc + " (Export)") == Some(iv)
    requires FindField(fields, pc + " (Export)") == Some(pv)
    requires ParseExport(iv).Some? && ParseExport(pv).Some?
    ensures ParseTerms(fields, uc, pc) == Some(LoggedTerms(ParseExport(iv).value.0, ParseExport(iv).value.1,
                                                           ParseExport(pv).value.0, ParseExport(pv).value.1))
  {
  }

  /** What finalize reads at the time it runs: whether the announcement
      channel exists, the members' current roles, and the sheet id from
      the environment ("" when unset). */
  datatype Env = Env(channelPresent: bool, initiatorRoles: seq<string>, partnerRoles: seq<string>,
                     sheetId: string)

  /** The first role other than "@everyone", or "Unbekannt" when there is none. */
  function CountryOrUnknown(roles: seq<string>): (c: string)
    ensures Chat.CountryOf(roles).None? ==> c == Unknown
    ensures Chat.CountryOf(roles).Some? ==> c == Chat.CountryOf(roles).value
  {
    Chat.CountryOf(roles).GetOr(Unknown)
  }

  /** `rejection_reason or "Der vorgeschlagene Handelspakt wurde abgelehnt."` */
  function RejectionText(reason: Option<string>): string {
    if reason.Some? && reason.value != "" then reason.value else DefaultRejection
  }

  /** The call of `utils.sheets.log_trade_to_sheet`. */
  datatype LogCall = LogCall(sheetId: string, initiatorCountry: string, partnerCountry: string,
                             offerResource: string, offerAmount: int,
                             requestResource: string, requestAmount: int)

  /** The state after a transition, the logger calls it made and the
      rejection reason sent to both parties. */
  datatype Step = Step(store: Store, log: seq<LogCall>, rejection: Option<string>)

  /** `finalize_trade`. An accepted trade whose export fields cannot be
      found or parsed raises before the record is deleted. */
  function Finalize(store: Store, id: string, accepted: bool, reason: Option<string>, env: Env): (s: Step)
    ensures forall k :: k != id ==> (k in s.store <==> k in store)
    ensures forall k :: k in s.store ==> k in store && s.store[k] == store[k]
    ensures (id !in store || !env.channelPresent) ==> s == Step(store, [], None)
    ensures (id in store && env.channelPresent && !accepted)
            ==> id !in s.store && s.log == [] && s.rejection == Some(RejectionText(reason))
    ensures (id in store && env.channelPresent && accepted) ==>
              var terms := ParseTerms(store[id].fields, CountryOrUnknown(env.initiatorRoles),
                                      CountryOrUnknown(env.partnerRoles));
              && (id in s.store <==> terms.None?)
              && (|s.log| == 1 <==> terms.Some? && env.sheetId != "")
              && |s.log| <= 1
              && s.rejection.None?
    ensures |s.log| == 1 ==>
              var terms := ParseTerms(store[id].fields, CountryOrUnknown(env.initiatorRoles),
                                      CountryOrUnknown(env.partnerRoles)).value;
              s.log[0] == LogCall(env.sheetId, CountryOrUnknown(env.initiatorRoles),
                                  CountryOrUnknown(env.partnerRoles), terms.offerResource,
                                  terms.offerAmount, terms.requestResource, terms.requestAmount)
  {
    if id !in store || !env.channelPresent then Step(store, [], None)
    else
      var ic := CountryOrUnknown(env.initiatorRoles);
      var pc := CountryOrUnknown(env.partnerRoles);
      if accepted then
        match ParseTerms(store[id].fields, ic, pc)
        case None => Step(store, [], None)
        case Some(t) =>
          Step(store - {id},
               if env.sheetId != "" then [LogCall(env.sheetId, ic, pc, t.offerResource, t.offerAmount,
                                                  t.requestResource, t.requestAmount)]
               else [],
               None)
      else Step(store - {id}, [], Some(RejectionText(reason)))
  }

  /** The two waits after both proposal messages went out: a timeout
      removes the record, a "nein" in the first wait finalizes as declined
      by the initiator, and the second answer decides. */
  function Conclude(store: Store, id: string, verdict: Handshake.Verdict, env: Env): (s: Step)
    requires id in store
    ensures forall k :: k != id ==> (k in s.store <==> k in store)
    ensures forall k :: k in s.store && k != id ==> s.store[k] == store[k]
    ensures verdict.FirstTimeout? || verdict.SecondTimeout? ==> s == Step(store - {id}, [], None)
    ensures verdict.FirstNo? ==> s == Finalize(store[id := store[id].(acceptedInitiator := false)], id, false,
                                               Some(InitiatorDeclined), env)
    ensures verdict == Handshake.SecondAnswer(false)
            ==> s == Finalize(store[id := store[id].(acceptedInitiator := true, acceptedPartner := false)], id,
                              false, Some(PartnerDeclined), env)
    ensures |s.log| <= 1
    ensures |s.log| == 1 ==> verdict == Handshake.SecondAnswer(true) && env.sheetId != ""
    ensures !store[id].acceptedPartner && id in s.store ==> (s.store[id].acceptedPartner ==> s.store[id].acceptedInitiator)
  {
    var rec := store[id];
    match verdict
    case FirstTimeout => Step(store - {id}, [], None)
    case FirstNo =>
      Finalize(store[id := rec.(acceptedInitiator := false)],
               id, false, Some(InitiatorDeclined), env)
    case SecondTimeout => Step(store - {id}, [], None)
    case SecondAnswer(ja) =>
      Finalize(store[id := rec.(acceptedInitiator := true, acceptedPartner := ja)], id, ja,
               if ja then None else Some(PartnerDeclined), env)
  }

  /** A proposal DM the platform refused: the first one, or the second
      after the first was delivered. */
  predicate Refused(toInitiator: Chat.Delivery, toPartner: Chat.Delivery) {
    toInitiator == Chat.Forbidden || (toInitiator == Chat.Delivered && toPartner == Chat.Forbidden)
  }

  /** `send_trade_confirmation` as written. A refused DM reaches the
      `discord.Forbidden` handler, whose notice passes `ephemeral` to a
      channel's `send`; that keyword does not exist there, so the notice
      raises before the record is deleted and the record stays. Any other
      failure escapes and leaves the record as well. */
  function Respond(store: Store, id: string, toInitiator: Chat.Delivery, toPartner: Chat.Delivery,
                   verdict: Handshake.Verdict, env: Env): (s: Step)
    ensures id !in store ==> s == Step(store, [], None)
    ensures forall k :: k != id ==> (k in s.store <==> k in store)
    ensures forall k :: k in s.store && k != id ==> s.store[k] == store[k]
    ensures id in store && !(toInitiator == Chat.Delivered && toPartner == Chat.Delivered)
            ==> s == Step(store, [], None)
    ensures id in store && toInitiator == Chat.Delivered && toPartner == Chat.Delivered
            ==> s == Conclude(store, id, verdict, env)
    ensures |s.log| <= 1
    ensures |s.log| == 1 ==> verdict == Handshake.SecondAnswer(true) && toInitiator == Chat.Delivered
                             && toPartner == Chat.Delivered && env.sheetId != ""
  {
    if id !in store then Step(store, [], None)
    else if toInitiator != Chat.Delivered || toPartner != Chat.Delivered then Step(store, [], None)
    else Conclude(store, id, verdict, env)
  }

  /** As written, a refused proposal DM leaves the trade pending for good:
      no answer is awaited and nothing deletes it. */
  lemma RefusedProposalStaysPending(store: Store, id: string, toInitiator: Chat.Delivery, toPartner: Chat.Delivery,
                                    verdict: Handshake.Verdict, env: Env)
    requires id in store && Refused(toInitiator, toPartner)
    ensures var s := Respond(store, id, toInitiator, toPartner, verdict, env);
            id in s.store && s.store[id] == store[id] && s.log == [] && s.rejection.None?
  {
  }

  /** `send_trade_confirmation` as its handler intends: a refused DM
      deletes the record; everything else is as written. */
  function RespondIntended(store: Store, id: string, toInitiator: Chat.Delivery, toPartner: Chat.Delivery,
                           verdict: Handshake.Verdict, env: Env): (s: Step)
    ensures id !in store ==> s == Step(store, [], None)
    ensures forall k :: k != id ==> (k in s.store <==> k in store)
    ensures forall k :: k in s.store && k != id ==> s.store[k] == store[k]
    ensures id in store && Refused(toInitiator, toPartner) ==> s == Step(store - {id}, [], None)
    ensures !Refused(toInitiator, toPartner) ==> s == Respond(store, id, toInitiator, toPartner, verdict, env)
    ensures |s.log| == 1 ==> verdict == Handshake.SecondAnswer(true) && env.sheetId != ""
  {
    if id in store && Refused(toInitiator, toPartner) then Step(store - {id}, [], None)
    else Respond(store, id, toInitiator, toPartner, verdict, env)
  }

  /** The confirmation of a record whose partner has not yet accepted
      (every record, as created) keeps every partner flag behind its
      initiator flag. */
  lemma RespondKeepsFlags(store: Store, id: string, toInitiator: Chat.Delivery, toPartner: Chat.Delivery,
                          verdict: Handshake.Verdict, env: Env)
    requires FlagsConsistent(store)
    requires id in store ==> !store[id].acceptedPartner
    ensures FlagsConsistent(Respond(store, id, toInitiator, toPartner, verdict, env).store)
  {
    var s := Respond(store, id, toInitiator, toPartner, verdict, env).store;
    forall k | k in s
      ensures s[k].acceptedPartner ==> s[k].acceptedInitiator
    {
      if k != id {
        assert s[k] == store[k];
      } else if id in store && toInitiator == Chat.Delivered && toPartner == Chat.Delivered {
        assert s == Conclude(store, id, verdict, env).store;
      } else {
        assert s[k] == store[k];
      }
    }
  }

  /** The handshake as written: the answers are read with the check that
      accepts either party. */
  function Negotiate(store: Store, id: string, toInitiator: Chat.Delivery, toPartner: Chat.Delivery,
                     msgs: seq<Chat.Msg>, env: Env): (s: Step)
    ensures id !in store ==> s == Step(store, [], None)
    ensures |s.log| == 1 ==> id in store
                             && Handshake.AsWritten(store[id].initiator, store[id].partner, msgs)
                                == Handshake.SecondAnswer(true)
  {
    if id !in store then Step(store, [], None)
    else Respond(store, id, toInitiator, toPartner,
                 Handshake.AsWritten(store[id].initiator, store[id].partner, msgs), env)
  }

  /** The handshake with the intended checks: the first wait reads the
      initiator's answer and the second the partner's. */
  function NegotiateIntended(store: Store, id: string, toInitiator: Chat.Delivery, toPartner: Chat.Delivery,
                             msgs: seq<Chat.Msg>, env: Env): (s: Step)
    ensures id !in store ==> s == Step(store, [], None)
    ensures Refused(toInitiator, toPartner) ==> id !in s.store
    ensures |s.log| == 1 ==>
              && id in store
              && exists i, j :: && 0 <= i < j < |msgs|
                                && msgs[i].author == store[id].initiator && Handshake.SaysJa(msgs[i])
                                && msgs[j].author == store[id].partner && Handshake.SaysJa(msgs[j])
  {
    if id !in store then Step(store, [], None)
    else
      var v := Handshake.Intended(store[id].initiator, store[id].partner, msgs);
      var s := RespondIntended(store, id, toInitiator, toPartner, v, env);
      if |s.log| == 1 then
        Handshake.IntendedNeedsBothParties(store[id].initiator, store[id].partner, msgs);
        s
      else s
  }

  /** The record a proposal creates parses back to its terms under the
      countries the members hold. */
  lemma CreatedRecordParses(store: Store, user: Chat.User, partner: Chat.User, p: Proposal,
                            channel: nat, timestamp: string)
    requires Create(store, user, partner, p, channel, timestamp).Ok?
    requires Chat.CountryOf(user.roles) != Chat.CountryOf(partner.roles)
    requires PlainResource(p.offerResource) && PlainResource(p.wantResource)
    ensures var (id, s) := Create(store, user, partner, p, channel, timestamp).value;
            ParseTerms(s[id].fields, CountryOrUnknown(user.roles), CountryOrUnknown(partner.roles))
            == Some(LoggedTerms(p.offerAmount, p.offerResource, p.wantAmount, p.wantResource))
  {
    var uc := Chat.CountryOf(user.roles).value;
    var pc := Chat.CountryOf(partner.roles).value;
    FieldsParseBack(uc, pc, user.id, partner.id, p);
  }

  /** From proposal to log: when both accept, the countries are unchanged
      and distinct, the channel exists and a sheet is configured, the
      logger is called once with exactly the proposed terms and the record
      is gone. */
  lemma AcceptedTradeIsLogged(store: Store, user: Chat.User, partner: Chat.User, p: Proposal,
                              channel: nat, timestamp: string, sheetId: string)
    requires Create(store, user, partner, p, channel, timestamp).Ok?
    requires Chat.CountryOf(user.roles) != Chat.CountryOf(partner.roles)
    requires PlainResource(p.offerResource) && PlainResource(p.wantResource)
    requires sheetId != ""
    ensures var (id, s) := Create(store, user, partner, p, channel, timestamp).value;
            var env := Env(true, user.roles, partner.roles, sheetId);
            var out := Respond(s, id, Chat.Delivered, Chat.Delivered, Handshake.SecondAnswer(true), env);
            && id !in out.store
            && out.log == [LogCall(sheetId, Chat.CountryOf(user.roles).value, Chat.CountryOf(partner.roles).value,
                                   p.offerResource, p.offerAmount, p.wantResource, p.wantAmount)]
  {
    var (id, s) := Create(store, user, partner, p, channel, timestamp).value;
    var env := Env(true, user.roles, partner.roles, sheetId);
    CreatedRecordParses(store, user, partner, p, channel, timestamp);
    var s2 := s[id := s[id].(acceptedInitiator := true, acceptedPartner := true)];
    assert s2[id].fields == s[id].fields;
    assert Conclude(s, id, Handshake.SecondAnswer(true), env) == Finalize(s2, id, true, None, env);
  }
}

=== FILE: treaties_cog.dfy ===
/** The `/create_treaty` negotiation of `cogs/treaties.py`. Proposals wait
    in `pending_treaties` for the partner's single answer; an accepted
    proposal is copied into `active_treaties`, which a daily sweep clears
    of expired treaties. The limit counts active treaties only. */
module TreatiesCog {
  import opened Wrappers
  import opened Text
  import Chat

  /** `config.TREATY_LIMITS`; a kind without an entry gets 999. */
  function Limit(kind: string): (n: nat)
    ensures kind == "Nichtangriffspakt" ==> n == 5
    ensures kind == "Schutzbündnis" ==> n == 3
    ensures kind == "Allianzvertrag" ==> n == 2
    ensures kind == "Hochzeitspakt" || kind == "Großallianzvertrag" ==> n == 1
    ensures kind !in ["Nichtangriffspakt", "Schutzbündnis", "Allianzvertrag", "Hochzeitspakt", "Großallianzvertrag"]
            ==> n == 999
  {
    if kind == "Nichtangriffspakt" then 5
    else if kind == "Schutzbündnis" then 3
    else if kind == "Allianzvertrag" then 2
    else if kind == "Hochzeitspakt" || kind == "Großallianzvertrag" then 1
    else 999
  }

  /** A treaty record, pending or active (the embed and timestamp text are
      display only). */
  datatype Treaty = Treaty(initiator: nat, partner: nat,
                           initiatorCountry: string, partnerCountry: string,
                           kind: string, duration: int, expiry: int,
                           klausel: string, anmerkungen: string)

  type Treaties = map<string, Treaty>

  /** `pending_treaties` and `active_treaties`. */
  datatype State = State(pending: Treaties, active: Treaties)

  /** No id is both pending and active. */
  predicate Disjoint(st: State) {
    forall id :: id in st.pending ==> id !in st.active
  }

  predicate IsParty(t: Treaty, user: nat) {
    t.initiator == user || t.partner == user
  }

  /** The active treaties of one kind the user is a party to. */
  function Holding(active: Treaties, user: nat, kind: string): set<string> {
    set id | id in active && IsParty(active[id], user) && active[id].kind == kind
  }

  /** `check_treaty_limit` */
  predicate WithinLimit(active: Treaties, user: nat, kind: string) {
    |Holding(active, user, kind)| < Limit(kind)
  }

  datatype Refusal = PartnerIsBot | PartnerIsSelf | LimitReached | Timeout

  /** What the command is given besides the two members. */
  datatype Proposal = Proposal(kind: string, laufzeit: int, klausel: string, anmerkungen: string)

  /** `check_initiator_country` and `check_partner_country`: a message
      from the invoker in the channel of the command. */
  predicate FromInvoker(user: nat, channelId: nat, m: Chat.Msg) {
    m.author == user && m.channel == Chat.Guild(channelId)
  }

  const SecondsPerDay: int := 86400

  /** The invoker sends at least two messages in the channel before the
      waits time out. */
  predicate TwoFromInvoker(user: nat, channelId: nat, msgs: seq<Chat.Msg>) {
    exists i, j :: 0 <= i < j < |msgs| && FromInvoker(user, channelId, msgs[i]) && FromInvoker(user, channelId, msgs[j])
  }

  /** `create_treaty` up to the confirmation: the guards in source order,
      then two waits for the invoker's messages naming the own and the
      partner's country; `id` stands for the fresh `uuid4`. */
  function Create(st: State, id: string, user: Chat.User, partner: Chat.User, p: Proposal,
                  channelId: nat, now: int, msgs: seq<Chat.Msg>): (r: Result<State, Refusal>)
    ensures partner.isBot ==> r == Err(PartnerIsBot)
    ensures !partner.isBot && partner.id == user.id ==> r == Err(PartnerIsSelf)
    ensures !partner.isBot && partner.id != user.id && !WithinLimit(st.active, user.id, p.kind)
            ==> r == Err(LimitReached)
    ensures r == Err(Timeout) <==> && !partner.isBot && partner.id != user.id
                                    && WithinLimit(st.active, user.id, p.kind)
                                    && !TwoFromInvoker(user.id, channelId, msgs)
    ensures r.Ok? <==> && !partner.isBot && partner.id != user.id && WithinLimit(st.active, user.id, p.kind)
                       && TwoFromInvoker(user.id, channelId, msgs)
    ensures r.Ok? ==> && r.value.active == st.active
                      && r.value.pending.Keys == st.pending.Keys + {id}
                      && (forall k :: k in st.pending && k != id ==> r.value.pending[k] == st.pending[k])
    ensures r.Ok? ==> exists i, j :: && 0 <= i < j < |msgs|
                                     && FromInvoker(user.id, channelId, msgs[i])
                                     && FromInvoker(user.id, channelId, msgs[j])
                                     && (forall k :: 0 <= k < j && k != i ==> !FromInvoker(user.id, channelId, msgs[k]))
                                     && r.value.pending[id]
                                        == Treaty(user.id, partner.id, msgs[i].content, msgs[j].content,
                                                  p.kind, p.laufzeit, now + p.laufzeit * SecondsPerDay,
                                                  p.klausel, p.anmerkungen)
  {
    if partner.isBot then Err(PartnerIsBot)
    else if partner.id == user.id then Err(PartnerIsSelf)
    else if !WithinLimit(st.active, user.id, p.kind) then Err(LimitReached)
    else
      var invoker := (m: Chat.Msg) => FromInvoker(user.id, channelId, m);
      match Chat.FirstMatch(msgs, invoker)
      case None => Err(Timeout)
      case Some(i) =>
        var rest := Chat.After(msgs, i);
        match Chat.FirstMatch(rest, invoker)
        case None => Err(Timeout)
        case Some(j) =>
          assert msgs[i + 1 + j] == rest[j];
          Ok(st.(pending := st.pending[id := Treaty(user.id, partner.id, msgs[i].content, rest[j].content,
                                                    p.kind, p.laufzeit, now + p.laufzeit * SecondsPerDay,
                                                    p.klausel, p.anmerkungen)]))
  }

  /** `check_response`: a direct message from the partner whose lowercased
      text starts with "ja" or "nein". */
  predicate IsReply(partner: nat, m: Chat.Msg) {
    && m.author == partner
    && m.channel == Chat.Direct
    && (StartsWith(Lower(m.content), "ja") || StartsWith(Lower(m.content), "nein"))
  }

  /** The text after the first five characters, stripped, when the answer is longer than five characters. */
  function RejectionReason(content: string): Option<string> {
    if |content| > 5 then Some(Strip(content[5..])) else None
  }

  /** What the initiator is told. */
  datatype Notice = AcceptedNotice | RejectedNotice(reason: Option<string>)

  datatype Step = Step(state: State, notice: Option<Notice>)

  /** `finalize_treaty`: an accepted proposal is copied to the active
      treaties under the same id; in every case it leaves the pending ones
      (a failed notification is caught first). */
  function Finalize(st: State, id: string, accepted: bool, reason: Option<string>): (s: Step)
    ensures id !in s.state.pending
    ensures forall k :: k != id ==> (k in s.state.pending <==> k in st.pending)
    ensures forall k :: k in s.state.pending ==> s.state.pending[k] == st.pending[k]
    ensures id !in st.pending ==> s == Step(st, None)
    ensures id in st.pending && accepted ==> s.state.active == st.active[id := st.pending[id]]
                                              && s.notice == Some(AcceptedNotice)
    ensures id in st.pending && !accepted ==> s.state.active == st.active
                                               && s.notice == Some(RejectedNotice(reason))
  {
    if id !in st.pending then Step(st, None)
    else if accepted then
      Step(State(st.pending - {id}, st.active[id := st.pending[id]]), Some(AcceptedNotice))
    else Step(st.(pending := st.pending - {id}), Some(RejectedNotice(reason)))
  }

  /** `send_treaty_confirmation`: `delivery` is what the direct message to
      the partner did, `msgs` what arrives within the ten minutes. A
      refused or failed message (and a missing record) only drops the
      proposal. */
  function Confirm(st: State, id: string, delivery: Chat.Delivery, msgs: seq<Chat.Msg>): (s: Step)
    ensures id !in s.state.pending
    ensures forall k :: k != id ==> (k in s.state.pending <==> k in st.pending)
    ensures forall k :: k in s.state.pending ==> s.state.pending[k] == st.pending[k]
    ensures delivery != Chat.Delivered ==> s == Step(st.(pending := st.pending - {id}), None)
    ensures id in st.pending && delivery == Chat.Delivered
            ==> match Chat.FirstMatch(msgs, m => IsReply(st.pending[id].partner, m))
                case None => s == Finalize(st, id, false, Some("Zeitüberschreitung"))
                case Some(i) =>
                  s == (if StartsWith(Lower(msgs[i].content), "ja") then Finalize(st, id, true, None)
                        else Finalize(st, id, false, RejectionReason(msgs[i].content)))
  {
    if id !in st.pending || delivery != Chat.Delivered then Step(st.(pending := st.pending - {id}), None)
    else match Chat.FirstMatch(msgs, m => IsReply(st.pending[id].partner, m))
      case None => Finalize(st, id, false, Some("Zeitüberschreitung"))
      case Some(i) =>
        if StartsWith(Lower(msgs[i].content), "ja") then Finalize(st, id, true, None)
        else Finalize(st, id, false, RejectionReason(msgs[i].content))
  }

  /** Only an accepted proposal becomes active: the confirmation adds at
      most its own id to the active treaties, and only when the partner's
      first counted answer starts with "ja". */
  lemma OnlyAcceptedBecomeActive(st: State, id: string, delivery: Chat.Delivery, msgs: seq<Chat.Msg>)
    ensures var s := Confirm(st, id, delivery, msgs).state;
            && (forall k :: k in s.active && k != id ==> k in st.active && s.active[k] == st.active[k])
            && (forall k :: k in st.active ==> k in s.active)
    ensures var s := Confirm(st, id, delivery, msgs).state;
            id in s.active && id !in st.active ==>
              && id in st.pending && delivery == Chat.Delivered
              && s.active[id] == st.pending[id]
              && var i := Chat.FirstMatch(msgs, m => IsReply(st.pending[id].partner, m));
                 i.Some? && StartsWith(Lower(msgs[i.value].content), "ja")
  {
    if id in st.pending && delivery == Chat.Delivered {
      match Chat.FirstMatch(msgs, m => IsReply(st.pending[id].partner, m))
      case None =>
      case Some(i) =>
    }
  }

  /** The confirmation keeps pending and active treaties apart. */
  lemma ConfirmKeepsDisjoint(st: State, id: string, delivery: Chat.Delivery, msgs: seq<Chat.Msg>)
    requires Disjoint(st)
    ensures Disjoint(Confirm(st, id, delivery, msgs).state)
  {
    var s := Confirm(st, id, delivery, msgs).state;
    OnlyAcceptedBecomeActive(st, id, delivery, msgs);
    forall k | k in s.pending
      ensures k !in s.active
    {
      assert k in st.pending && k != id;
    }
  }

  /** The active treaties without those expired at `now`. `TreatiesLegacy`
      has the same filter over its own record type. */
  function Unexpired(active: Treaties, now: int): (r: Treaties)
    ensures forall id :: id in r <==> id in active && active[id].expiry > now
    ensures forall id :: id in r ==> r[id] == active[id]
  {
    map id | id in active && active[id].expiry > now :: active[id]
  }

  /** One run of `check_expired_treaties` over the active treaties in the
      map's iteration order `order`. The notices' failures are caught, so
      a run taken as one atomic step completes; a change to the dict
      during one of the run's awaits is not modelled. */
  method Sweep(st: State, order: seq<string>, now: int) returns (s: State)
    requires forall id :: id in st.active <==> id in order
    ensures s.pending == st.pending
    ensures forall id :: id in s.active <==> id in st.active && st.active[id].expiry > now
    ensures forall id :: id in s.active ==> s.active[id] == st.active[id]
    ensures s.active == Unexpired(st.active, now)
  {
    var expired: seq<string> := [];
    var i := 0;
    while i < |order|
      invariant 0 <= i <= |order|
      invariant forall id :: id in expired <==> exists j :: 0 <= j < i && order[j] == id && st.active[id].expiry <= now
    {
      if st.active[order[i]].expiry <= now {
        expired := expired + [order[i]];
      }
      i := i + 1;
    }
    var active := st.active;
    var k := 0;
    while k < |expired|
      invariant 0 <= k <= |expired|
      invariant forall id :: id in active <==> id in st.active && id !in expired[..k]
      invariant forall id :: id in active ==> active[id] == st.active[id]
    {
      if expired[k] in active {
        active := active - {expired[k]};
      }
      assert expired[..k + 1] == expired[..k] + [expired[k]];
      k := k + 1;
    }
    assert expired[..k] == expired;
    s := st.(active := active);
  }

  /** A sweep keeps pending and active treaties apart. */
  lemma SweepKeepsDisjoint(st: State, now: int)
    requires Disjoint(st)
    ensures Disjoint(st.(active := Unexpired(st.active, now)))
  {
  }

  /** One line of the listing: the other party, its country and the
      expiry. */
  datatype Entry = Entry(other: nat, otherCountry: string, expiry: int)

  /** The line for a treaty as seen by `user`. */
  function EntryFor(t: Treaty, user: nat): Entry {
    if t.initiator == user then Entry(t.partner, t.partnerCountry, t.expiry)
    else Entry(t.initiator, t.initiatorCountry, t.expiry)
  }

  /** The user's active treaties, in iteration order, each with its kind. */
  function Listed(active: Treaties, order: seq<string>, user: nat): (r: seq<(string, Entry)>)
    requires forall id :: id in order ==> id in active
    ensures |r| <= |order|
  {
    if |order| == 0 then []
    else
      var rest := Listed(active, order[..|order| - 1], user);
      var t := active[order[|order| - 1]];
      if IsParty(t, user) then rest + [(t.kind, EntryFor(t, user))] else rest
  }

  /** `e` is the line of one of the user's treaties listed in `order`. */
  predicate FromOrder(active: Treaties, order: seq<string>, user: nat, e: (string, Entry))
    requires forall id :: id in order ==> id in active
  {
    exists i :: 0 <= i < |order| && IsParty(active[order[i]], user)
                && e == (active[order[i]].kind, EntryFor(active[order[i]], user))
  }

  /** The listing holds exactly one line per treaty of the user in
      `order`. */
  lemma {:induction false} ListedExactly(active: Treaties, order: seq<string>, user: nat)
    requires forall id :: id in order ==> id in active
    ensures forall e :: e in Listed(active, order, user) <==> FromOrder(active, order, user, e)
  {
    if |order| > 0 {
      var init := order[..|order| - 1];
      ListedExactly(active, init, user);
      forall e
        ensures e in Listed(active, order, user) <==> FromOrder(active, order, user, e)
      {
        if FromOrder(active, init, user, e) {
          var i :| 0 <= i < |init| && IsParty(active[init[i]], user)
                   && e == (active[init[i]].kind, EntryFor(active[init[i]], user));
          assert order[i] == init[i];
        }
        if FromOrder(active, order, user, e) {
          var i :| 0 <= i < |order| && IsParty(active[order[i]], user)
                   && e == (active[order[i]].kind, EntryFor(active[order[i]], user));
          if i < |init| {
            assert init[i] == order[i];
            assert FromOrder(active, init, user, e);
          }
        }
      }
    }
  }

  /** The entries of one kind, in order. */
  function OfKind(es: seq<(string, Entry)>, kind: string): seq<Entry> {
    if |es| == 0 then []
    else OfKind(es[..|es| - 1], kind) + (if es[|es| - 1].0 == kind then [es[|es| - 1].1] else [])
  }

  /** No kind has two groups: the groups are a dict keyed by kind. */
  predicate Distinct(gs: seq<(string, seq<Entry>)>) {
    forall i, j :: 0 <= i < j < |gs| ==> gs[i].0 != gs[j].0
  }

  /** Some group has this kind. */
  predicate HasKind(gs: seq<(string, seq<Entry>)>, kind: string) {
    exists i :: 0 <= i < |gs| && gs[i].0 == kind
  }

  /** Add one entry: append it to its kind's group, or open a new group at
      the end for a kind not seen before. */
  function AddEntry(gs: seq<(string, seq<Entry>)>, kind: string, e: Entry): (r: seq<(string, seq<Entry>)>)
    requires Distinct(gs)
    ensures Distinct(r)
    ensures |r| == |gs| + (if HasKind(gs, kind) then 0 else 1)
    ensures forall i :: 0 <= i < |gs| ==> r[i] == (gs[i].0, gs[i].1 + (if gs[i].0 == kind then [e] else []))
    ensures !HasKind(gs, kind) ==> r[|gs|] == (kind, [e])
  {
    if |gs| == 0 then [(kind, [e])]
    else if gs[0].0 == kind then
      var r := [(kind, gs[0].1 + [e])] + gs[1..];
      forall i | 1 <= i < |gs|
        ensures r[i] == (gs[i].0, gs[i].1 + (if gs[i].0 == kind then [e] else []))
      {
        assert gs[i].0 != gs[0].0;
        assert gs[i].1 + [] == gs[i].1;
      }
      r
    else
      var tail := AddEntry(gs[1..], kind, e);
      var r := [gs[0]] + tail;
      forall i | 0 <= i < |gs|
        ensures r[i] == (gs[i].0, gs[i].1 + (if gs[i].0 == kind then [e] else []))
      {
        if i == 0 {
          assert gs[0].1 + [] == gs[0].1;
        } else {
          assert r[i] == tail[i - 1] && gs[i] == gs[1..][i - 1];
        }
      }
      assert HasKind(gs, kind) <==> HasKind(gs[1..], kind) by {
        if HasKind(gs, kind) {
          var i :| 0 <= i < |gs| && gs[i].0 == kind;
          assert gs[1..][i - 1] == gs[i];
        }
        if HasKind(gs[1..], kind) {
          var i :| 0 <= i < |gs[1..]| && gs[1..][i].0 == kind;
          assert gs[i + 1] == gs[1..][i];
        }
      }
      r
  }

  /** `user_treaties`: the listed entries grouped by kind. */
  function Group(es: seq<(string, Entry)>): (gs: seq<(string, seq<Entry>)>)
    ensures Distinct(gs)
  {
    if |es| == 0 then []
    else AddEntry(Group(es[..|es| - 1]), es[|es| - 1].0, es[|es| - 1].1)
  }

  /** Adding an entry gives its kind a group and no other kind one. */
  lemma AddEntryHasKind(gs: seq<(string, seq<Entry>)>, kind: string, e: Entry, other: string)
    requires Distinct(gs)
    ensures HasKind(AddEntry(gs, kind, e), other) <==> HasKind(gs, other) || other == kind
  {
    var r := AddEntry(gs, kind, e);
    if HasKind(r, other) {
      var g :| 0 <= g < |r| && r[g].0 == other;
      if g < |gs| {
        assert gs[g].0 == other;
      }
    }
    if HasKind(gs, other) {
      var g :| 0 <= g < |gs| && gs[g].0 == other;
      assert r[g].0 == other;
    } else if other == kind {
      assert r[|gs|].0 == other;
    }
  }

  /** Some entry has this kind. */
  predicate Lists(es: seq<(string, Entry)>, kind: string) {
    exists k :: 0 <= k < |es| && es[k].0 == kind
  }

  /** An entry of a kind is in the first part of the listing or is the last. */
  lemma ListsSnoc(es: seq<(string, Entry)>, kind: string)
    requires |es| > 0
    ensures Lists(es, kind) <==> Lists(es[..|es| - 1], kind) || es[|es| - 1].0 == kind
  {
    var init := es[..|es| - 1];
    if Lists(init, kind) {
      var k :| 0 <= k < |init| && init[k].0 == kind;
      assert es[k].0 == kind;
    }
    if Lists(es, kind) {
      var k :| 0 <= k < |es| && es[k].0 == kind;
      if k < |init| {
        assert init[k].0 == kind;
      }
    }
  }

  /** A kind has a group exactly when some entry has that kind. */
  lemma {:induction false} GroupCovers(es: seq<(string, Entry)>, kind: string)
    ensures HasKind(Group(es), kind) <==> Lists(es, kind)
    decreases |es|
  {
    if |es| > 0 {
      var init := es[..|es| - 1];
      GroupCovers(init, kind);
      AddEntryHasKind(Group(init), es[|es| - 1].0, es[|es| - 1].1, kind);
      ListsSnoc(es, kind);
    }
  }

  /** Each group holds exactly the entries of its kind, in listing order. */
  lemma {:induction false} GroupContents(es: seq<(string, Entry)>)
    ensures forall i :: 0 <= i < |Group(es)| ==> Group(es)[i].1 == OfKind(es, Group(es)[i].0)
    decreases |es|
  {
    if |es| > 0 {
      var init := es[..|es| - 1];
      var (kind, e) := es[|es| - 1];
      GroupContents(init);
      var gs0 := Group(init);
      var gs := Group(es);
      forall i | 0 <= i < |gs|
        ensures gs[i].1 == OfKind(es, gs[i].0)
      {
        if i >= |gs0| {
          assert !HasKind(gs0, kind);
          GroupCovers(init, kind);
          if OfKind(init, kind) != [] {
            OfKindNonEmpty(init, kind);
          }
        }
      }
    }
  }

  /** The entries of a kind are the entries listed with that kind. */
  lemma {:induction false} OfKindMembers(es: seq<(string, Entry)>, kind: string)
    ensures forall e :: e in OfKind(es, kind) <==> (kind, e) in es
    decreases |es|
  {
    if |es| > 0 {
      var init := es[..|es| - 1];
      OfKindMembers(init, kind);
      assert es == init + [es[|es| - 1]];
    }
  }

  /** An entry of a kind comes from a listed entry of that kind. */
  lemma {:induction false} OfKindNonEmpty(es: seq<(string, Entry)>, kind: string)
    requires OfKind(es, kind) != []
    ensures Lists(es, kind)
    decreases |es|
  {
    var init := es[..|es| - 1];
    if es[|es| - 1].0 != kind {
      OfKindNonEmpty(init, kind);
      var k :| 0 <= k < |init| && init[k].0 == kind;
      assert es[k] == init[k];
    }
  }

  /** `list_treaties` groups the user's active treaties by kind: one group
      per kind that occurs, each holding exactly the user's treaties of
      that kind, and none at all when the user has none. */
  function ListTreaties(active: Treaties, order: seq<string>, user: nat): (gs: seq<(string, seq<Entry>)>)
    requires forall id :: id in order <==> id in active
    requires forall i, j :: 0 <= i < j < |order| ==> order[i] != order[j]
    ensures Distinct(gs)
    ensures forall id :: id in active && IsParty(active[id], user) ==>
              exists i :: 0 <= i < |gs| && gs[i].0 == active[id].kind && EntryFor(active[id], user) in gs[i].1
    ensures forall i, e :: 0 <= i < |gs| && e in gs[i].1 ==>
              exists id :: id in active && IsParty(active[id], user) && active[id].kind == gs[i].0
                           && e == EntryFor(active[id], user)
    ensures forall i :: 0 <= i < |gs| ==> gs[i].1 == OfKind(Listed(active, order, user), gs[i].0)
    ensures forall kind :: HasKind(gs, kind) <==> exists k :: 0 <= k < |Listed(active, order, user)|
                                                             && Listed(active, order, user)[k].0 == kind
  {
    var es := Listed(active, order, user);
    GroupContents(es);
    forall kind
      ensures HasKind(Group(es), kind) <==> exists k :: 0 <= k < |es| && es[k].0 == kind
    {
      GroupCovers(es, kind);
    }
    ListTreatiesCovers(active, order, user, es, Group(es));
    Group(es)
  }

  /** The grouped listing shows every active treaty of the user under its
      kind, and nothing else. */
  lemma ListTreatiesCovers(active: Treaties, order: seq<string>, user: nat, es: seq<(string, Entry)>,
                           gs: seq<(string, seq<Entry>)>)
    requires forall id :: id in order <==> id in active
    requires es == Listed(active, order, user)
    requires forall i :: 0 <= i < |gs| ==> gs[i].1 == OfKind(es, gs[i].0)
    requires forall kind :: HasKind(gs, kind) <==> exists k :: 0 <= k < |es| && es[k].0 == kind
    ensures forall id :: id in active && IsParty(active[id], user) ==>
              exists i :: 0 <= i < |gs| && gs[i].0 == active[id].kind && EntryFor(active[id], user) in gs[i].1
    ensures forall i, e :: 0 <= i < |gs| && e in gs[i].1 ==>
              exists id :: id in active && IsParty(active[id], user) && active[id].kind == gs[i].0
                           && e == EntryFor(active[id], user)
  {
    ListedExactly(active, order, user);
    forall id | id in active && IsParty(active[id], user)
      ensures exists i :: 0 <= i < |gs| && gs[i].0 == active[id].kind && EntryFor(active[id], user) in gs[i].1
    {
      TreatyIsShown(active, order, user, es, gs, id);
    }
    forall i, e | 0 <= i < |gs| && e in gs[i].1
      ensures exists id :: id in active && IsParty(active[id], user) && active[id].kind == gs[i].0
                           && e == EntryFor(active[id], user)
    {
      ShownIsTreaty(active, order, user, es, gs, i, e);
    }
  }

  /** One treaty of the user appears in its kind's group. */
  lemma TreatyIsShown(active: Treaties, order: seq<string>, user: nat, es: seq<(string, Entry)>,
                      gs: seq<(string, seq<Entry>)>, id: string)
    requires forall id :: id in order <==> id in active
    requires forall e :: e in es <==> FromOrder(active, order, user, e)
    requires forall i :: 0 <= i < |gs| ==> gs[i].1 == OfKind(es, gs[i].0)
    requires forall kind :: HasKind(gs, kind) <==> exists k :: 0 <= k < |es| && es[k].0 == kind
    requires id in active && IsParty(active[id], user)
    ensures exists i :: 0 <= i < |gs| && gs[i].0 == active[id].kind && EntryFor(active[id], user) in gs[i].1
  {
    var t := active[id];
    var line := (t.kind, EntryFor(t, user));
    var k :| 0 <= k < |order| && order[k] == id;
    assert FromOrder(active, order, user, line) by {
      assert IsParty(active[order[k]], user) && line == (active[order[k]].kind, EntryFor(active[order[k]], user));
    }
    var j :| 0 <= j < |es| && es[j] == line;
    assert HasKind(gs, t.kind) by {
      assert es[j].0 == t.kind;
    }
    var i :| 0 <= i < |gs| && gs[i].0 == t.kind;
    OfKindMembers(es, t.kind);
    assert EntryFor(t, user) in gs[i].1;
  }

  /** An entry of a group is the line of one of the user's treaties of
      that kind. */
  lemma ShownIsTreaty(active: Treaties, order: seq<string>, user: nat, es: seq<(string, Entry)>,
                      gs: seq<(string, seq<Entry>)>, i: nat, e: Entry)
    requires forall id :: id in order <==> id in active
    requires forall e :: e in es <==> FromOrder(active, order, user, e)
    requires i < |gs| && gs[i].1 == OfKind(es, gs[i].0) && e in gs[i].1
    ensures exists id :: id in active && IsParty(active[id], user) && active[id].kind == gs[i].0
                         && e == EntryFor(active[id], user)
  {
    OfKindMembers(es, gs[i].0);
    assert FromOrder(active, order, user, (gs[i].0, e));
    var k :| 0 <= k < |order| && IsParty(active[order[k]], user)
             && (gs[i].0, e) == (active[order[k]].kind, EntryFor(active[order[k]], user));
    assert order[k] in active;
  }
}

=== FILE: treaties_legacy.dfy ===
/** The older `/vertrag` command (`attached_assets/treaties.py`). One map
    holds every treaty, proposed or concluded: a proposal is stored at once,
    both parties confirm in two successive waits, a rejection deletes the
    record, an acceptance leaves it in place, and an hourly sweep deletes
    whatever has expired, proposals included. */
module TreatiesLegacy {
  import opened Wrappers
  import opened Text
  import Chat
  import Handshake

  /** `TreatyTypes`: the five kinds of treaty. */
  const NonAggression: string := "Nichtangriffspakt"
  const Protection: string := "Schutzbündnis"
  const Alliance: string := "Allianzvertrag"
  const Marriage: string := "Hochzeitspakt"
  const GrandAlliance: string := "Großallianzvertrag"

  const Kinds: seq<string> := [NonAggression, Protection, Alliance, Marriage, GrandAlliance]

  /** The limits of `check_treaty_limit`; a kind without an entry allows
      none. */
  function Limit(kind: string): (n: nat)
    ensures kind !in Kinds ==> n == 0
    ensures kind in Kinds ==> n == (if kind == Marriage || kind == GrandAlliance then 1 else 3)
  {
    if kind == NonAggression || kind == Protection || kind == Alliance then 3
    else if kind == Marriage || kind == GrandAlliance then 1
    else 0
  }

  /** The breach clause used when none is given (the same text as the
      trade command's). */
  const StandardClause: string :=
    "Der Schuldige muss das Doppelte des Wertes oder eine gleichwertige Entschädigung zahlen. "
    + "Ein Vertragsbruchkrieg (\U{00A7}2.1.1) kann erklärt werden. "
    + "Vertragsbrüche werden von der Spielleitung geprüft. "
    + "Sanktionen können wirtschaftlicher, militärischer oder territorialer Natur sein."

  const SecondsPerDay: int := 86400

  const InitiatorDeclined: string := "Der Vertrag wurde vom Initiator abgelehnt."

  const PartnerDeclined: string := "Der Vertrag wurde vom Partner abgelehnt."

  /** A stored treaty. `messagesSent` is the `messages_sent` key, absent
      (false) on a new record. */
  datatype Treaty = Treaty(kind: string, country1: string, country2: string,
                           initiator: nat, partner: nat, expiry: int,
                           acceptedInitiator: bool, acceptedPartner: bool,
                           klausel: string, anmerkungen: string, messagesSent: bool)

  /** `self.active_treaties` */
  type Store = map<string, Treaty>

  predicate IsParty(t: Treaty, user: nat) {
    t.initiator == user || t.partner == user
  }

  /** The treaties of one kind the user is a party to, proposed or
      concluded. */
  function Holding(store: Store, user: nat, kind: string): set<string> {
    set id | id in store && IsParty(store[id], user) && store[id].kind == kind
  }

  /** `check_treaty_limit`: fewer treaties of that kind than the limit. */
  predicate WithinLimit(store: Store, user: nat, kind: string) {
    |Holding(store, user, kind)| < Limit(kind)
  }

  /** What the command is given besides the two members. */
  datatype Proposal = Proposal(kind: string, laufzeit: int, klausel: string, anmerkungen: string)

  datatype Refusal = UnknownKind | NoCountry | LimitReached

  function TreatyId(userId: nat, partnerId: nat, timestamp: string): string {
    NatToString(userId) + "-" + NatToString(partnerId) + "-" + timestamp
  }

  /** `create_treaty` up to the confirmation: the kind, then both countries,
      then the limit; the record expires `laufzeit` days after `now`. There
      is no bot or self check in this variant. */
  function Create(store: Store, user: Chat.User, partner: Chat.User, p: Proposal,
                  now: int, timestamp: string): (r: Result<(string, Store), Refusal>)
    ensures p.kind !in Kinds ==> r == Err(UnknownKind)
    ensures p.kind in Kinds && (Chat.CountryOf(user.roles).None? || Chat.CountryOf(partner.roles).None?)
            ==> r == Err(NoCountry)
    ensures (p.kind in Kinds && Chat.CountryOf(user.roles).Some? && Chat.CountryOf(partner.roles).Some?
             && !WithinLimit(store, user.id, p.kind))
            ==> r == Err(LimitReached)
    ensures r.Err? <==> p.kind !in Kinds || Chat.CountryOf(user.roles).None?
                        || Chat.CountryOf(partner.roles).None? || !WithinLimit(store, user.id, p.kind)
    ensures r.Ok? ==> var (id, s) := r.value;
                      && id == TreatyId(user.id, partner.id, timestamp)
                      && s.Keys == store.Keys + {id}
                      && (forall k :: k in store && k != id ==> s[k] == store[k])
                      && s[id].kind == p.kind && s[id].initiator == user.id && s[id].partner == partner.id
                      && s[id].country1 == Chat.CountryOf(user.roles).value
                      && s[id].country2 == Chat.CountryOf(partner.roles).value
                      && !s[id].acceptedInitiator && !s[id].acceptedPartner && !s[id].messagesSent
                      && s[id].klausel == (if p.klausel == "" then StandardClause else p.klausel)
                      && s[id].anmerkungen == p.anmerkungen
                      && s[id].expiry == now + p.laufzeit * SecondsPerDay
  {
    if p.kind !in Kinds then Err(UnknownKind)
    else
      var uc := Chat.CountryOf(user.roles);
      var pc := Chat.CountryOf(partner.roles);
      if uc.None? || pc.None? then Err(NoCountry)
      else if !WithinLimit(store, user.id, p.kind) then Err(LimitReached)
      else
        var id := TreatyId(user.id, partner.id, timestamp);
        var clause := if p.klausel != "" then p.klausel else StandardClause;
        Ok((id, store[id := Treaty(p.kind, uc.value, pc.value, user.id, partner.id,
                                   now + p.laufzeit * SecondsPerDay, false, false,
                                   clause, p.anmerkungen, false)]))
  }

  /** Adding a fresh treaty of the kind adds exactly that id to the
      holding. */
  lemma HoldingGrows(store: Store, id: string, t: Treaty, user: nat)
    requires id !in store && IsParty(t, user)
    ensures Holding(store[id := t], user, t.kind) == Holding(store, user, t.kind) + {id}
  {
  }

  /** A created treaty never takes its initiator past the limit of its
      kind. */
  lemma CreateRespectsLimit(store: Store, user: Chat.User, partner: Chat.User, p: Proposal,
                            now: int, timestamp: string)
    requires Create(store, user, partner, p, now, timestamp).Ok?
    requires TreatyId(user.id, partner.id, timestamp) !in store
    ensures var (_, s) := Create(store, user, partner, p, now, timestamp).value;
            |Holding(s, user.id, p.kind)| <= Limit(p.kind)
  {
    var (id, s) := Create(store, user, partner, p, now, timestamp).value;
    HoldingGrows(store, id, s[id], user.id);
    assert s == store[id := s[id]];
  }

  /** What the announcement channel receives. */
  datatype Announcement = Concluded | Rejected(reason: string)

  datatype Step = Step(store: Store, announced: Option<Announcement>)

  /** `rejection_reason or f"Der vorgeschlagene {type} wurde abgelehnt."` */
  function RejectionText(kind: string, reason: Option<string>): string {
    if reason.Some? && reason.value != "" then reason.value
    else "Der vorgeschlagene " + kind + " wurde abgelehnt."
  }

  /** `finalize_treaty`: nothing happens for a missing record or a missing
      announcement channel; an accepted treaty stays stored (until it
      expires); a rejected one is deleted. */
  function Finalize(store: Store, id: string, accepted: bool, reason: Option<string>,
                    channelPresent: bool): (s: Step)
    ensures id !in store || !channelPresent ==> s == Step(store, None)
    ensures id in store && channelPresent && accepted ==> s == Step(store, Some(Concluded))
    ensures id in store && channelPresent && !accepted
            ==> s.store == store - {id} && s.announced == Some(Rejected(RejectionText(store[id].kind, reason)))
    ensures forall k :: k != id ==> (k in s.store <==> k in store)
    ensures forall k :: k in s.store ==> k in store && s.store[k] == store[k]
  {
    if id !in store || !channelPresent then Step(store, None)
    else if accepted then Step(store, Some(Concluded))
    else Step(store - {id}, Some(Rejected(RejectionText(store[id].kind, reason))))
  }

  /** The two waits of `send_treaty_confirmation` after the proposal went
      out. */
  function Conclude(store: Store, id: string, verdict: Handshake.Verdict, channelPresent: bool): (s: Step)
    requires id in store
    ensures forall k :: k != id ==> (k in s.store <==> k in store)
    ensures forall k :: k in s.store && k != id ==> s.store[k] == store[k]
    ensures verdict.FirstTimeout? || verdict.SecondTimeout? ==> s == Step(store - {id}, None)
    ensures verdict.FirstNo? || verdict == Handshake.SecondAnswer(false) ==> id !in s.store || !channelPresent
    ensures verdict.FirstNo? && channelPresent
            ==> s.announced == Some(Rejected(InitiatorDeclined))
    ensures verdict == Handshake.SecondAnswer(false) && channelPresent
            ==> s.announced == Some(Rejected(PartnerDeclined))
    ensures verdict == Handshake.SecondAnswer(true)
            ==> && id in s.store
                && s.store[id] == store[id].(acceptedInitiator := true, acceptedPartner := true)
                && s.announced == (if channelPresent then Some(Concluded) else None)
  {
    var t := store[id];
    match verdict
    case FirstTimeout => Step(store - {id}, None)
    case FirstNo =>
      Finalize(store[id := t.(acceptedInitiator := false)], id, false, Some(InitiatorDeclined), channelPresent)
    case SecondTimeout => Step(store - {id}, None)
    case SecondAnswer(ja) =>
      Finalize(store[id := t.(acceptedInitiator := true, acceptedPartner := ja)], id, ja,
               if ja then None else Some(PartnerDeclined), channelPresent)
  }

  /** `send_treaty_confirmation`. The proposal goes out only while
      `messages_sent` is unset; a refused message deletes the record, any
      other failure escapes to the command handler and leaves it. */
  function Respond(store: Store, id: string, toInitiator: Chat.Delivery, toPartner: Chat.Delivery,
                   verdict: Handshake.Verdict, channelPresent: bool): (s: Step)
    ensures id !in store ==> s == Step(store, None)
    ensures forall k :: k != id ==> (k in s.store <==> k in store)
    ensures forall k :: k in s.store && k != id ==> s.store[k] == store[k]
    ensures id in store && !store[id].messagesSent
            && (toInitiator == Chat.Forbidden || (toInitiator == Chat.Delivered && toPartner == Chat.Forbidden))
            ==> s == Step(store - {id}, None)
    ensures id in store && !store[id].messagesSent
            && (toInitiator == Chat.Failed || (toInitiator == Chat.Delivered && toPartner == Chat.Failed))
            ==> s == Step(store, None)
    ensures id in store && store[id].messagesSent
            ==> s == Conclude(store, id, verdict, channelPresent)
    ensures id in store && !store[id].messagesSent && toInitiator == Chat.Delivered && toPartner == Chat.Delivered
            ==> s == Conclude(store[id := store[id].(messagesSent := true)], id, verdict, channelPresent)
  {
    if id !in store then Step(store, None)
    else if store[id].messagesSent then Conclude(store, id, verdict, channelPresent)
    else if toInitiator == Chat.Forbidden then Step(store - {id}, None)
    else if toInitiator == Chat.Failed then Step(store, None)
    else if toPartner == Chat.Forbidden then Step(store - {id}, None)
    else if toPartner == Chat.Failed then Step(store, None)
    else
      assert toInitiator == Chat.Delivered && toPartner == Chat.Delivered;
      Conclude(store[id := store[id].(messagesSent := true)], id, verdict, channelPresent)
  }

  /** A treaty that survives its confirmation with the announcement made
      has been accepted by both sides and has had its proposal sent. */
  lemma SurvivorIsAccepted(store: Store, id: string, toInitiator: Chat.Delivery, toPartner: Chat.Delivery,
                           verdict: Handshake.Verdict)
    requires id in store
    requires Respond(store, id, toInitiator, toPartner, verdict, true).announced.Some?
    requires id in Respond(store, id, toInitiator, toPartner, verdict, true).store
    ensures verdict == Handshake.SecondAnswer(true)
    ensures var t := Respond(store, id, toInitiator, toPartner, verdict, true).store[id];
            t.acceptedInitiator && t.acceptedPartner && t.messagesSent
  {
    var s := Respond(store, id, toInitiator, toPartner, verdict, true);
    var base := if store[id].messagesSent then store else store[id := store[id].(messagesSent := true)];
    assert s == Conclude(base, id, verdict, true);
  }

  /** Once the proposal has been sent, a second confirmation run sends
      nothing again: its outcome depends only on the verdict. */
  lemma ProposalSentOnce(store: Store, id: string, d1: Chat.Delivery, d2: Chat.Delivery,
                         e1: Chat.Delivery, e2: Chat.Delivery, verdict: Handshake.Verdict, channelPresent: bool)
    requires id in store && store[id].messagesSent
    ensures Respond(store, id, d1, d2, verdict, channelPresent) == Respond(store, id, e1, e2, verdict, channelPresent)
  {
  }

  /** The handshake as written: both waits accept either party. */
  function Negotiate(store: Store, id: string, toInitiator: Chat.Delivery, toPartner: Chat.Delivery,
                     msgs: seq<Chat.Msg>, channelPresent: bool): (s: Step)
    ensures id !in store ==> s == Step(store, None)
    ensures s.announced == Some(Concluded) ==> && id in store && id in s.store
                                               && Handshake.AsWritten(store[id].initiator, store[id].partner, msgs)
                                                  == Handshake.SecondAnswer(true)
                                               && s.store[id].acceptedInitiator && s.store[id].acceptedPartner
  {
    if id !in store then Step(store, None)
    else Respond(store, id, toInitiator, toPartner,
                 Handshake.AsWritten(store[id].initiator, store[id].partner, msgs), channelPresent)
  }

  /** The confirmation with the intended checks: the first wait reads the
      initiator's answer and the second the partner's. */
  function NegotiateIntended(store: Store, id: string, toInitiator: Chat.Delivery, toPartner: Chat.Delivery,
                             msgs: seq<Chat.Msg>, channelPresent: bool): (s: Step)
    ensures id !in store ==> s == Step(store, None)
    ensures s.announced == Some(Concluded) ==>
              && id in store
              && exists i, j :: && 0 <= i < j < |msgs|
                                && msgs[i].author == store[id].initiator && Handshake.SaysJa(msgs[i])
                                && msgs[j].author == store[id].partner && Handshake.SaysJa(msgs[j])
  {
    if id !in store then Step(store, None)
    else
      var v := Handshake.Intended(store[id].initiator, store[id].partner, msgs);
      var s := Respond(store, id, toInitiator, toPartner, v, channelPresent);
      if s.announced == Some(Concluded) then
        Handshake.IntendedNeedsBothParties(store[id].initiator, store[id].partner, msgs);
        s
      else s
  }

  /** With the either-party check, two "ja" from the initiator alone
      conclude the treaty: it is kept with both acceptance flags set and
      announced as concluded, although the partner never answered. */
  lemma InitiatorAloneConcludesTreaty(store: Store, id: string)
    requires id in store
    ensures var t := store[id];
            var ja := Chat.Msg(t.initiator, Chat.Direct, "ja");
            var s := Negotiate(store, id, Chat.Delivered, Chat.Delivered, [ja, ja], true);
            && s.announced == Some(Concluded)
            && id in s.store && s.store[id].acceptedInitiator && s.store[id].acceptedPartner
  {
    Handshake.InitiatorAloneConcludes(store[id].initiator, store[id].partner);
  }

  /** The store without the treaties expired at `now`. The same filter as
      `TreatiesCog.Unexpired`, over this variant's own record type: the two
      cogs keep different treaty records, so each states its sweep against
      a filter on its own map. */
  function Unexpired(store: Store, now: int): (r: Store)
    ensures forall id :: id in r <==> id in store && store[id].expiry > now
    ensures forall id :: id in r ==> r[id] == store[id]
  {
    map id | id in store && store[id].expiry > now :: store[id]
  }

  predicate Expired(store: Store, id: string, now: int) {
    id in store && store[id].expiry <= now
  }

  /** One pass of `check_expired_treaties`. `order` is the map's iteration
      order and `delivery(id)` how the expiry notices of treaty `id` went:
      a refused notice is logged and skipped, any other failure ends the
      task (`halted`) before anything is deleted. */
  method Sweep(store: Store, order: seq<string>, now: int, delivery: string -> Chat.Delivery)
    returns (s: Store, halted: bool)
    requires forall id :: id in store <==> id in order
    ensures halted <==> exists id :: Expired(store, id, now) && delivery(id) == Chat.Failed
    ensures halted ==> s == store
    ensures !halted ==> s == Unexpired(store, now)
  {
    var expired: seq<string> := [];
    var i := 0;
    while i < |order|
      invariant 0 <= i <= |order|
      invariant forall j :: 0 <= j < i ==> (Expired(store, order[j], now) ==> delivery(order[j]) != Chat.Failed)
      invariant forall id :: id in expired <==> exists j :: 0 <= j < i && order[j] == id && Expired(store, id, now)
    {
      var id := order[i];
      if store[id].expiry <= now {
        if delivery(id) == Chat.Failed {
          return store, true;
        }
        expired := expired + [id];
      }
      i := i + 1;
    }
    s := store;
    var k := 0;
    while k < |expired|
      invariant 0 <= k <= |expired|
      invariant forall id :: id in s <==> id in store && id !in expired[..k]
      invariant forall id :: id in s ==> s[id] == store[id]
    {
      s := s - {expired[k]};
      assert expired[..k + 1] == expired[..k] + [expired[k]];
      k := k + 1;
    }
    assert expired[..k] == expired;
    halted := false;
  }

  /** A sweep that runs through keeps every treaty that has not expired,
      concluded or not, and a second sweep at the same time removes
      nothing more. */
  lemma SweepIdempotent(store: Store, now: int)
    ensures Unexpired(Unexpired(store, now), now) == Unexpired(store, now)
    ensures forall id :: id in store && store[id].expiry > now ==> id in Unexpired(store, now)
  {
  }

  /** The personal notice of a concluded or expired treaty: a fixed text
      around the addressee's country and the other country. */
  datatype Notice = Notice(opening: string, middle: string, closing: string)

  function Addressed(n: Notice, own: string, other: string): string {
    n.opening + own + n.middle + other + n.closing
  }

  /** The partner's notice as written: the initiator's notice with
      `.replace(initiator_country, partner_country)` followed by
      `.replace(partner_country, initiator_country)`. */
  function PartnerNoticeAsWritten(n: Notice, country1: string, country2: string): string
    requires |country1| > 0 && |country2| > 0
  {
    Replace(Replace(Addressed(n, country1, country2), country1, country2), country2, country1)
  }

  /** The second replacement undoes the first and turns the partner's own
      country into the initiator's: a one-letter partner country never
      appears in the partner's notice, whatever the text. */
  lemma PartnerNoticeLosesPartnerCountry(n: Notice, country1: string, c: char)
    requires |country1| > 0 && c !in country1
    ensures c !in PartnerNoticeAsWritten(n, country1, [c])
  {
    ReplaceRemovesChar(Replace(Addressed(n, country1, [c]), country1, [c]), c, country1);
  }

  /** The notice the partner is evidently meant to get: the same text
      addressed to the partner's country and naming the initiator's. */
  function PartnerNotice(n: Notice, country1: string, country2: string): (r: string)
    ensures |r| == |n.opening| + |country2| + |n.middle| + |country1| + |n.closing|
    ensures r[|n.opening|..|n.opening| + |country2|] == country2
    ensures r[|n.opening| + |country2| + |n.middle|..|n.opening| + |country2| + |n.middle| + |country1|] == country1
  {
    var r := Addressed(n, country2, country1);
    assert r == n.opening + (country2 + (n.middle + (country1 + n.closing)));
    r
  }
}

=== FILE: wrappers.dfy ===
/** Failure-carrying result types shared by every module of the model. */
module Wrappers {

  datatype Option<+T> = None | Some(value: T) {
    function GetOr(default: T): T {
      match this
      case Some(v) => v
      case None => default
    }
  }

  /** The outcome of a command handler: either the value it goes on with,
      or the (user-facing) refusal that made it return early. */
  datatype Result<+R, +E> = Ok(value: R) | Err(error: E) {
    predicate IsFailure() {
      Err?
    }

    function PropagateFailure<U>(): Result<U, E>
      requires Err?
    {
      Err(error)
    }

    function Extract(): R
      requires Ok?
    {
      value
    }
  }
}
